=== FILE: README.md ===
# glowfic-dl compilation engine, in Dafny

A model of the core of glowfic-dl, the downloader that turns glowfic.com
threads into EPUB books. The project models what happens between the
scraped HTML and the book's items:

- **Sanitizer.** The EPUB 3 file-name sanitizer of `src/helpers.py`:
  - banned characters and code-point ranges are dropped;
  - trailing periods are stripped;
  - names longer than 255 UTF-8 bytes are cut in front of their extension.
- **Image registries.**
  - The two-namespace `ImageMap` of `src/render.py` gives every icon and
    image a dense id and a zero-padded, sanitized file name.
  - The single-map `ImageMap.insert` of the four root scripts names each
    new URL `img<n>.<ext>`.
- **Post rendering.** Each variant of `render_post` builds the anchor,
  the header line, the icon and the content:
  - `src/render.py` (`Render`);
  - `glowfic-dl.py` and `epub.py` (`EarlyRender`, `GlowficDl`);
  - `main.py` (`MainScript`);
  - `streamlit_app.py` (`StreamlitApp`).
- **Section splitting.** `render_posts` packs posts greedily into
  sections of at most `SECTION_SIZE_LIMIT` (200000) bytes (`Splitting`).
- **Link resolution.** `compile_chapters` maps every permalink to the file
  of the last section holding it. It then rewrites each href:
  - to that file;
  - to glowfic.com;
  - or not at all.

  It emits one list of items per chapter (`Links`).

Some modules are shared helpers:

- `Wrappers` holds `Option` and `Result`.
- `Seqs` holds the insertion-ordered dictionary of authors, flattening,
  sums, and a loop that stops at its first failure.
- `Utf8` gives encoded lengths.
- `Decimal` covers `%i` and `%.*i`.
- `Urls` covers `urlparse`/`geturl` and the two reply-link regular
  expressions.
- `Posts` holds the post and rendered-post shapes.

Strings are sequences of Unicode scalar values. A URL is the six-part
record that `urlparse` yields: scheme, host, path, the `;params` of the
last path segment, query and fragment. Its text is `Unparse`, which models
`geturl` including the `uses_netloc` rule. Table lookups and regular
expressions work on that text.

A script's exception ends its whole run. The model therefore returns a
`Result`: the first failing lookup ends `RenderPosts`, and sanitizer
errors are `Failure(NothingLeft)` or `Failure(ExtensionTooLong)`.

Where the code and its documented design differ, the model follows the code:

- Rewriting links is not idempotent (`Links.RewriteNotIdempotent`). A
  resolved internal link has no host, so a second pass sends it to
  glowfic.com.
- External links are not marked in any way. Hrefs with a host are left
  alone (`Links.HostedLinksKept`), except absolute glowfic.com reply URLs
  in `src/render.py`.
- A section with several posts can exceed the limit. The split guard only
  checks that the counter is positive, so posts of size zero followed by a
  large post share a section. `Splitting.WithinBudget` states the exact
  bound, and `Splitting.MultiItemSectionsFit` gives the 200000-byte bound
  when every post has a positive size.
- `add_image` records the width of the icon counter as the image padding
  width (`RegistryExamples.ImageWidthFromIconCounter`).
- `add_icon` widens the padding of all icons as the counter grows. An icon
  looked up before and after the eleventh registration gets two different
  file names (`ImageRegistry.FilenameMovesWhenWidthGrows`,
  `RegistryExamples.EleventhIconRenamesFirst`).

`epub.py` repeats the `ImageMap`, `render_post`, `Section`,
`render_posts` and `compile_chapters` code of `glowfic-dl.py` line for
line, so the members citing `glowfic-dl.py` model `epub.py` too. The `ImageMap.insert` of
`glowfic-dl.py`, `epub.py`, `main.py` and `streamlit_app.py` is the same
function in all four (`SimpleImages.Insert`).

## Model

| member | source | states |
|---|---|---|
| Sanitizer.Filter | src/helpers.py:72-85 | the filtered name contains exactly the characters of the input that are neither in the banned list nor in a banned range; it holds no banned character, is never longer, and a name with no banned character is kept as is |
| Sanitizer.FilterConcat | src/helpers.py:75-85 | filtering goes character by character: filtering a concatenation is concatenating the filtered parts |
| Sanitizer.StripPeriods | src/helpers.py:87-89 | the result is a prefix of the input that does not end in '.', and everything removed is '.' |
| Sanitizer.SplitExtension | src/helpers.py:103-104 | the extension holds no '.'; a name with a '.' is the stem, '.', and the extension; a name without one is all extension with an empty stem |
| Sanitizer.ExtensionAfterLastPeriod | src/helpers.py:103-104 | the extension of `x + "." + e` is `e` whenever `e` has no '.' |
| Sanitizer.KeptLength | src/helpers.py:110-115 | the truncation loop stops at a prefix that fits in 255 bytes together with '.' and the extension, and the next longer prefix does not fit |
| Sanitizer.TruncationIsLongest | src/helpers.py:110-115 | starting the loop from `name[:-1]` loses nothing: the kept prefix is the longest prefix of the stem that fits |
| Sanitizer.Shorten | src/helpers.py:100-116 | for a filtered name over 255 bytes: fails with ExtensionTooLong exactly when the extension exceeds 254 bytes; otherwise returns a valid name made of the longest fitting stem prefix, '.', and the extension |
| Sanitizer.Sanitize | src/helpers.py:69-116 | every returned name is valid (non-empty, no banned character, no trailing '.', at most 255 bytes); fails with NothingLeft exactly when filtering and stripping leave nothing, and with ExtensionTooLong exactly when the name is too long and its extension exceeds 254 bytes; a short cleaned name is returned whole; a long one is cut to the longest fitting stem prefix |
| Sanitizer.ValidNamesPassUnchanged | src/helpers.py:69-98 | a name comes back unchanged if and only if it is already valid |
| Sanitizer.Idempotent | src/helpers.py:69-116 | sanitizing a sanitized name gives the same name |
| SanitizerExamples.ChapterNameUnchanged | test/unit_test.py:25-27 | "chapter_01.xhtml" passes unchanged |
| SanitizerExamples.ChineseNameUnchanged | test/unit_test.py:29-31 | "1-0 (星期日没有日).xhtml" passes unchanged |
| SanitizerExamples.KyubeyNameUnchanged | test/unit_test.py:33-35 | "／人◕ ‿‿ ◕人＼.css" passes unchanged |
| SanitizerExamples.ZalgoNameUnchanged | test/unit_test.py:37-39 | the name stacked with combining marks passes unchanged |
| SanitizerExamples.LongNameTruncated | test/unit_test.py:43-46 | 300 'A's before ".xhtml" become 249 'A's before ".xhtml" |
| SanitizerExamples.CharacterFiltration | test/unit_test.py:48-51 | the name interleaved with banned characters and code points from every range becomes "chapter_02.xhtml" |
| SanitizerExamples.StripsTrailingPeriod | test/unit_test.py:53-56 | a trailing '.' is removed |
| SanitizerExamples.OnlyPeriodsFails | test/unit_test.py:60-62 | "..." fails with NothingLeft |
| SanitizerExamples.LongExtensionFails | test/unit_test.py:64-66 | a 300-byte extension fails with ExtensionTooLong |
| Utf8.Len | src/helpers.py:97 | the UTF-8 length of a string is between one and four bytes per character |
| Utf8.LenConcat | src/helpers.py:112 | encoded lengths add up over concatenation |
| Decimal.Show | src/render.py:97 | `str(n)` is a non-empty run of digits without a leading zero, one digit exactly below 10 |
| Decimal.ParseShow | src/render.py:79 | reading back the numeral of `n` gives `n` |
| Decimal.ShowInjective | glowfic-dl.py:94 | distinct numbers have distinct numerals |
| Decimal.Pad | src/render.py:79 | `"%.*i" % (w, n)` is all digits, has length `max(w, len(str(n)))` and reads back as `n` |
| Urls.PathOnly | src/render.py:293 | a bare file name stored as an href reads back as that exact text |
| Urls.ReplyPath | src/render.py:28 | the reply pattern matches exactly when the text starts with "/replies/" or "/posts/"; the match is a prefix of the text made of that start and digits, and the digit run is the whole one |
| Urls.MatchAbsoluteReply | src/render.py:28 | the `relative` group of an absolute glowfic.com reply URL always matches the relative reply pattern |
| Urls.AbsoluteReplyMatches | src/render.py:28 | an http or https glowfic.com URL, with or without "www.", followed by "/replies/" or "/posts/" and a digit run matches, and its `relative` group is that path with the whole digit run |
| Urls.ExtIsPathTail | src/render.py:93-94 | the extension is the part of the path after its last '.', or the whole path when it has none; the params are not part of it |
| Urls.HostedIsNotRelative | src/render.py:289-298 | the text of a parsed URL with a host never matches the relative reply pattern, so only host-less links can resolve through the first branch |
| ImageRegistry.Insert | src/render.py:92-98 | a known URL changes nothing; a new URL gets the namespace prefix, the next id and the text after the last '.' of its path as extension; earlier entries are kept; density of ids is preserved |
| ImageRegistry.AddIcon | src/render.py:92-98 | registers a new icon and sets the icon width to the digit count of the icon counter before it advances; images and the image width are untouched; a known icon changes nothing; validity is kept |
| ImageRegistry.AddImage | src/render.py:107-113 | URLs already known as icons or images are ignored; a new one is registered under "image" and sets the image width to the digit count of the icon counter; icons and the icon width are untouched; validity is preserved |
| ImageRegistry.ToFilename | src/render.py:77-80 | the file is "Images/" plus the sanitized `name + id padded to the width + "." + ext`, and it fails with BadName exactly when sanitizing fails; the rest after "Images/" is always a valid name; a name needing no sanitizing is used as is |
| ImageRegistry.GetIcon | src/render.py:100-105 | fails with NotRegistered exactly when the URL is not an icon; otherwise the icon's file for its id padded to the icon width |
| ImageRegistry.GetImage | src/render.py:115-123 | an icon URL resolves exactly as the icon; fails with NotRegistered exactly when the URL is in neither namespace; an image URL gets the image's file for its id padded to the image width |
| ImageRegistry.FileNamesDistinct | src/render.py:77-123 | in a reachable map, two distinct registered URLs whose names need no sanitizing get different files |
| ImageRegistry.StemInjective | src/render.py:79 | the id can be read back from `name + "%.*i" + "." + ext`, since the padded digits stop at the '.' |
| ImageRegistry.IdsInFirstSightingOrder | src/render.py:92-98 | from an empty namespace, the k-th distinct URL gets id k and only the URLs seen are registered |
| ImageRegistry.FilenameStableWhileWidthHolds | src/render.py:96-105 | a later registration that leaves the padding width alone keeps every icon's file name |
| ImageRegistry.FilenameMovesWhenWidthGrows | src/render.py:96-105 | a registration that widens the padding changes the file name of every earlier icon whose name needs no sanitizing |
| ImageRegistry.AddIcons | src/render.py:169-172 | after the icon pass the icons are exactly the old ones plus the URLs given; images are untouched; validity is kept |
| ImageRegistry.AddImages | src/render.py:175-178 | after the image pass the images are the old ones plus the given URLs that are not icons; icons are untouched; validity is kept |
| ImageRegistry.AddIconsInsertsAll | src/render.py:169-172 | the icon pass is plain registration of the URLs in order |
| ImageRegistry.AddImagesInsertsUnknown | src/render.py:175-178 | the image pass is plain registration of the URLs that are not icons, in order |
| RegistryExamples.EleventhIconRenamesFirst | src/render.py:92-105 | with ten icons the first icon is "Images/icon0.png"; after an eleventh it is "Images/icon00.png" |
| RegistryExamples.ImageWidthFromIconCounter | src/render.py:107-123 | with ten icons and no images, the first image is "Images/image00.png" |
| SimpleImages.Insert | glowfic-dl.py:90-96 | returns the name now stored for the URL; a known URL keeps its name; a new URL is named `img<next>.<ext>` and the counter advances; no two URLs share a name |
| SimpleImages.NameInjective | glowfic-dl.py:94 | the number and the extension can be read back from an `img<n>.<ext>` name |
| SimpleImages.NamesInFirstSightingOrder | glowfic-dl.py:90-96 | from an empty map, the k-th distinct URL is named `img<k>` and only URLs seen are named |
| SimpleImages.InsertAllValid | glowfic-dl.py:90-96 | registering any URLs from an empty map never gives two URLs the same name |
| Posts.Present | src/render.py:195-198 | keeps exactly the present header fields |
| Posts.HeaderMatchesCases | src/render.py:195-198 | the header is the present ones of character, screen name and author in that order joined by " / ", for all eight cases |
| Posts.ContentsRoundTrip | src/render.py:216-220 | content children appended to a post read back unchanged and add no anchor, header or icon |
| Posts.Assemble | src/render.py:205-220 | a rendered post holds the anchor if any at index 0, then the header, then the icon if any, then the content as its last blocks, and nothing else; each reads back as given |
| Posts.LaidOutUnique | src/render.py:205-220 | two posts laid out from the same anchor, header, icon and content are the same post |
| Posts.IconUrls | src/render.py:169-172 | the URLs collected are exactly the icon sources of the posts |
| Seqs.Remember | src/render.py:239 | setting a key keeps the existing key order, appends a new key at the end, and keeps keys distinct |
| Seqs.Recorded | src/render.py:229-239 | after recording a list of authors, the keys are the old keys followed by the new ones, each once |
| Seqs.RecordedConcat | src/render.py:239 | recording two chapters' authors one after the other equals recording them together |
| Seqs.MapAll | src/render.py:200-201 | the loop succeeds exactly when every step does, giving each step's result in order; otherwise it fails with the error of the first failing step |
| Splitting.Split | src/render.py:230-240 | at least one section is yielded; the sections concatenate back to the posts in order; with posts none is empty; each section but the last was closed because it was non-empty by size and the next post would overflow it; each stays within the limit unless everything before its last post has size zero |
| Splitting.MultiItemSectionsFit | src/render.py:233-236 | when every post has positive size, a section holding more than one post is at most 200000 bytes |
| Splitting.Build | src/render.py:143-147 | a section built by appending posts holds them in order, its size is their total, and its link targets are their permalinks in order |
| Splitting.Sections | src/render.py:227-240 | the bodies of the yielded sections concatenate back to the posts in order; each section's size counter is the sum of its posts' sizes and within the budget; a section is closed only when the next post would overflow it |
| Render.ImageSrcs | src/render.py:176-178 | the image sources of a post's content are exactly its images |
| Render.ImageUrls | src/render.py:175-178 | the image sources collected are exactly the images of all posts' content |
| Render.Populate | src/render.py:168-178 | icons are registered first, then the content images that are not icons; afterwards every image any post looks up is registered; validity is preserved |
| Render.RewriteImages | src/render.py:200-201 | succeeds exactly when every content image resolves; each image is replaced by "../" plus its file and every other node is kept; otherwise the first failing lookup's error |
| Render.RenderPost | src/render.py:181-224 | succeeds exactly when every content image and the icon resolve; a post whose images are all registered fails only on a rejected file name; an unregistered image makes it fail; an image failure is reported before the icon; on success the header is the joined header text, an anchor appears exactly when the permalink has a fragment, the icon is "../" plus its file with its alt text, and the content has its images made local; the blocks come in the order anchor, header, icon, content |
| Render.UnregisteredFails | src/render.py:100-123 | a missing image or icon makes a lookup fail, and when all are registered any failure is a rejected file name |
| Render.RenderPosts | src/render.py:227-240 | succeeds exactly when every post renders against the populated map, and then never because an image is missing; the sections' bodies are the rendered posts in order, split as the splitter does; the map is the populated one; authors are recorded in post order |
| EarlyRender.RenderPost | glowfic-dl.py:141-179 | the blocks are, in order, the anchor (always present when anchored, even with an empty fragment), the header, the icon named by `insert` with no alt text, and the untouched content; the registry advances exactly by the icon's URL |
| MainScript.RenderPost | main.py:34-63 | no anchor: the header comes first, then the icon named by `insert` with no alt text, then the untouched content; the registry advances exactly by the icon's URL |
| EarlyRender.RenderAll | glowfic-dl.py:182-194 | post k is rendered against the registry the posts before it left; the final registry is every icon URL registered in post order |
| EarlyRender.InsertAllKeeps | glowfic-dl.py:90-96 | a registered URL keeps its name through any later insertions |
| EarlyRender.IconNamedAsInTheEnd | glowfic-dl.py:167-173 | the icon file a post shows is the name the final registry holds for its URL |
| EarlyRender.IconFilesMatchUrls | glowfic-dl.py:167-173 | from an empty registry, two posts show the same icon file if and only if their icons have the same URL |
| GlowficDl.RenderPosts | glowfic-dl.py:182-194 | the sections' bodies are the posts rendered in order against the running registry, each with its fragment anchor; sections are split as the splitter does; the registry ends with every icon registered; authors are recorded |
| GlowficDl.CompileChapters | glowfic-dl.py:213-245 | section j of chapter i becomes the item `chapter<i>_<j>.html` with the chapter title and its links rewritten without the absolute retry; no two items share a file name |
| MainScript.RenderPosts | main.py:96-103 | one output holding every post in order, each rendered against the running registry with the header first and no anchor; the registry ends with every icon registered; authors are recorded |
| StreamlitApp.RenderPost | streamlit_app.py:36-66 | no anchor; in order the header, the icon hotlinked to its original URL with no alt text, and the untouched content |
| StreamlitApp.RenderPosts | streamlit_app.py:107-122 | the outputs concatenate back to the rendered posts, none is empty when there are posts, each but the last was closed for overflow, each stays within the limit unless its earlier posts have size zero; authors are recorded |
| Links.SectionName | src/render.py:269-278 | with the zero-padded naming the section file name is always a valid, sanitized name |
| Links.PaddedNameSanitizes | src/render.py:269-278 | sanitizing `"%.*i-%.*i (%s).xhtml"` never fails, whatever the title |
| Links.PlainNamesDistinct | glowfic-dl.py:217 | `chapter<i>_<j>.html` names distinct sections distinctly |
| Links.LayoutUpTo | src/render.py:265-267 | the sections are visited chapter by chapter and section by section: every section appears, with its name and permalinks, in that order |
| Links.LastHolder | src/render.py:279-280 | finds the last section holding a permalink, or reports that none does |
| Links.TableOfLastWins | src/render.py:265-280 | a permalink is in the table exactly when some section holds it, and it maps to the name of the last such section |
| Links.LinkTableOwner | src/render.py:265-280 | every permalink of every section is in the table and maps to a section holding it that is this one or a later one, after which no section holds it |
| Links.TableNamesSections | src/render.py:265-280 | every file name in the table is the name of some section |
| Links.RewriteHref | src/render.py:283-299 | a relative reply link found in the table takes the file as its path and keeps its scheme, params, query and fragment; a parsed link with a host is kept, or, with the absolute retry, becomes the file its relative part maps to; any other host-less link is sent to glowfic.com; the result is internal or has a host |
| Links.RewriteNotIdempotent | src/render.py:289-299 | a resolved link rewritten again is sent to glowfic.com |
| Links.AbsoluteReplyResolves | src/render.py:292-294 | with the absolute retry, an http(s) glowfic.com reply URL whose reply path is a permalink of the book becomes exactly that permalink's file |
| Links.RewriteNode | src/render.py:285-287 | a link without an href is skipped; text and images are untouched; a link keeps its text, and afterwards its href has a host or names a section file of the table |
| Links.RewriteBlock | src/render.py:285 | only content is rewritten; anchors, header and icon are kept; afterwards any href in it has a host or names a section file of the table |
| Links.RewritePost | src/render.py:285-299 | author, permalink, anchors, header and icon are kept; each block is rewritten in place |
| Links.RewriteSection | src/render.py:284-299 | size and permalinks are not recomputed; afterwards every href in every post has a host or names a section file of the table |
| Links.CompileChapter | src/render.py:301-330 | one item per section, named `Text/` plus the section's name; each item keeps its section's permalinks, and every href in it has a host or names a section file of the book's table |
| Links.CompileChapters | src/render.py:259-330 | one list of items per chapter, in which the path of every href record without a host names the file of some item of the book (for the href text, see Links.LinkTextsLocal) |
| Links.LocalLinksHaveItems | src/render.py:283-315 | for the items compiled from a book, the path of every href record without a host names the file of some item of the book |
| Links.ReplyLinksResolve | src/render.py:289-290 | a relative reply link to a permalink in the book resolves to the item of the last section holding that permalink, never an earlier section than the one holding the post |
| Links.HostedLinksKept | glowfic-dl.py:220-232 | without the absolute retry, a link with a host comes out exactly as it went in |
| Sanitizer.SanitizeAddsNothing | src/helpers.py:69-116 | sanitizing brings in no character but '.': every other character of the result occurs in the input |
| Links.SectionNameClean | src/render.py:262-278 | a section file name holds no '?' (banned by src/helpers.py:13), and holds '#' or '%' only when its chapter title does |
| Links.LocalRewriteShape | src/render.py:290-299 | a rewritten href without a host, from a parsed href that carries no params when it has no host, has no scheme, no params, and a file name of the table as its path |
| Links.LinkTextsLocal | src/render.py:290-295 | the href text the source writes (`geturl()` of the record, or the bare file name) is read by an EPUB reader as the file of an item of the book, provided no chapter title holds '#' or '%' |
| Links.EscapedText | src/render.py:291 | corrected writer: a host-less href is written with its file name percent-escaped, and a reader then opens exactly its path; an href with a host is written as `geturl()` writes it |
| Links.EscapedLinksLocal | src/render.py:290-295 | written by the corrected writer, every host-less link of the compiled book is read as the file of an item, whatever the chapter titles hold |
| LinkExamples.HashInTitleBreaksLink | src/render.py:291 | for a chapter titled "Chapter #1", the compiled link's text is "1-0 (Chapter #1).xhtml#reply-5". A reader takes its path as "1-0 (Chapter ", which no item has; the escaped text reaches the section's file |

## Left out

- Network access, the async download of threads, boards and images, the
  rate limiter, cookies and authentication, argument parsing and the
  Streamlit user interface: none of it is part of the compilation engine.
- `src/main.py` and the book assembly of each script are not part of this
  model. That assembly covers the table of contents, spine, stylesheet,
  metadata and author list.
- `process_image_for_epub3`: image decoding and re-encoding needs a
  foreign imaging library.
- HTML parsing and serialization. A post's content is flattened to its
  text, image and link nodes. Its serialized size is a caller-supplied
  `measure`, because `len(html.encode())` depends on BeautifulSoup's
  output.
- The item content of `compile_chapters`: the lxml re-serialization and
  the stylesheet link. The item's section is modelled instead.
- Scraping of the header fields: they arrive already stripped, as
  `.text.strip()` leaves them.
- `Urls.ReplyPath`: `\d` is read as the ASCII digits, not every Unicode
  decimal digit.
- Raw URL strings are replaced by parsed `Url` records, taken to be in
  the form `urlparse` then `geturl` gives back unchanged. This covers
  hrefs, icon and image `src` values, and permalinks. The registries are
  keyed by the record and the link table by `Urls.Unparse` of it, where
  the source keys by the raw string. Raw strings that parse to the same
  record, such as "HTTP://h/a.png" and "http://h/a.png" (`urlparse`
  lowercases the scheme), are one entry in the model but two in the
  source. Only parsed records are assumed where the host matters.
- `Urls.UsesNetloc` follows the `uses_netloc` list of Python 3.12.
- `Links.CompileChapters`: compiled hrefs stay `Url` records, and
  `Links.LinksLocal` speaks of a record's path. The source writes text,
  and when a chapter title holds '#' that text reads back as another path
  (see "## Findings"). `Links.LinkTextsLocal` states the property for the
  text when no title holds '#' or '%'.
- `Links.LocalLinksHaveItems`: like `Links.CompileChapters`, it holds for
  the record's path, not for the written text when a title holds '#'.
- `Links.RewriteNode`, `Links.RewriteBlock`, `Links.RewriteSection` and
  `Links.CompileChapter` also state "settled" of the href record, with the
  same caveat about '#' in titles.
- `Links.LinkTextsLocal` and `Links.EscapedLinksLocal` assume two things:
  - every href is a record `urlparse` can produce;
  - an href without a host has no `;params`, as on glowfic.com.

  A host-less reply link with params would be written as `name;params`,
  which a reader takes as a different path.
- `Urls.ReaderFile`: it decodes only the percent-escapes of ASCII
  characters. Its rule for where a path stops follows section 3.3 of
  RFC 3986 for references without a scheme or host. Section file names
  never hold ':' or '/', so a reader finds neither in them.
- Lone surrogate code points, which Python strings can hold and `.encode()`
  rejects, cannot be represented in Dafny strings.
- The streamlit app's chapter naming and book assembly, which live in its
  `main`, are not part of this model.
- `main.py`'s `render_post` returns no permalink. The model's rendered
  post carries one, and `MainScript` never reads it.
- Missing attributes: the source raises when an icon has no `alt`, an
  icon or image has no `src`, a post has no Permalink image or no
  post-content block (src/render.py:172, 178, 200-201, 205, 215, and the
  same lookups in the root scripts). The model's `Posts.Icon`, `Posts.Node`
  and `Posts.RawPost` always carry these parts, so those crashes cannot
  arise in it.
- Partial state after an exception: the registry and author dictionary a
  failed run leaves behind are not modelled.
- `Splitting.MultiItemSectionsFit`: proved only when every post has
  positive size, because the source admits larger sections otherwise (see
  `Splitting.WithinBudget`).

## Findings

| source | as written | input that shows it | evidently intended | confidence | as-written member | corrected member |
|---|---|---|---|---|---|---|
| src/render.py:291 | the file name goes into the href text unescaped. `FILENAME_BANNED_CHARS` (src/helpers.py:13) keeps '#' and '%', so a chapter title's '#' ends the path early | a chapter titled "Chapter #1" gets the file "1-0 (Chapter #1).xhtml". A reply link to it becomes "1-0 (Chapter #1).xhtml#reply-5", whose path an EPUB reader reads as "1-0 (Chapter " | the link reaches the section's file: the file name is percent-escaped in the href | not executed; high | LinkExamples.HashInTitleBreaksLink | Links.EscapedText |

The model's compiled hrefs are records whose path is exactly the section
file. That is the meaning the corrected writer gives them:
`Links.EscapedLinksLocal` proves that every host-less link, written by
`Links.EscapedText`, reaches an item. `Links.LinkTextsLocal` gives the
condition under which the source's own text does the same: no '#' or '%'
in any chapter title.

=== FILE: decimal.dfy ===
/** Decimal rendering of non-negative integers as Python's `%i` and
    `%.*i` produce it, and the parser that inverts it. */
module Decimal {

  predicate IsDigit(c: char) {
    '0' <= c <= '9'
  }

  predicate AllDigits(s: string) {
    forall i | 0 <= i < |s| :: IsDigit(s[i])
  }

  function DigitChar(d: nat): (c: char)
    requires d < 10
    ensures IsDigit(c)
    ensures c as int - '0' as int == d
  {
    ['0', '1', '2', '3', '4', '5', '6', '7', '8', '9'][d]
  }

  /** `str(n)`: the shortest decimal numeral for `n`. */
  function Show(n: nat): (s: string)
    ensures |s| >= 1 && AllDigits(s)
    ensures |s| > 1 ==> s[0] != '0'
    ensures n < 10 <==> |s| == 1
  {
    if n < 10 then [DigitChar(n)] else Show(n / 10) + [DigitChar(n % 10)]
  }

  /** Value of a numeral, leading zeros allowed. */
  function Parse(s: string): nat
    requires AllDigits(s)
  {
    if s == [] then 0 else 10 * Parse(s[..|s| - 1]) + (s[|s| - 1] as int - '0' as int)
  }

  /** `len(str(n))`. */
  function Width(n: nat): (w: nat)
    ensures w >= 1
  {
    |Show(n)|
  }

  function Zeros(k: nat): (s: string)
    ensures |s| == k && AllDigits(s)
    ensures forall i | 0 <= i < k :: s[i] == '0'
  {
    seq(k, _ => '0')
  }

  /** `"%.*i" % (width, n)`: `n` in decimal, left-padded with zeros to at
      least `width` digits. */
  function Pad(n: nat, width: nat): (s: string)
    ensures AllDigits(s)
    ensures |s| == if width <= Width(n) then Width(n) else width
    ensures Parse(s) == n
  {
    var digits := Show(n);
    var s := Zeros(if width <= |digits| then 0 else width - |digits|) + digits;
    ParseShow(n);
    ParseLeadingZeros(if width <= |digits| then 0 else width - |digits|, digits);
    s
  }

  /** Round trip: parsing a rendered number gives it back. */
  lemma {:induction false} ParseShow(n: nat)
    ensures Parse(Show(n)) == n
    decreases n
  {
    if n >= 10 {
      var s := Show(n);
      assert s[..|s| - 1] == Show(n / 10);
      ParseShow(n / 10);
    }
  }

  lemma {:induction false} ParseLeadingZeros(k: nat, t: string)
    requires AllDigits(t)
    ensures Parse(Zeros(k) + t) == Parse(t)
    decreases |t|
  {
    if t == [] {
      assert Zeros(k) + t == Zeros(k);
      ParseZeros(k);
    } else {
      var t' := t[..|t| - 1];
      assert (Zeros(k) + t)[..|Zeros(k) + t| - 1] == Zeros(k) + t';
      ParseLeadingZeros(k, t');
    }
  }

  lemma {:induction false} ParseZeros(k: nat)
    ensures Parse(Zeros(k)) == 0
    decreases k
  {
    if k > 0 {
      assert Zeros(k)[..k - 1] == Zeros(k - 1);
      ParseZeros(k - 1);
    }
  }

  /** Distinct numbers have distinct numerals. */
  lemma ShowInjective(a: nat, b: nat)
    requires Show(a) == Show(b)
    ensures a == b
  {
    ParseShow(a);
    ParseShow(b);
  }

  /** Two zero-padded numerals agree only for the same number. */
  lemma PadInjective(a: nat, wa: nat, b: nat, wb: nat)
    requires Pad(a, wa) == Pad(b, wb)
    ensures a == b
  {
  }

  function LeadingDigits(s: string): (d: string)
    ensures AllDigits(d) && d <= s
    ensures |d| < |s| ==> !IsDigit(s[|d|])
  {
    if s != [] && IsDigit(s[0]) then [s[0]] + LeadingDigits(s[1..]) else []
  }

  /** The digit run of a numeral followed by a non-digit is the numeral. */
  lemma {:induction false} LeadingDigitsOf(d: string, t: string)
    requires AllDigits(d) && (t == [] || !IsDigit(t[0]))
    ensures LeadingDigits(d + t) == d
    decreases |d|
  {
    if d != [] {
      assert (d + t)[1..] == d[1..] + t;
      LeadingDigitsOf(d[1..], t);
    } else {
      assert d + t == t;
    }
  }
}

=== FILE: early_render.dfy ===
/** The post renderer shared by the earlier scripts that copy icons into
    the book (glowfic-dl.py, epub.py, main.py): the icon's `src` becomes
    the name `ImageMap.insert` hands out, content is left as it is, and
    the registry is threaded from post to post. */
module EarlyRender {
  import opened Wrappers
  import opened Urls
  import opened Posts
  import opened SimpleImages

  /** `render_post`: an optional anchor holding the permalink fragment
      (glowfic-dl.py and epub.py emit it on every post, even when the
      fragment is empty; main.py never does), the header, the icon named
      by `insert` with no alt text, then the content untouched. */
  function RenderPost(p: RawPost, r: Registry, anchored: bool): (res: (RenderedPost, Registry))
    ensures res.0.author == p.author && res.0.permalink == p.permalink
    ensures Anchors(res.0.blocks) == (if anchored then [p.permalink.fragment] else [])
    ensures Headers(res.0.blocks) == [HeaderText(p)]
    ensures |res.0.blocks| > (if anchored then 1 else 0) && res.0.blocks[if anchored then 1 else 0] == Header(HeaderText(p))
    ensures ContentOf(res.0.blocks) == p.content
    ensures p.icon.Some? ==>
      && res.1 == Insert(r, p.icon.value.src).0
      && Icons(res.0.blocks) == [IconImage(PathOnly(Insert(r, p.icon.value.src).1), None)]
    ensures p.icon.None? ==> res.1 == r && Icons(res.0.blocks) == []
    ensures LaidOut(res.0.blocks, if anchored then Some(p.permalink.fragment) else None, HeaderText(p),
      if p.icon.Some? then Some(IconImage(PathOnly(Insert(r, p.icon.value.src).1), None)) else None, p.content)
  {
    var anchor := if anchored then Some(p.permalink.fragment) else None;
    if p.icon.Some? then
      var (r', name) := Insert(r, p.icon.value.src);
      (RenderedPost(Assemble(anchor, HeaderText(p), Some(IconImage(PathOnly(name), None)), p.content), p.author, p.permalink), r')
    else
      (RenderedPost(Assemble(anchor, HeaderText(p), None, p.content), p.author, p.permalink), r)
  }

  /** The registry a post is rendered against: the one the posts before it
      left behind. */
  function Before(posts: seq<RawPost>, r: Registry, k: nat): Registry
    requires k <= |posts|
  {
    InsertAll(r, IconUrls(posts[..k]))
  }

  /** Rendering posts one after another: the rendered posts and the final
      registry, which holds exactly the icons inserted in post order. */
  function RenderAll(posts: seq<RawPost>, r: Registry, anchored: bool): (res: (seq<RenderedPost>, Registry))
    ensures |res.0| == |posts|
    ensures res.1 == InsertAll(r, IconUrls(posts))
    ensures forall k | 0 <= k < |posts| :: res.0[k] == RenderPost(posts[k], Before(posts, r, k), anchored).0
  {
    if posts == [] then ([], r)
    else
      var init := posts[..|posts| - 1];
      var prev := RenderAll(init, r, anchored);
      var last := RenderPost(posts[|posts| - 1], prev.1, anchored);
      BeforeInit(posts, r);
      IconsOfLast(posts, r);
      (prev.0 + [last.0], last.1)
  }

  lemma BeforeInit(posts: seq<RawPost>, r: Registry)
    requires posts != []
    ensures forall k: nat | k < |posts| :: Before(posts, r, k) == Before(posts[..|posts| - 1], r, k)
  {
    forall k: nat | k < |posts| ensures Before(posts, r, k) == Before(posts[..|posts| - 1], r, k) {
      assert posts[..k] == posts[..|posts| - 1][..k];
    }
  }

  /** The icons up to a post and then its own icon are the icons through it. */
  lemma IconsOfLast(posts: seq<RawPost>, r: Registry)
    requires posts != []
    ensures var before := InsertAll(r, IconUrls(posts[..|posts| - 1]));
      InsertAll(r, IconUrls(posts))
        == if posts[|posts| - 1].icon.Some? then Insert(before, posts[|posts| - 1].icon.value.src).0 else before
  {
    var init := posts[..|posts| - 1];
    var last := posts[|posts| - 1];
    if last.icon.Some? {
      var us := IconUrls(init) + [last.icon.value.src];
      assert IconUrls(posts) == us;
      assert us[..|us| - 1] == IconUrls(init);
    } else {
      assert IconUrls(posts) == IconUrls(init) + [];
      assert IconUrls(init) + [] == IconUrls(init);
    }
  }

  lemma {:induction false} IconUrlsConcat(a: seq<RawPost>, b: seq<RawPost>)
    ensures IconUrls(a + b) == IconUrls(a) + IconUrls(b)
    decreases |b|
  {
    if b == [] {
      assert a + b == a;
    } else {
      IconUrlsConcat(a, b[..|b| - 1]);
      assert (a + b)[..|a + b| - 1] == a + b[..|b| - 1];
    }
  }

  lemma {:induction false} InsertAllConcat(r: Registry, xs: seq<Url>, ys: seq<Url>)
    ensures InsertAll(r, xs + ys) == InsertAll(InsertAll(r, xs), ys)
    decreases |ys|
  {
    if ys == [] {
      assert xs + ys == xs;
    } else {
      InsertAllConcat(r, xs, ys[..|ys| - 1]);
      assert (xs + ys)[..|xs + ys| - 1] == xs + ys[..|ys| - 1];
    }
  }

  /** Later insertions never rename a URL. */
  lemma {:induction false} InsertAllKeeps(r: Registry, urls: seq<Url>, u: Url)
    requires u in r.names
    ensures u in InsertAll(r, urls).names && InsertAll(r, urls).names[u] == r.names[u]
    decreases |urls|
  {
    if urls != [] {
      InsertAllKeeps(r, urls[..|urls| - 1], u);
    }
  }

  /** The icon a post shows is named as the final registry names its URL. */
  lemma IconNamedAsInTheEnd(posts: seq<RawPost>, r: Registry, anchored: bool, k: nat)
    requires k < |posts| && posts[k].icon.Some?
    ensures var u := posts[k].icon.value.src;
      && u in RenderAll(posts, r, anchored).1.names
      && Icons(RenderAll(posts, r, anchored).0[k].blocks) == [IconImage(PathOnly(RenderAll(posts, r, anchored).1.names[u]), None)]
  {
    var u := posts[k].icon.value.src;
    var through := Insert(Before(posts, r, k), u).0;
    assert posts[..k + 1] == posts[..k] + [posts[k]];
    IconUrlsConcat(posts[..k], [posts[k]]);
    assert IconUrls([posts[k]]) == [u];
    assert IconUrls(posts[..k] + [posts[k]]) == IconUrls(posts[..k]) + [u];
    assert InsertAll(r, IconUrls(posts[..k + 1])) == through;
    assert posts == posts[..k + 1] + posts[k + 1..];
    IconUrlsConcat(posts[..k + 1], posts[k + 1..]);
    InsertAllConcat(r, IconUrls(posts[..k + 1]), IconUrls(posts[k + 1..]));
    InsertAllKeeps(through, IconUrls(posts[k + 1..]), u);
  }

  /** From an empty registry, two rendered icons show the same file exactly
      when they come from the same URL. */
  lemma IconFilesMatchUrls(posts: seq<RawPost>, anchored: bool, a: nat, b: nat)
    requires a < |posts| && b < |posts| && posts[a].icon.Some? && posts[b].icon.Some?
    ensures Icons(RenderAll(posts, Empty, anchored).0[a].blocks) == Icons(RenderAll(posts, Empty, anchored).0[b].blocks)
      <==> posts[a].icon.value.src == posts[b].icon.value.src
  {
    IconNamedAsInTheEnd(posts, Empty, anchored, a);
    IconNamedAsInTheEnd(posts, Empty, anchored, b);
    InsertAllValid(IconUrls(posts));
  }
}

=== FILE: glowfic_dl.dfy ===
/** glowfic-dl.py, whose rendering, splitting and compiling code epub.py
    repeats line for line: posts are rendered against a running
    single-map registry, packed into sections, and compiled into items
    named `chapter<i>_<j>.html`. */
module GlowficDl {
  import opened Wrappers
  import opened Urls
  import opened Posts
  import opened SimpleImages
  import opened Seqs
  import Splitting
  import EarlyRender
  import Links

  /** What `render_posts` leaves behind: the sections it yields, the
      registry and the keys of the `authors` dictionary. */
  datatype Rendered = Rendered(sections: seq<Splitting.Section<RenderedPost, Url>>, images: Registry, authors: seq<Option<string>>)

  /** `render_posts`: render each post against the registry the previous
      posts left, with an anchor on every post; pack the posts into
      sections of at most `SECTION_SIZE_LIMIT` bytes (the size of a post
      is `measure` of it); record every author. */
  function RenderPosts(posts: seq<RawPost>, r: Registry, authors: seq<Option<string>>, measure: RenderedPost -> nat)
    : (res: Rendered)
    ensures var rendered := Flatten(Splitting.Bodies(res.sections));
      && |rendered| == |posts|
      && (forall k | 0 <= k < |posts| ::
            && rendered[k] == EarlyRender.RenderPost(posts[k], EarlyRender.Before(posts, r, k), true).0
            && Anchors(rendered[k].blocks) == [posts[k].permalink.fragment])
      && res.sections == Splitting.Sections(rendered, measure, Permalink)
    ensures res.images == InsertAll(r, IconUrls(posts))
    ensures res.authors == Recorded(authors, AuthorsOf(posts))
  {
    var all := EarlyRender.RenderAll(posts, r, true);
    Rendered(Splitting.Sections(all.0, measure, Permalink), all.1, Recorded(authors, AuthorsOf(posts)))
  }

  /** `compile_chapters`: section j of chapter i is the item
      `chapter<i>_<j>.html` (0-based), every href is rewritten without the
      absolute retry, and no two items share a file name. */
  function CompileChapters(chapters: seq<Links.Chapter>): (out: seq<seq<Links.Item>>)
    ensures |out| == |chapters|
    ensures forall i | 0 <= i < |out| :: |out[i]| == |chapters[i].sections|
    ensures forall i, j | 0 <= i < |out| && 0 <= j < |out[i]| ::
      && out[i][j].fileName == Links.PlainName(i, j)
      && out[i][j].title == chapters[i].title
      && out[i][j].section == Links.RewriteSection(Links.LinkTable(chapters, Links.Plain), chapters[i].sections[j], false)
    ensures forall i, j, i2, j2 | 0 <= i < |out| && 0 <= j < |out[i]| && 0 <= i2 < |out| && 0 <= j2 < |out[i2]| ::
      out[i][j].fileName == out[i2][j2].fileName ==> i == i2 && j == j2
  {
    var out := Links.CompileChapters(chapters, Links.Plain, false);
    forall i, j, i2, j2 | 0 <= i < |out| && 0 <= j < |out[i]| && 0 <= i2 < |out| && 0 <= j2 < |out[i2]|
      && out[i][j].fileName == out[i2][j2].fileName
      ensures i == i2 && j == j2
    {
      Links.PlainNamesDistinct(i, j, i2, j2);
    }
    out
  }
}

=== FILE: image_registry.dfy ===
/** The two-namespace image registry of src/render.py (`MappedImage` and
    `ImageMap`): every image URL gets a dense per-namespace id at first
    sighting, and its file name is derived from the id zero-padded to the
    namespace's current width. */
module ImageRegistry {
  import opened Wrappers
  import opened Urls
  import Decimal
  import Sanitizer
  import opened Seqs

  datatype MappedImage = MappedImage(name: string, id: nat, ext: string)

  /** One namespace: its prefix ("icon" or "image"), its URL table and the
      next id to hand out. */
  datatype Namespace = Namespace(prefix: string, entries: map<Url, MappedImage>, next: nat)

  datatype ImageMap = ImageMap(icons: Namespace, iconIdWidth: nat, images: Namespace, imageIdWidth: nat)

  datatype LookupError = NotRegistered | BadName(cause: Sanitizer.SanitizeError)

  const Empty := ImageMap(Namespace("icon", map[], 0), 1, Namespace("image", map[], 0), 1)

  function IdsOf(entries: map<Url, MappedImage>): set<nat> {
    set u | u in entries :: entries[u].id
  }

  predicate DistinctIds(entries: map<Url, MappedImage>) {
    forall u, v | u in entries && v in entries && u != v :: entries[u].id != entries[v].id
  }

  /** The ids of a namespace are exactly 0 .. next-1, one per URL, and every
      entry carries the namespace's prefix. */
  predicate Dense(ns: Namespace) {
    && (forall u | u in ns.entries :: ns.entries[u].id < ns.next)
    && (forall k: nat | k < ns.next :: k in IdsOf(ns.entries))
    && DistinctIds(ns.entries)
    && (forall u | u in ns.entries :: ns.entries[u].name == ns.prefix)
  }

  /** Reachable registries: both namespaces dense, and the icon width the
      digit count of the highest icon id. */
  predicate Valid(m: ImageMap) {
    && Dense(m.icons) && m.icons.prefix == "icon"
    && Dense(m.images) && m.images.prefix == "image"
    && m.iconIdWidth == (if m.icons.next == 0 then 1 else Decimal.Width(m.icons.next - 1))
  }

  /** Registration in one namespace: a known URL changes nothing, a new one
      takes the next id. */
  function Insert(ns: Namespace, url: Url): (r: Namespace)
    ensures r.prefix == ns.prefix
    ensures r.entries.Keys == ns.entries.Keys + {url}
    ensures forall u | u in ns.entries :: r.entries[u] == ns.entries[u]
    ensures url in ns.entries ==> r == ns
    ensures url !in ns.entries ==> r.entries[url].id == ns.next && r.next == ns.next + 1
    ensures url !in ns.entries ==> r.entries[url] == MappedImage(ns.prefix, ns.next, Ext(url))
    ensures Dense(ns) ==> Dense(r)
  {
    if url in ns.entries then ns
    else
      var r := Namespace(ns.prefix, ns.entries[url := MappedImage(ns.prefix, ns.next, Ext(url))], ns.next + 1);
      InsertKeepsDense(ns, url, r);
      r
  }

  lemma InsertKeepsDense(ns: Namespace, url: Url, r: Namespace)
    requires url !in ns.entries
    requires r == Namespace(ns.prefix, ns.entries[url := MappedImage(ns.prefix, ns.next, Ext(url))], ns.next + 1)
    ensures Dense(ns) ==> Dense(r)
  {
    if Dense(ns) {
      forall k: nat | k < r.next ensures k in IdsOf(r.entries) {
        if k == ns.next {
          assert r.entries[url].id == k;
        } else {
          assert k in IdsOf(ns.entries);
          var u :| u in ns.entries && ns.entries[u].id == k;
          assert r.entries[u].id == k;
        }
      }
    }
  }

  /** `ImageMap.add_icon`. */
  function AddIcon(m: ImageMap, url: Url): (r: ImageMap)
    ensures r.icons == Insert(m.icons, url) && r.images == m.images && r.imageIdWidth == m.imageIdWidth
    ensures url in m.icons.entries ==> r == m
    ensures url !in m.icons.entries ==> r.iconIdWidth == Decimal.Width(m.icons.next)
    ensures Valid(m) ==> Valid(r)
  {
    if url in m.icons.entries then m
    else
      var r := m.(icons := Insert(m.icons, url), iconIdWidth := Decimal.Width(m.icons.next));
      r
  }

  /** `ImageMap.add_image`: URLs already known in either namespace are
      ignored. The width stored for images is that of the icon counter. */
  function AddImage(m: ImageMap, url: Url): (r: ImageMap)
    ensures r.icons == m.icons && r.iconIdWidth == m.iconIdWidth
    ensures url in m.icons.entries || url in m.images.entries ==> r == m
    ensures url !in m.icons.entries ==> r.images == Insert(m.images, url)
    ensures url !in m.icons.entries && url !in m.images.entries ==>
      r.imageIdWidth == Decimal.Width(m.icons.next)
    ensures Valid(m) ==> Valid(r)
  {
    if url in m.icons.entries || url in m.images.entries then m
    else m.(images := Insert(m.images, url), imageIdWidth := Decimal.Width(m.icons.next))
  }

  /** `MappedImage.to_filename`. */
  function ToFilename(img: MappedImage, idWidth: nat): (r: Result<string, LookupError>)
    ensures r.Success? ==> "Images/" <= r.value && Sanitizer.ValidName(r.value[7..])
    ensures r.Failure? ==> r.error.BadName?
    ensures r.Success? <==> Sanitizer.Sanitize(Stem(img, idWidth)).Success?
    ensures r.Success? ==> r.value == "Images/" + Sanitizer.Sanitize(Stem(img, idWidth)).value
    ensures Sanitizer.ValidName(Stem(img, idWidth)) ==> r == Success("Images/" + Stem(img, idWidth))
  {
    var s := Sanitizer.Sanitize(Stem(img, idWidth));
    if s.Success? then
      Sanitizer.ValidNamesPassUnchanged(Stem(img, idWidth));
      ImagesPrefix(s.value);
      Success("Images/" + s.value)
    else
      Failure(BadName(s.error))
  }

  /** The name before sanitizing: `"%s%.*i.%s" % (name, width, id, ext)`. */
  function Stem(img: MappedImage, idWidth: nat): string {
    img.name + Decimal.Pad(img.id, idWidth) + "." + img.ext
  }

  lemma ImagesPrefix(name: string)
    ensures "Images/" <= "Images/" + name && ("Images/" + name)[7..] == name
  {
  }

  /** `ImageMap.get_icon`. */
  function GetIcon(m: ImageMap, url: Url): (r: Result<string, LookupError>)
    ensures r == Failure(NotRegistered) <==> url !in m.icons.entries
    ensures url in m.icons.entries ==> r == ToFilename(m.icons.entries[url], m.iconIdWidth)
    ensures r.Success? ==> "Images/" <= r.value
  {
    if url !in m.icons.entries then Failure(NotRegistered)
    else ToFilename(m.icons.entries[url], m.iconIdWidth)
  }

  /** `ImageMap.get_image`: an icon URL resolves to the icon's file. */
  function GetImage(m: ImageMap, url: Url): (r: Result<string, LookupError>)
    ensures r == Failure(NotRegistered) <==> url !in m.icons.entries && url !in m.images.entries
    ensures url in m.icons.entries ==> r == GetIcon(m, url)
    ensures url !in m.icons.entries && url in m.images.entries ==> r == ToFilename(m.images.entries[url], m.imageIdWidth)
    ensures r.Success? ==> "Images/" <= r.value
  {
    if url in m.icons.entries then GetIcon(m, url)
    else if url !in m.images.entries then Failure(NotRegistered)
    else ToFilename(m.images.entries[url], m.imageIdWidth)
  }

  predicate Registered(m: ImageMap, url: Url) {
    url in m.icons.entries || url in m.images.entries
  }

  /** The name `get_image` sanitizes for a registered URL. */
  function StemOf(m: ImageMap, url: Url): string
    requires Registered(m, url)
  {
    if url in m.icons.entries then Stem(m.icons.entries[url], m.iconIdWidth)
    else Stem(m.images.entries[url], m.imageIdWidth)
  }

  /** Distinct registered URLs get distinct files: ids are distinct within
      a namespace, "icon" and "image" tell the namespaces apart, and the
      padded id ends at the '.' before the extension. Names the sanitizer
      changes are left out, since truncation can cut the ids away. */
  lemma FileNamesDistinct(m: ImageMap, u: Url, v: Url)
    requires Valid(m) && Registered(m, u) && Registered(m, v) && u != v
    requires Sanitizer.ValidName(StemOf(m, u)) && Sanitizer.ValidName(StemOf(m, v))
    ensures GetImage(m, u) == Success("Images/" + StemOf(m, u))
    ensures GetImage(m, u) != GetImage(m, v)
  {
    var su, sv := StemOf(m, u), StemOf(m, v);
    StemsDistinct(m, u, v);
    assert ("Images/" + su)[7..] == su;
  }

  lemma StemsDistinct(m: ImageMap, u: Url, v: Url)
    requires Valid(m) && Registered(m, u) && Registered(m, v) && u != v
    ensures StemOf(m, u) != StemOf(m, v)
  {
    if u in m.icons.entries && v in m.icons.entries {
      var a, b := m.icons.entries[u], m.icons.entries[v];
      assert a.name == "icon" && b.name == "icon" && a.id != b.id;
      if StemOf(m, u) == StemOf(m, v) {
        StemInjective("icon", a.id, b.id, m.iconIdWidth, m.iconIdWidth, a.ext, b.ext);
      }
    } else if u !in m.icons.entries && v !in m.icons.entries {
      var a, b := m.images.entries[u], m.images.entries[v];
      assert a.name == "image" && b.name == "image" && a.id != b.id;
      if StemOf(m, u) == StemOf(m, v) {
        StemInjective("image", a.id, b.id, m.imageIdWidth, m.imageIdWidth, a.ext, b.ext);
      }
    } else {
      assert StemOf(m, u)[1] != StemOf(m, v)[1];
    }
  }

  /** The id can be read back from a stem: the padded digits stop at the
      '.' that follows them. */
  lemma StemInjective(name: string, a: nat, b: nat, wa: nat, wb: nat, ea: string, eb: string)
    requires name + Decimal.Pad(a, wa) + "." + ea == name + Decimal.Pad(b, wb) + "." + eb
    ensures a == b
  {
    var pa, pb := Decimal.Pad(a, wa), Decimal.Pad(b, wb);
    var s := name + pa + "." + ea;
    assert s[|name|..] == pa + ("." + ea) == pb + ("." + eb);
    Decimal.LeadingDigitsOf(pa, "." + ea);
    Decimal.LeadingDigitsOf(pb, "." + eb);
    Decimal.PadInjective(a, wa, b, wb);
  }

  /** Registering a list of URLs in order. */
  function InsertAll(ns: Namespace, urls: seq<Url>): Namespace {
    if urls == [] then ns else Insert(InsertAll(ns, urls[..|urls| - 1]), urls[|urls| - 1])
  }

  /** Starting from an empty namespace, the k-th distinct URL to be seen
      gets id k, and nothing else is registered. */
  lemma {:induction false} IdsInFirstSightingOrder(prefix: string, urls: seq<Url>)
    ensures var ns := InsertAll(Namespace(prefix, map[], 0), urls);
      && ns.next == |FirstSightings(urls)|
      && (forall u :: u in ns.entries <==> u in urls)
      && forall k | 0 <= k < |FirstSightings(urls)| :: ns.entries[FirstSightings(urls)[k]].id == k
    decreases |urls|
  {
    if urls != [] {
      var init := urls[..|urls| - 1];
      IdsInFirstSightingOrder(prefix, init);
      assert FirstSightings(urls) == Remember(FirstSightings(init), urls[|urls| - 1]);
      assert forall u :: u in urls <==> u in init || u == urls[|urls| - 1];
    }
  }

  /** `len(str(n))` never decreases as `n` grows. */
  lemma {:induction false} WidthMonotone(a: nat, b: nat)
    requires a <= b
    ensures Decimal.Width(a) <= Decimal.Width(b)
    decreases b
  {
    if a >= 10 {
      WidthMonotone(a / 10, b / 10);
    }
  }

  /** An icon's file name survives a later registration that leaves the
      padding width alone. */
  lemma FilenameStableWhileWidthHolds(m: ImageMap, u: Url, v: Url)
    requires u in m.icons.entries
    requires AddIcon(m, v).iconIdWidth == m.iconIdWidth
    ensures GetIcon(AddIcon(m, v), u) == GetIcon(m, u)
  {
  }

  /** ... and only such registrations: when a new icon widens the padding,
      every earlier icon whose name needs no sanitizing gets a different
      file name than the one already handed out for it. */
  lemma FilenameMovesWhenWidthGrows(m: ImageMap, u: Url, v: Url)
    requires Valid(m) && u in m.icons.entries && v !in m.icons.entries
    requires AddIcon(m, v).iconIdWidth != m.iconIdWidth
    requires Sanitizer.ValidName(Stem(m.icons.entries[u], m.iconIdWidth))
    requires Sanitizer.ValidName(Stem(m.icons.entries[u], AddIcon(m, v).iconIdWidth))
    ensures GetIcon(AddIcon(m, v), u) != GetIcon(m, u)
  {
    var img := m.icons.entries[u];
    var old_w, new_w := m.iconIdWidth, AddIcon(m, v).iconIdWidth;
    assert m.icons.next > 0;
    WidthMonotone(img.id, m.icons.next - 1);
    WidthMonotone(m.icons.next - 1, m.icons.next);
    assert |Decimal.Pad(img.id, old_w)| == old_w;
    assert |Decimal.Pad(img.id, new_w)| == new_w;
    assert |Stem(img, old_w)| != |Stem(img, new_w)|;
    assert ("Images/" + Stem(img, old_w)) != ("Images/" + Stem(img, new_w));
  }

  /** `add_icon` for each URL in order. */
  function AddIcons(m: ImageMap, urls: seq<Url>): (r: ImageMap)
    ensures r.images == m.images && r.imageIdWidth == m.imageIdWidth
    ensures forall u :: u in r.icons.entries <==> u in m.icons.entries || u in urls
    ensures Valid(m) ==> Valid(r)
  {
    if urls == [] then m
    else
      var r := AddIcon(AddIcons(m, urls[..|urls| - 1]), urls[|urls| - 1]);
      assert forall u :: u in urls <==> u in urls[..|urls| - 1] || u == urls[|urls| - 1];
      r
  }

  /** `add_image` for each URL in order. */
  function AddImages(m: ImageMap, urls: seq<Url>): (r: ImageMap)
    ensures r.icons == m.icons && r.iconIdWidth == m.iconIdWidth
    ensures forall u :: u in r.images.entries <==> u in m.images.entries || (u in urls && u !in m.icons.entries)
    ensures Valid(m) ==> Valid(r)
  {
    if urls == [] then m
    else
      var r := AddImage(AddImages(m, urls[..|urls| - 1]), urls[|urls| - 1]);
      assert forall u :: u in urls <==> u in urls[..|urls| - 1] || u == urls[|urls| - 1];
      r
  }

  /** The URLs of `urls` not among `known`, in order. */
  function Unknown(urls: seq<Url>, known: map<Url, MappedImage>): seq<Url> {
    if urls == [] then []
    else
      var init := Unknown(urls[..|urls| - 1], known);
      if urls[|urls| - 1] in known then init else init + [urls[|urls| - 1]]
  }

  /** The icon namespace after `AddIcons` is the plain registration of the
      URLs in order; the image namespace after `AddImages` is the plain
      registration of those URLs that are not icons. */
  lemma {:induction false} AddIconsInsertsAll(m: ImageMap, urls: seq<Url>)
    ensures AddIcons(m, urls).icons == InsertAll(m.icons, urls)
    decreases |urls|
  {
    if urls != [] {
      AddIconsInsertsAll(m, urls[..|urls| - 1]);
    }
  }

  lemma {:induction false} AddImagesInsertsUnknown(m: ImageMap, urls: seq<Url>)
    ensures AddImages(m, urls).images == InsertAll(m.images, Unknown(urls, m.icons.entries))
    decreases |urls|
  {
    if urls != [] {
      var init := urls[..|urls| - 1];
      var last := urls[|urls| - 1];
      AddImagesInsertsUnknown(m, init);
      var u := Unknown(init, m.icons.entries);
      if last !in m.icons.entries {
        assert Unknown(urls, m.icons.entries) == u + [last];
        assert (u + [last])[..|u + [last]| - 1] == u;
      }
    }
  }
}

=== FILE: link_examples.dfy ===
/** A book whose chapter title holds '#': the section file keeps the '#',
    so the href text written for a reply link to it re-parses to a path
    that is no file of the book, while the escaped text reaches the file. */
module LinkExamples {
  import opened Wrappers
  import opened Urls
  import opened Posts
  import Splitting
  import Decimal
  import Sanitizer
  import Utf8
  import opened Links

  const Title := "Chapter #1"
  const FileName := "1-0 (Chapter #1).xhtml"
  const Reply := Url("", "", "/replies/5", "", "", "reply-5")
  const Written := Url("", "", FileName, "", "", "reply-5")

  /** One chapter of one section holding one post, whose content is a link
      to that post's own permalink. */
  function Book(): seq<Chapter> {
    var post := RenderedPost([Content(Link(Some(Reply), "here"))], None, Reply);
    [Chapter(Title, [Splitting.Section([post], 1, [Reply])])]
  }

  lemma NumeralsOfOne()
    ensures Decimal.Pad(1, Decimal.Width(1)) == "1" && Decimal.Pad(0, Decimal.Width(0)) == "0"
  {
    assert Decimal.Show(1) == "1" && Decimal.Show(0) == "0";
    assert Decimal.Zeros(0) + "1" == "1" && Decimal.Zeros(0) + "0" == "0";
  }

  predicate SafeChar(c: char) {
    'a' <= c <= 'z' || 'A' <= c <= 'Z' || '0' <= c <= '9' || c in " -()#."
  }

  /** A short name of letters, digits, spaces, hyphens, parentheses, '#'
      and periods that does not end in a period is a valid file name. */
  lemma SafeNameValid(s: string)
    requires 0 < |s| <= 63 && s[|s| - 1] != '.'
    requires forall i | 0 <= i < |s| :: SafeChar(s[i])
    ensures Sanitizer.ValidName(s)
  {
    forall i | 0 <= i < |s| ensures !Sanitizer.Banned(s[i]) {
      assert s[i] !in Sanitizer.BannedChars;
    }
    assert Utf8.Len(s) <= 4 * |s|;
  }

  lemma HeadOfTitle()
    ensures PaddedHead(0, 0, 1, 1, Title) + "." + "xhtml" == FileName
  {
    NumeralsOfOne();
  }

  /** The title's '#' survives into the file name. */
  lemma FileNameOfTitle()
    ensures SectionName(Padded, 0, 0, 1, 1, Title) == FileName
  {
    HeadOfTitle();
    SafeNameValid(FileName);
    Sanitizer.ValidNamesPassUnchanged(FileName);
  }

  /** The permalink table sends the reply to the section's file. */
  lemma TableHit(chapters: seq<Chapter>)
    requires chapters == Book()
    ensures Unparse(Reply) in LinkTable(chapters, Padded)
    ensures LinkTable(chapters, Padded)[Unparse(Reply)] == FileName
  {
    assert |chapters| == 1 && |chapters[0].sections| == 1 && chapters[0].title == Title;
    assert Reply in chapters[0].sections[0].linkTargets;
    var i', j' := LinkTableOwner(chapters, Padded, 0, 0, Reply);
    assert i' == 0 && j' == 0;
    FileNameOfTitle();
  }

  /** The relative branch keeps the fragment and takes the file name. */
  lemma ReplyRewritten(table: map<string, string>)
    requires Unparse(Reply) in table && table[Unparse(Reply)] == FileName
    ensures RewriteHref(table, Reply, true) == Written
  {
    assert Unparse(Reply) == "/replies/5#reply-5";
    assert IsRelativeReply(Unparse(Reply));
  }

  /** The one item of the book, and its one link. */
  lemma CompiledItem(chapters: seq<Chapter>, out: seq<seq<Item>>)
    requires chapters == Book() && out == CompileChapters(chapters, Padded, true)
    ensures |out| == 1 && |out[0]| == 1 && out[0][0].fileName == "Text/" + FileName
    ensures HasLink(out, 0, 0, 0, 0)
    ensures LinkAt(out, 0, 0, 0, 0) == RewriteHref(LinkTable(chapters, Padded), Reply, true)
  {
    var table := LinkTable(chapters, Padded);
    var items := CompileChapter(chapters, Padded, true, 0);
    assert |out| == 1 && out[0] == items;
    ItemOfBook(chapters, items);
    SectionLink(table, chapters[0].sections[0], items[0].section);
    ItemLink(out, items, RewriteHref(table, Reply, true));
  }

  lemma ItemLink(out: seq<seq<Item>>, items: seq<Item>, h: Url)
    requires |out| == 1 && out[0] == items && |items| == 1
    requires |items[0].section.body| == 1 && |items[0].section.body[0].blocks| == 1
    requires items[0].section.body[0].blocks[0] == Content(Link(Some(h), "here"))
    ensures HasLink(out, 0, 0, 0, 0) && LinkAt(out, 0, 0, 0, 0) == h
  {
  }

  lemma ItemOfBook(chapters: seq<Chapter>, items: seq<Item>)
    requires chapters == Book() && items == CompileChapter(chapters, Padded, true, 0)
    ensures |items| == 1 && items[0].fileName == "Text/" + FileName
    ensures items[0].section == RewriteSection(LinkTable(chapters, Padded), chapters[0].sections[0], true)
  {
    FileNameOfTitle();
  }

  lemma SectionLink(table: map<string, string>, s: PostSection, r: PostSection)
    requires s == Book()[0].sections[0] && r == RewriteSection(table, s, true)
    ensures |r.body| == 1 && |r.body[0].blocks| == 1
    ensures r.body[0].blocks[0] == Content(Link(Some(RewriteHref(table, Reply, true)), "here"))
  {
    var post := RewritePost(table, s.body[0], true);
    assert r.body[0] == post;
    assert post.blocks[0] == RewriteBlock(table, s.body[0].blocks[0], true);
  }

  lemma OneFile(out: seq<seq<Item>>)
    requires |out| == 1 && |out[0]| == 1 && out[0][0].fileName == "Text/" + FileName
    ensures FileNames(out) == {"Text/" + FileName}
  {
    assert out[0][0].fileName in FileNames(out);
  }

  /** The compiled link is the file name with the fragment kept. */
  lemma CompiledReply(chapters: seq<Chapter>, out: seq<seq<Item>>)
    requires chapters == Book() && out == CompileChapters(chapters, Padded, true)
    ensures HasLink(out, 0, 0, 0, 0) && LinkAt(out, 0, 0, 0, 0) == Written
    ensures FileNames(out) == {"Text/" + FileName}
  {
    CompiledItem(chapters, out);
    TableHit(chapters);
    ReplyRewritten(LinkTable(chapters, Padded));
    OneFile(out);
  }

  lemma WrittenText()
    ensures Unparse(Written) == FileName + "#reply-5"
  {
  }

  /** The reader stops at the title's '#'. */
  lemma WrittenRead(text: string)
    requires text == FileName + "#reply-5"
    ensures ReaderFile(text) == "1-0 (Chapter "
  {
    assert text == "1-0 (Chapter " + "#1).xhtml#reply-5";
    RefPathStops("1-0 (Chapter ", "#1).xhtml#reply-5");
    DecodeWithoutPercent("1-0 (Chapter ");
  }

  lemma NotAFile(out: seq<seq<Item>>, path: string)
    requires FileNames(out) == {"Text/" + FileName} && path == "1-0 (Chapter "
    ensures ItemName(Padded, path) !in FileNames(out)
  {
    assert |"Text/" + path| != |"Text/" + FileName|;
  }

  /** Written as the source writes it, `"1-0 (Chapter #1).xhtml#reply-5"`,
      the link is read as the path `"1-0 (Chapter "`, which no item has;
      written escaped, it reaches the section's own file. */
  lemma HashInTitleBreaksLink(chapters: seq<Chapter>, out: seq<seq<Item>>)
    requires chapters == Book() && out == CompileChapters(chapters, Padded, true)
    ensures HasLink(out, 0, 0, 0, 0) && LinkAt(out, 0, 0, 0, 0).path == FileName
    ensures Unparse(LinkAt(out, 0, 0, 0, 0)) == FileName + "#reply-5"
    ensures ItemName(Padded, ReaderFile(Unparse(LinkAt(out, 0, 0, 0, 0)))) !in FileNames(out)
    ensures ItemName(Padded, ReaderFile(EscapedText(LinkAt(out, 0, 0, 0, 0)))) in FileNames(out)
  {
    CompiledReply(chapters, out);
    WrittenText();
    WrittenRead(Unparse(Written));
    NotAFile(out, ReaderFile(Unparse(Written)));
  }
}

=== FILE: links.dfy ===
/** The link resolver of `compile_chapters` (src/render.py, glowfic-dl.py,
    epub.py): every section gets a file name, a table maps each permalink
    to the file of the last section holding it, and every href is then
    rewritten to an internal file, promoted to glowfic.com, or left alone. */
module Links {
  import opened Wrappers
  import opened Urls
  import Decimal
  import Sanitizer
  import Utf8
  import opened Posts
  import Splitting

  type PostSection = Splitting.Section<RenderedPost, Url>

  /** A downloaded thread: its title and its sections. */
  datatype Chapter = Chapter(title: string, sections: seq<PostSection>)

  /** How a script names section files: src/render.py's sanitized,
      zero-padded `"%.*i-%.*i (%s).xhtml"` stored under `Text/`, or the
      earlier scripts' `"chapter%i_%i.html"`. */
  datatype Naming = Padded | Plain

  /** `"%.*i-%.*i (%s)" % (chapter_digits, i + 1, section_digits, j, title)`:
      the padded name before its `.xhtml`. The chapter number counts from
      1 and is padded to the digit count of the number of chapters; the
      section number counts from 0 and is padded to the digit count of
      the highest section index. */
  function PaddedHead(i: nat, j: nat, chapterCount: nat, sectionCount: nat, title: string): string
    requires sectionCount > 0
  {
    Decimal.Pad(i + 1, Decimal.Width(chapterCount)) + "-"
      + Decimal.Pad(j, Decimal.Width(sectionCount - 1)) + " (" + title + ")"
  }

  /** Sanitizing a padded name never fails: the `.xhtml` ending survives
      filtering, so something is left and the extension is short. */
  lemma PaddedNameSanitizes(head: string)
    ensures Sanitizer.Sanitize(head + "." + "xhtml").Success?
  {
    var f := Sanitizer.Filter(head) + "." + "xhtml";
    FilterKeepsEnding(head);
    EndingSurvivesStrip(Sanitizer.Filter(head));
    Sanitizer.ExtensionAfterLastPeriod(Sanitizer.Filter(head), "xhtml");
    XhtmlIsShort();
  }

  lemma FilterKeepsEnding(head: string)
    ensures Sanitizer.Filter(head + "." + "xhtml") == Sanitizer.Filter(head) + "." + "xhtml"
  {
    var e := "." + "xhtml";
    Sanitizer.FilterConcat(head, e);
    assert head + "." + "xhtml" == head + e;
    EndingIsClean(e);
  }

  lemma EndingIsClean(e: string)
    requires e == "." + "xhtml"
    ensures Sanitizer.Filter(e) == e
  {
    assert Sanitizer.NoneBanned(e);
  }

  lemma EndingSurvivesStrip(a: string)
    ensures Sanitizer.StripPeriods(a + "." + "xhtml") == a + "." + "xhtml"
  {
    assert !Sanitizer.EndsWithPeriod(a + "." + "xhtml");
  }

  lemma XhtmlIsShort()
    ensures Utf8.Len("xhtml") == 5
  {
    Utf8.AsciiLen("xhtml");
  }

  /** The file name section `j` of chapter `i` gets. */
  function SectionName(naming: Naming, i: nat, j: nat, chapterCount: nat, sectionCount: nat, title: string): (name: string)
    requires sectionCount > 0
    ensures naming.Padded? ==> Sanitizer.ValidName(name)
  {
    match naming
    case Padded =>
      PaddedNameSanitizes(PaddedHead(i, j, chapterCount, sectionCount, title));
      Sanitizer.Sanitize(PaddedHead(i, j, chapterCount, sectionCount, title) + "." + "xhtml").value
    case Plain => PlainName(i, j)
  }

  /** `"chapter%i_%i.html" % (i, j)`. */
  function PlainName(i: nat, j: nat): string {
    "chapter" + Decimal.Show(i) + "_" + Decimal.Show(j) + ".html"
  }

  /** Distinct sections get distinct plain names: the chapter numeral ends
      at the first '_', the section numeral at the last '.'. */
  lemma PlainNamesDistinct(i: nat, j: nat, i2: nat, j2: nat)
    requires PlainName(i, j) == PlainName(i2, j2)
    ensures i == i2 && j == j2
  {
    var a, a2 := Decimal.Show(i), Decimal.Show(i2);
    var b, b2 := Decimal.Show(j), Decimal.Show(j2);
    var n := PlainName(i, j);
    if |a| != |a2| {
      PlainShape(i, j);
      PlainShape(i2, j2);
      assert false;
    }
    assert a == n[7..7 + |a|] == a2;
    Decimal.ShowInjective(i, i2);
    assert b == n[8 + |a|..|n| - 5] == b2;
    Decimal.ShowInjective(j, j2);
  }

  /** The chapter numeral of a plain name is a run of digits ended by '_'. */
  lemma PlainShape(i: nat, j: nat)
    ensures PlainName(i, j)[7 + |Decimal.Show(i)|] == '_'
    ensures forall k | 7 <= k < 7 + |Decimal.Show(i)| :: Decimal.IsDigit(PlainName(i, j)[k])
  {
  }

  /** The name of the EPUB item holding a section: src/render.py puts the
      sections under `Text/`, the links inside them stay relative. */
  function ItemName(naming: Naming, name: string): string {
    match naming
    case Padded => "Text/" + name
    case Plain => name
  }

  /** A section with its coordinates, its file name and its permalinks. */
  datatype Located = Located(chapter: nat, section: nat, name: string, targets: seq<Url>)

  predicate IsSection(chapters: seq<Chapter>, i: nat, j: nat) {
    i < |chapters| && j < |chapters[i].sections|
  }

  function Locate(chapters: seq<Chapter>, naming: Naming, i: nat, j: nat): Located
    requires IsSection(chapters, i, j)
  {
    Located(i, j, SectionName(naming, i, j, |chapters|, |chapters[i].sections|, chapters[i].title),
      chapters[i].sections[j].linkTargets)
  }

  predicate Precedes(x: Located, y: Located) {
    x.chapter < y.chapter || (x.chapter == y.chapter && x.section < y.section)
  }

  function ChapterLayout(chapters: seq<Chapter>, naming: Naming, i: nat): (ls: seq<Located>)
    requires i < |chapters|
    ensures |ls| == |chapters[i].sections|
    ensures forall j | 0 <= j < |ls| :: ls[j] == Locate(chapters, naming, i, j)
  {
    seq(|chapters[i].sections|, j requires 0 <= j < |chapters[i].sections| => Locate(chapters, naming, i, j))
  }

  /** The sections of the first `n` chapters in the order the loops of
      `compile_chapters` visit them. */
  function LayoutUpTo(chapters: seq<Chapter>, naming: Naming, n: nat): (ls: seq<Located>)
    requires n <= |chapters|
    ensures forall a | 0 <= a < |ls| ::
      ls[a].chapter < n && IsSection(chapters, ls[a].chapter, ls[a].section)
      && ls[a] == Locate(chapters, naming, ls[a].chapter, ls[a].section)
    ensures forall i: nat, j: nat | i < n && IsSection(chapters, i, j) :: Locate(chapters, naming, i, j) in ls
    ensures forall a, b | 0 <= a < b < |ls| :: Precedes(ls[a], ls[b])
  {
    if n == 0 then []
    else
      var prev := LayoutUpTo(chapters, naming, n - 1);
      var last := ChapterLayout(chapters, naming, n - 1);
      AppendPlaced(chapters, naming, n, prev, last);
      AppendComplete(chapters, naming, n, prev, last);
      AppendOrdered(n, prev, last);
      prev + last
  }

  lemma AppendPlaced(chapters: seq<Chapter>, naming: Naming, n: nat, prev: seq<Located>, last: seq<Located>)
    requires 0 < n <= |chapters| && |last| == |chapters[n - 1].sections|
    requires forall a | 0 <= a < |last| :: last[a] == Locate(chapters, naming, n - 1, a)
    requires forall a | 0 <= a < |prev| ::
      prev[a].chapter < n - 1 && IsSection(chapters, prev[a].chapter, prev[a].section)
      && prev[a] == Locate(chapters, naming, prev[a].chapter, prev[a].section)
    ensures var ls := prev + last;
      forall a | 0 <= a < |ls| ::
        ls[a].chapter < n && IsSection(chapters, ls[a].chapter, ls[a].section)
        && ls[a] == Locate(chapters, naming, ls[a].chapter, ls[a].section)
  {
    var ls := prev + last;
    forall a | 0 <= a < |ls|
      ensures ls[a].chapter < n && IsSection(chapters, ls[a].chapter, ls[a].section)
      ensures ls[a] == Locate(chapters, naming, ls[a].chapter, ls[a].section)
    {
      if a < |prev| {
        assert ls[a] == prev[a];
      } else {
        assert ls[a] == last[a - |prev|];
      }
    }
  }

  lemma AppendComplete(chapters: seq<Chapter>, naming: Naming, n: nat, prev: seq<Located>, last: seq<Located>)
    requires 0 < n <= |chapters| && |last| == |chapters[n - 1].sections|
    requires forall a | 0 <= a < |last| :: last[a] == Locate(chapters, naming, n - 1, a)
    requires forall i: nat, j: nat | i < n - 1 && IsSection(chapters, i, j) :: Locate(chapters, naming, i, j) in prev
    ensures forall i: nat, j: nat | i < n && IsSection(chapters, i, j) :: Locate(chapters, naming, i, j) in prev + last
  {
    forall i: nat, j: nat | i < n && IsSection(chapters, i, j) ensures Locate(chapters, naming, i, j) in prev + last {
      if i == n - 1 {
        assert last[j] == Locate(chapters, naming, i, j);
        assert (prev + last)[|prev| + j] == last[j];
      } else {
        assert Locate(chapters, naming, i, j) in prev;
      }
    }
  }

  lemma AppendOrdered(n: nat, prev: seq<Located>, last: seq<Located>)
    requires 0 < n
    requires forall a | 0 <= a < |prev| :: prev[a].chapter < n - 1
    requires forall a, b | 0 <= a < b < |prev| :: Precedes(prev[a], prev[b])
    requires forall a | 0 <= a < |last| :: last[a].chapter == n - 1 && last[a].section == a
    ensures forall a, b | 0 <= a < b < |prev + last| :: Precedes((prev + last)[a], (prev + last)[b])
  {
    var ls := prev + last;
    forall a, b | 0 <= a < b < |ls| ensures Precedes(ls[a], ls[b]) {
      if b < |prev| {
        assert ls[a] == prev[a] && ls[b] == prev[b];
      } else if a < |prev| {
        assert ls[a] == prev[a] && ls[b] == last[b - |prev|];
      } else {
        assert ls[a] == last[a - |prev|] && ls[b] == last[b - |prev|];
      }
    }
  }

  function Layout(chapters: seq<Chapter>, naming: Naming): seq<Located> {
    LayoutUpTo(chapters, naming, |chapters|)
  }

  function Keys(targets: seq<Url>): set<string> {
    set t | t in targets :: Unparse(t)
  }

  /** The first loop of `compile_chapters`: `anchor_sections[permalink] =
      file_name` for every permalink of every section in order, so a later
      section overrides an earlier one. */
  function TableOf(ls: seq<Located>): map<string, string> {
    if ls == [] then map[]
    else
      var last := ls[|ls| - 1];
      TableOf(ls[..|ls| - 1]) + map k | k in Keys(last.targets) :: last.name
  }

  /** The index of the last section holding `key`, or -1 if none does. */
  function LastHolder(ls: seq<Located>, key: string): (a: int)
    ensures -1 <= a < |ls|
    ensures a >= 0 ==> key in Keys(ls[a].targets)
    ensures forall b | a < b < |ls| :: key !in Keys(ls[b].targets)
  {
    if ls == [] then -1
    else if key in Keys(ls[|ls| - 1].targets) then |ls| - 1
    else
      var a := LastHolder(ls[..|ls| - 1], key);
      assert forall b | a < b < |ls| - 1 :: ls[b] == ls[..|ls| - 1][b];
      a
  }

  /** A key is in the table exactly when some section holds it, and it maps
      to the name of the last section that does. */
  lemma {:induction false} TableOfLastWins(ls: seq<Located>, key: string)
    ensures key in TableOf(ls) <==> LastHolder(ls, key) >= 0
    ensures key in TableOf(ls) ==> TableOf(ls)[key] == ls[LastHolder(ls, key)].name
    decreases |ls|
  {
    if ls != [] {
      var init := ls[..|ls| - 1];
      TableOfLastWins(init, key);
      if key !in Keys(ls[|ls| - 1].targets) && LastHolder(init, key) >= 0 {
        assert ls[LastHolder(init, key)] == init[LastHolder(init, key)];
      }
    }
  }

  /** `anchor_sections` after the first loop. */
  function LinkTable(chapters: seq<Chapter>, naming: Naming): map<string, string> {
    TableOf(Layout(chapters, naming))
  }

  /** Section (i2, j2) comes after section (i1, j1) in visiting order. */
  predicate After(i2: nat, j2: nat, i1: nat, j1: nat) {
    i1 < i2 || (i1 == i2 && j1 < j2)
  }

  /** Every permalink of every section is in the table, and maps to the
      file of the last section that holds it: that section is this one or
      a later one, and no section after it holds the permalink. */
  lemma LinkTableOwner(chapters: seq<Chapter>, naming: Naming, i: nat, j: nat, p: Url) returns (i': nat, j': nat)
    requires IsSection(chapters, i, j) && p in chapters[i].sections[j].linkTargets
    ensures Unparse(p) in LinkTable(chapters, naming)
    ensures IsSection(chapters, i', j') && Unparse(p) in Keys(chapters[i'].sections[j'].linkTargets)
    ensures LinkTable(chapters, naming)[Unparse(p)]
      == SectionName(naming, i', j', |chapters|, |chapters[i'].sections|, chapters[i'].title)
    ensures !After(i, j, i', j')
    ensures forall i2: nat, j2: nat | IsSection(chapters, i2, j2) && After(i2, j2, i', j') ::
      Unparse(p) !in Keys(chapters[i2].sections[j2].linkTargets)
  {
    var ls := Layout(chapters, naming);
    var key := Unparse(p);
    var x := LayoutIndex(chapters, naming, i, j);
    assert key in Keys(ls[x].targets);
    TableOfLastWins(ls, key);
    var h := LastHolder(ls, key);
    i', j' := ls[h].chapter, ls[h].section;
    OwnerIsLast(chapters, naming, key, h);
    if h > x {
      assert Precedes(ls[x], ls[h]);
    }
    assert ls[h] == Locate(chapters, naming, i', j');
    assert !After(i, j, i', j');
  }

  /** The position of a section in the layout. */
  lemma LayoutIndex(chapters: seq<Chapter>, naming: Naming, i: nat, j: nat) returns (x: nat)
    requires IsSection(chapters, i, j)
    ensures x < |Layout(chapters, naming)| && Layout(chapters, naming)[x] == Locate(chapters, naming, i, j)
  {
    var ls := Layout(chapters, naming);
    assert Locate(chapters, naming, i, j) in ls;
    x :| 0 <= x < |ls| && ls[x] == Locate(chapters, naming, i, j);
  }

  /** No section after the last holder of a key holds it. */
  lemma OwnerIsLast(chapters: seq<Chapter>, naming: Naming, key: string, h: int)
    requires h == LastHolder(Layout(chapters, naming), key) && h >= 0
    ensures forall i2: nat, j2: nat | IsSection(chapters, i2, j2)
      && After(i2, j2, Layout(chapters, naming)[h].chapter, Layout(chapters, naming)[h].section) ::
        key !in Keys(chapters[i2].sections[j2].linkTargets)
  {
    var ls := Layout(chapters, naming);
    forall i2: nat, j2: nat | IsSection(chapters, i2, j2) && After(i2, j2, ls[h].chapter, ls[h].section)
      ensures key !in Keys(chapters[i2].sections[j2].linkTargets)
    {
      var y := LayoutIndex(chapters, naming, i2, j2);
      assert y != h;
    }
  }

  /** Every file name in the table is the name of a section. */
  lemma TableNamesSections(chapters: seq<Chapter>, naming: Naming, v: string) returns (i: nat, j: nat)
    requires v in LinkTable(chapters, naming).Values
    ensures IsSection(chapters, i, j)
    ensures v == SectionName(naming, i, j, |chapters|, |chapters[i].sections|, chapters[i].title)
  {
    var ls := Layout(chapters, naming);
    var key :| key in LinkTable(chapters, naming) && LinkTable(chapters, naming)[key] == v;
    TableOfLastWins(ls, key);
    var owner := ls[LastHolder(ls, key)];
    assert owner == Locate(chapters, naming, owner.chapter, owner.section);
    i, j := owner.chapter, owner.section;
  }

  /** The host the earlier scripts and src/render.py give a host-less link
      they cannot resolve. */
  function Promote(u: Url): Url {
    u.(scheme := "https", netloc := "glowfic.com")
  }

  /** The permalink-table hit of an absolute glowfic.com reply URL. */
  function AbsoluteHit(table: map<string, string>, raw: string): Option<string> {
    var m := MatchAbsoluteReply(raw);
    if m.Some? && m.value in table then Some(table[m.value]) else None
  }

  /** The rewrite of one href. A relative reply link found verbatim in the
      table keeps its scheme, query and fragment but takes the file name
      as its path. Otherwise, when `retryAbsolute` holds (src/render.py),
      an absolute glowfic.com reply URL whose relative part is in the table
      becomes exactly that file name. Otherwise a host-less link is sent to
      glowfic.com, and a link with a host is left alone. */
  function RewriteHref(table: map<string, string>, u: Url, retryAbsolute: bool): (r: Url)
    ensures r.netloc != "" || r.path in table.Values
    ensures IsRelativeReply(Unparse(u)) && Unparse(u) in table ==>
      r.path == table[Unparse(u)] && r.scheme == u.scheme && r.netloc == u.netloc && r.params == u.params
      && r.query == u.query && r.fragment == u.fragment
    ensures Parsed(u) && u.netloc != "" ==>
      r == if retryAbsolute && AbsoluteHit(table, Unparse(u)).Some? then PathOnly(AbsoluteHit(table, Unparse(u)).value) else u
    ensures (u.netloc == "" && !(IsRelativeReply(Unparse(u)) && Unparse(u) in table)
             && !(retryAbsolute && AbsoluteHit(table, Unparse(u)).Some?)) ==> r == Promote(u)
  {
    var raw := Unparse(u);
    HostedIsNotRelative(u);
    if IsRelativeReply(raw) && raw in table then u.(path := table[raw])
    else if retryAbsolute && AbsoluteHit(table, raw).Some? then PathOnly(AbsoluteHit(table, raw).value)
    else if u.netloc == "" then Promote(u)
    else u
  }

  /** Rewriting is not idempotent: a resolved internal link has no host,
      so a second pass sends it to glowfic.com. */
  lemma RewriteNotIdempotent(table: map<string, string>, u: Url)
    requires table == map["/replies/1" := "chapter0_0.html"] && u == PathOnly("/replies/1")
    ensures RewriteHref(table, u, false) == PathOnly("chapter0_0.html")
    ensures RewriteHref(table, RewriteHref(table, u, false), false) == Url("https", "glowfic.com", "chapter0_0.html", "", "", "")
  {
    assert IsRelativeReply("/replies/1");
    var once := PathOnly("chapter0_0.html");
    assert Unparse(once) == "chapter0_0.html";
    assert "chapter0_0.html"[0] == 'c';
    assert !IsRelativeReply("chapter0_0.html");
    assert !("https://" <= "chapter0_0.html") && !("http://" <= "chapter0_0.html");
  }

  /** With the absolute retry (src/render.py), an http(s) glowfic.com
      reply URL whose reply path is a permalink of the book becomes exactly
      the file of the section holding it. */
  lemma AbsoluteReplyResolves(table: map<string, string>, u: Url, scheme: string, www: string, kind: string, d: string, t: string)
    requires scheme == "http" || scheme == "https"
    requires www == "" || www == "www."
    requires kind == "/replies/" || kind == "/posts/"
    requires Decimal.AllDigits(d) && (t == [] || !Decimal.IsDigit(t[0]))
    requires Unparse(u) == scheme + "://" + www + "glowfic.com" + kind + d + t
    requires kind + d in table
    ensures RewriteHref(table, u, true) == PathOnly(table[kind + d])
  {
    var raw := Unparse(u);
    AbsoluteReplyMatches(raw, scheme, www, kind, d, t);
    assert raw[0] == 'h';
  }

  /** Two nodes agree except possibly in the target of a link: text and
      images are untouched, and a link keeps its text and keeps or lacks
      its href. */
  predicate SameButHref(a: Node, b: Node) {
    match a
    case Link(href, text) => b.Link? && b.text == text && (href.None? <==> b.href.None?)
    case _ => b == a
  }

  /** A node is settled when any href it carries has a host or names a
      section file of the table: nothing points at a host-less page that
      is not in the book. */
  predicate Settled(table: map<string, string>, n: Node) {
    n.Link? && n.href.Some? ==> n.href.value.netloc != "" || n.href.value.path in table.Values
  }

  predicate BlockSettled(table: map<string, string>, b: Block) {
    b.Content? ==> Settled(table, b.node)
  }

  predicate SectionSettled(table: map<string, string>, s: PostSection) {
    forall k, n | 0 <= k < |s.body| && 0 <= n < |s.body[k].blocks| :: BlockSettled(table, s.body[k].blocks[n])
  }

  /** The second loop of `compile_chapters` on one node: an anchor without
      an href is skipped, any other has its href rewritten. */
  function RewriteNode(table: map<string, string>, n: Node, retryAbsolute: bool): (r: Node)
    ensures SameButHref(n, r)
    ensures n.Link? && n.href.Some? ==> r.href == Some(RewriteHref(table, n.href.value, retryAbsolute))
    ensures Settled(table, r)
  {
    match n
    case Link(Some(u), text) => Link(Some(RewriteHref(table, u, retryAbsolute)), text)
    case _ => n
  }

  /** Only content is rewritten; anchors, headers and icons stay as they
      are. */
  function RewriteBlock(table: map<string, string>, b: Block, retryAbsolute: bool): (r: Block)
    ensures b.Content? <==> r.Content?
    ensures b.Content? ==> r.node == RewriteNode(table, b.node, retryAbsolute)
    ensures !b.Content? ==> r == b
    ensures BlockSettled(table, r)
  {
    if b.Content? then Content(RewriteNode(table, b.node, retryAbsolute)) else b
  }

  /** A rendered post after the rewrite: anchors, header and icon are
      untouched, and its content is node for node the same but for hrefs. */
  function RewritePost(table: map<string, string>, p: RenderedPost, retryAbsolute: bool): (r: RenderedPost)
    ensures r.author == p.author && r.permalink == p.permalink
    ensures |r.blocks| == |p.blocks|
    ensures forall k | 0 <= k < |p.blocks| :: r.blocks[k] == RewriteBlock(table, p.blocks[k], retryAbsolute)
    ensures Anchors(r.blocks) == Anchors(p.blocks) && Headers(r.blocks) == Headers(p.blocks)
    ensures Icons(r.blocks) == Icons(p.blocks)
  {
    var bs := seq(|p.blocks|, k requires 0 <= k < |p.blocks| => RewriteBlock(table, p.blocks[k], retryAbsolute));
    KeepsViews(table, p.blocks, bs, retryAbsolute);
    p.(blocks := bs)
  }

  lemma {:induction false} KeepsViews(table: map<string, string>, bs: seq<Block>, rs: seq<Block>, retryAbsolute: bool)
    requires |rs| == |bs| && forall k | 0 <= k < |bs| :: rs[k] == RewriteBlock(table, bs[k], retryAbsolute)
    ensures Anchors(rs) == Anchors(bs) && Headers(rs) == Headers(bs) && Icons(rs) == Icons(bs)
    decreases |bs|
  {
    if bs != [] {
      KeepsViews(table, bs[..|bs| - 1], rs[..|rs| - 1], retryAbsolute);
    }
  }

  /** A section after the rewrite: its size and permalinks are as before
      (the source does not recompute them), each post is rewritten, and
      every link in it is settled. */
  function RewriteSection(table: map<string, string>, s: PostSection, retryAbsolute: bool): (r: PostSection)
    ensures r.size == s.size && r.linkTargets == s.linkTargets
    ensures |r.body| == |s.body|
    ensures forall k | 0 <= k < |s.body| :: r.body[k] == RewritePost(table, s.body[k], retryAbsolute)
    ensures SectionSettled(table, r)
  {
    s.(body := seq(|s.body|, k requires 0 <= k < |s.body| => RewritePost(table, s.body[k], retryAbsolute)))
  }

  /** An EPUB item: its file name, its title and its section. */
  datatype Item = Item(fileName: string, title: string, section: PostSection)

  /** The items of chapter `i`: one per section, under the section's file
      name, each with its links settled against the book's table. */
  function CompileChapter(chapters: seq<Chapter>, naming: Naming, retryAbsolute: bool, i: nat): (items: seq<Item>)
    requires i < |chapters|
    ensures |items| == |chapters[i].sections|
    ensures forall j | 0 <= j < |items| ::
      items[j] == Item(ItemName(naming, SectionName(naming, i, j, |chapters|, |chapters[i].sections|, chapters[i].title)),
                       chapters[i].title,
                       RewriteSection(LinkTable(chapters, naming), chapters[i].sections[j], retryAbsolute))
    ensures forall j | 0 <= j < |items| ::
      && items[j].section.linkTargets == chapters[i].sections[j].linkTargets
      && SectionSettled(LinkTable(chapters, naming), items[j].section)
  {
    var table := LinkTable(chapters, naming);
    var c := chapters[i];
    seq(|c.sections|, j requires 0 <= j < |c.sections| =>
      Item(ItemName(naming, SectionName(naming, i, j, |chapters|, |c.sections|, c.title)), c.title,
           RewriteSection(table, c.sections[j], retryAbsolute)))
  }

  /** `compile_chapters`: one list of items per chapter, in which no
      host-less link dangles. */
  function CompileChapters(chapters: seq<Chapter>, naming: Naming, retryAbsolute: bool): (out: seq<seq<Item>>)
    ensures |out| == |chapters|
    ensures forall i | 0 <= i < |chapters| :: out[i] == CompileChapter(chapters, naming, retryAbsolute, i)
    ensures LinksLocal(out, naming)
  {
    var out := seq(|chapters|, i requires 0 <= i < |chapters| => CompileChapter(chapters, naming, retryAbsolute, i));
    LocalLinksHaveItems(chapters, naming, retryAbsolute, out);
    out
  }

  /** The href of content node `n` of post `k` of item (i, j), if it has one. */
  predicate HasLink(out: seq<seq<Item>>, i: nat, j: nat, k: nat, n: nat) {
    && i < |out| && j < |out[i]| && k < |out[i][j].section.body|
    && n < |out[i][j].section.body[k].blocks|
    && out[i][j].section.body[k].blocks[n].Content?
    && out[i][j].section.body[k].blocks[n].node.Link?
    && out[i][j].section.body[k].blocks[n].node.href.Some?
  }

  function LinkAt(out: seq<seq<Item>>, i: nat, j: nat, k: nat, n: nat): Url
    requires HasLink(out, i, j, k, n)
  {
    out[i][j].section.body[k].blocks[n].node.href.value
  }

  /** The file names of all items of a book. */
  function FileNames(out: seq<seq<Item>>): set<string> {
    set i, j | 0 <= i < |out| && 0 <= j < |out[i]| :: out[i][j].fileName
  }

  /** Every link without a host points at the file of an item of the book. */
  ghost predicate LinksLocal(out: seq<seq<Item>>, naming: Naming) {
    forall i: nat, j: nat, k: nat, n: nat | HasLink(out, i, j, k, n) && LinkAt(out, i, j, k, n).netloc == "" ::
      ItemName(naming, LinkAt(out, i, j, k, n).path) in FileNames(out)
  }

  /** After compiling, every link without a host points at the file of an
      item of the book: no internal link dangles. */
  lemma LocalLinksHaveItems(chapters: seq<Chapter>, naming: Naming, retryAbsolute: bool, out: seq<seq<Item>>)
    requires |out| == |chapters|
    requires forall i | 0 <= i < |chapters| :: out[i] == CompileChapter(chapters, naming, retryAbsolute, i)
    ensures LinksLocal(out, naming)
  {
    forall i: nat, j: nat, k: nat, n: nat | HasLink(out, i, j, k, n) && LinkAt(out, i, j, k, n).netloc == ""
      ensures ItemName(naming, LinkAt(out, i, j, k, n).path) in FileNames(out)
    {
      LocalLinkHasItem(chapters, naming, retryAbsolute, out, i, j, k, n);
    }
  }

  lemma LocalLinkHasItem(chapters: seq<Chapter>, naming: Naming, retryAbsolute: bool, out: seq<seq<Item>>,
                         i: nat, j: nat, k: nat, n: nat)
    requires |out| == |chapters|
    requires forall i | 0 <= i < |chapters| :: out[i] == CompileChapter(chapters, naming, retryAbsolute, i)
    requires HasLink(out, i, j, k, n) && LinkAt(out, i, j, k, n).netloc == ""
    ensures ItemName(naming, LinkAt(out, i, j, k, n).path) in FileNames(out)
  {
    CompiledLink(chapters, naming, retryAbsolute, out, i, j, k, n);
    var h := LinkAt(out, i, j, k, n);
    var i2, j2 := TableNamesSections(chapters, naming, h.path);
    var items := CompileChapter(chapters, naming, retryAbsolute, i2);
    assert out[i2] == items && j2 < |items|;
    assert items[j2].fileName == ItemName(naming, h.path);
  }

  /** A relative reply link to a permalink of the book resolves to the file
      of the last section holding that permalink, which is never a section
      before the one holding the post the link names. */
  lemma ReplyLinksResolve(chapters: seq<Chapter>, naming: Naming, retryAbsolute: bool, i: nat, j: nat, k: nat, n: nat,
                          i1: nat, j1: nat, p: Url) returns (i2: nat, j2: nat)
    requires HasLink(CompileChapters(chapters, naming, retryAbsolute), i, j, k, n)
    requires IsSection(chapters, i1, j1) && p in chapters[i1].sections[j1].linkTargets
    requires var u := chapters[i].sections[j].body[k].blocks[n].node.href.value;
      IsRelativeReply(Unparse(u)) && Unparse(u) == Unparse(p)
    ensures IsSection(chapters, i2, j2) && !After(i1, j1, i2, j2)
    ensures Unparse(p) in Keys(chapters[i2].sections[j2].linkTargets)
    ensures ItemName(naming, LinkAt(CompileChapters(chapters, naming, retryAbsolute), i, j, k, n).path)
      == CompileChapters(chapters, naming, retryAbsolute)[i2][j2].fileName
  {
    var out: seq<seq<Item>> := CompileChapters(chapters, naming, retryAbsolute);
    var table := LinkTable(chapters, naming);
    CompiledLink(chapters, naming, retryAbsolute, out, i, j, k, n);
    i2, j2 := LinkTableOwner(chapters, naming, i1, j1, p);
    var u := chapters[i].sections[j].body[k].blocks[n].node.href.value;
    assert LinkAt(out, i, j, k, n).path == table[Unparse(u)];
    assert out[i2][j2] == CompileChapter(chapters, naming, retryAbsolute, i2)[j2];
  }

  /** A link of the compiled book is the rewrite of the link at the same
      place in the chapters. */
  lemma CompiledLink(chapters: seq<Chapter>, naming: Naming, retryAbsolute: bool, out: seq<seq<Item>>,
                     i: nat, j: nat, k: nat, n: nat)
    requires |out| == |chapters|
    requires forall i | 0 <= i < |chapters| :: out[i] == CompileChapter(chapters, naming, retryAbsolute, i)
    requires HasLink(out, i, j, k, n)
    ensures IsSection(chapters, i, j) && k < |chapters[i].sections[j].body|
      && n < |chapters[i].sections[j].body[k].blocks|
    ensures var b := chapters[i].sections[j].body[k].blocks[n];
      b.Content? && b.node.Link? && b.node.href.Some?
      && LinkAt(out, i, j, k, n) == RewriteHref(LinkTable(chapters, naming), b.node.href.value, retryAbsolute)
  {
    var before := chapters[i].sections[j].body[k].blocks[n];
    assert out[i][j].section.body[k].blocks[n] == RewriteBlock(LinkTable(chapters, naming), before, retryAbsolute);
  }

  /** Without the absolute retry (glowfic-dl.py, epub.py), a link that has
      a host comes out of compiling exactly as it went in. */
  lemma HostedLinksKept(chapters: seq<Chapter>, naming: Naming, i: nat, j: nat, k: nat, n: nat)
    requires HasLink(CompileChapters(chapters, naming, false), i, j, k, n)
    requires var u := chapters[i].sections[j].body[k].blocks[n].node.href.value;
      Parsed(u) && u.netloc != ""
    ensures LinkAt(CompileChapters(chapters, naming, false), i, j, k, n)
      == chapters[i].sections[j].body[k].blocks[n].node.href.value
  {
    var out: seq<seq<Item>> := CompileChapters(chapters, naming, false);
    var before := chapters[i].sections[j].body[k].blocks[n];
    assert out[i][j].section.body[k].blocks[n] == RewriteBlock(LinkTable(chapters, naming), before, false);
  }

  /** A link as the chapters carry it before compiling. */
  predicate InputLink(chapters: seq<Chapter>, i: nat, j: nat, k: nat, n: nat) {
    && IsSection(chapters, i, j) && k < |chapters[i].sections[j].body|
    && n < |chapters[i].sections[j].body[k].blocks|
    && chapters[i].sections[j].body[k].blocks[n].Content?
    && chapters[i].sections[j].body[k].blocks[n].node.Link?
    && chapters[i].sections[j].body[k].blocks[n].node.href.Some?
  }

  function InputHref(chapters: seq<Chapter>, i: nat, j: nat, k: nat, n: nat): Url
    requires InputLink(chapters, i, j, k, n)
  {
    chapters[i].sections[j].body[k].blocks[n].node.href.value
  }

  /** The hrefs are records `urlparse` can produce, and one without a host
      has no params, as on glowfic.com. */
  ghost predicate HrefsPlain(chapters: seq<Chapter>) {
    forall i: nat, j: nat, k: nat, n: nat | InputLink(chapters, i, j, k, n) ::
      Parsed(InputHref(chapters, i, j, k, n))
      && (InputHref(chapters, i, j, k, n).netloc == "" ==> InputHref(chapters, i, j, k, n).params == "")
  }

  /** A rewritten href without a host is a bare file name of the table,
      perhaps with a query and a fragment. */
  lemma LocalRewriteShape(table: map<string, string>, u: Url, retryAbsolute: bool)
    requires Parsed(u) && (u.netloc == "" ==> u.params == "")
    requires RewriteHref(table, u, retryAbsolute).netloc == ""
    ensures var r := RewriteHref(table, u, retryAbsolute);
      r.scheme == "" && r.params == "" && r.path in table.Values
  {
    if u.scheme != "" {
      SchemedIsNotRelative(u);
    }
  }

  /** The text of a URL with a scheme starts with a letter, never with a
      reply path. */
  lemma SchemedIsNotRelative(u: Url)
    requires Parsed(u) && u.scheme != ""
    ensures !IsRelativeReply(Unparse(u))
  {
    assert Unparse(u)[0] == u.scheme[0];
  }

  /** The characters a reader treats specially in a path are absent from a
      numeral. */
  lemma DigitsLack(s: string)
    requires Decimal.AllDigits(s)
    ensures '#' !in s && '?' !in s && '%' !in s
  {
  }

  /** A section file name holds no '?', which the sanitizer drops, and no
      '#' or '%' unless its chapter title does. */
  lemma SectionNameClean(naming: Naming, i: nat, j: nat, chapterCount: nat, sectionCount: nat, title: string)
    requires sectionCount > 0
    requires naming.Padded? ==> '#' !in title && '%' !in title
    ensures var name := SectionName(naming, i, j, chapterCount, sectionCount, title);
      '#' !in name && '?' !in name && '%' !in name
  {
    match naming
    case Padded =>
      var head := PaddedHead(i, j, chapterCount, sectionCount, title);
      HeadClean(i, j, chapterCount, sectionCount, title);
      PaddedNameSanitizes(head);
      SanitizedClean(head + "." + "xhtml");
    case Plain =>
      DigitsLack(Decimal.Show(i));
      DigitsLack(Decimal.Show(j));
  }

  lemma HeadClean(i: nat, j: nat, chapterCount: nat, sectionCount: nat, title: string)
    requires sectionCount > 0 && '#' !in title && '%' !in title
    ensures var s := PaddedHead(i, j, chapterCount, sectionCount, title) + "." + "xhtml";
      '#' !in s && '%' !in s
  {
    DigitsLack(Decimal.Pad(i + 1, Decimal.Width(chapterCount)));
    DigitsLack(Decimal.Pad(j, Decimal.Width(sectionCount - 1)));
  }

  lemma SanitizedClean(s: string)
    requires Sanitizer.Sanitize(s).Success? && '#' !in s && '%' !in s
    ensures var r := Sanitizer.Sanitize(s).value; '#' !in r && '?' !in r && '%' !in r
  {
    Sanitizer.SanitizeAddsNothing(s, '#');
    Sanitizer.SanitizeAddsNothing(s, '%');
    BannedAbsent(Sanitizer.Sanitize(s).value, '?');
  }

  lemma BannedAbsent(s: string, c: char)
    requires Sanitizer.NoneBanned(s) && c in Sanitizer.BannedChars
    ensures c !in s
  {
  }

  /** A link of the compiled book without a host is the bare name of a
      section file. */
  lemma LocalLinkShape(chapters: seq<Chapter>, naming: Naming, retryAbsolute: bool, out: seq<seq<Item>>,
                       i: nat, j: nat, k: nat, n: nat) returns (i2: nat, j2: nat)
    requires out == CompileChapters(chapters, naming, retryAbsolute) && HrefsPlain(chapters)
    requires HasLink(out, i, j, k, n) && LinkAt(out, i, j, k, n).netloc == ""
    ensures var h := LinkAt(out, i, j, k, n);
      h.scheme == "" && h.params == "" && IsSection(chapters, i2, j2)
      && h.path == SectionName(naming, i2, j2, |chapters|, |chapters[i2].sections|, chapters[i2].title)
  {
    CompiledLink(chapters, naming, retryAbsolute, out, i, j, k, n);
    assert InputLink(chapters, i, j, k, n);
    var u := InputHref(chapters, i, j, k, n);
    LocalRewriteShape(LinkTable(chapters, naming), u, retryAbsolute);
    i2, j2 := TableNamesSections(chapters, naming, LinkAt(out, i, j, k, n).path);
  }

  /** The href text the source writes is `geturl()` of the record, or the
      bare file name, which is the text of `PathOnly` of it. When no chapter
      title holds '#' or '%', a reader opening that text reaches the file
      of an item of the book. */
  lemma LinkTextsLocal(chapters: seq<Chapter>, naming: Naming, retryAbsolute: bool, out: seq<seq<Item>>)
    requires out == CompileChapters(chapters, naming, retryAbsolute) && HrefsPlain(chapters)
    requires naming.Padded? ==> forall i | 0 <= i < |chapters| :: '#' !in chapters[i].title && '%' !in chapters[i].title
    ensures forall i: nat, j: nat, k: nat, n: nat | HasLink(out, i, j, k, n) && LinkAt(out, i, j, k, n).netloc == "" ::
      ItemName(naming, ReaderFile(Unparse(LinkAt(out, i, j, k, n)))) in FileNames(out)
  {
    forall i: nat, j: nat, k: nat, n: nat | HasLink(out, i, j, k, n) && LinkAt(out, i, j, k, n).netloc == ""
      ensures ItemName(naming, ReaderFile(Unparse(LinkAt(out, i, j, k, n)))) in FileNames(out)
    {
      var h := LinkAt(out, i, j, k, n);
      var i2, j2 := LocalLinkShape(chapters, naming, retryAbsolute, out, i, j, k, n);
      SectionNameClean(naming, i2, j2, |chapters|, |chapters[i2].sections|, chapters[i2].title);
      PlainPathRead(h);
      LocalLinkHasItem(chapters, naming, retryAbsolute, out, i, j, k, n);
    }
  }

  /** The text a compiled href evidently should carry: a link without a
      host has its file name escaped, so a '#', '?' or '%' of a chapter
      title stays part of the path; a link with a host is written as it
      is. */
  function EscapedText(h: Url): (t: string)
    ensures h.netloc != "" ==> t == Unparse(h)
    ensures h.netloc == "" && h.scheme == "" && h.params == "" ==> ReaderFile(t) == h.path
  {
    if h.netloc == "" then
      EscapedBareRead(h);
      Unparse(h.(path := Escape(h.path)))
    else Unparse(h)
  }

  lemma EscapedBareRead(h: Url)
    requires h.netloc == ""
    ensures h.scheme == "" && h.params == "" ==> ReaderFile(Unparse(h.(path := Escape(h.path)))) == h.path
  {
    if h.scheme == "" && h.params == "" {
      EscapedPathRead(h);
    }
  }

  /** Written as `EscapedText`, every link of the compiled book without a
      host reaches the file of an item, whatever the chapter titles hold. */
  lemma EscapedLinksLocal(chapters: seq<Chapter>, naming: Naming, retryAbsolute: bool, out: seq<seq<Item>>)
    requires out == CompileChapters(chapters, naming, retryAbsolute) && HrefsPlain(chapters)
    ensures forall i: nat, j: nat, k: nat, n: nat | HasLink(out, i, j, k, n) && LinkAt(out, i, j, k, n).netloc == "" ::
      ItemName(naming, ReaderFile(EscapedText(LinkAt(out, i, j, k, n)))) in FileNames(out)
  {
    forall i: nat, j: nat, k: nat, n: nat | HasLink(out, i, j, k, n) && LinkAt(out, i, j, k, n).netloc == ""
      ensures ItemName(naming, ReaderFile(EscapedText(LinkAt(out, i, j, k, n)))) in FileNames(out)
    {
      var i2, j2 := LocalLinkShape(chapters, naming, retryAbsolute, out, i, j, k, n);
      LocalLinkHasItem(chapters, naming, retryAbsolute, out, i, j, k, n);
    }
  }
}

=== FILE: main_script.dfy ===
/** main.py: posts are rendered against a running single-map registry,
    without anchors, into one unsplit chapter. */
module MainScript {
  import opened Urls
  import opened Wrappers
  import opened Posts
  import opened SimpleImages
  import opened Seqs
  import EarlyRender

  /** `render_post`: the header, the icon named by `insert` with no alt
      text, then the content; no anchor. */
  function RenderPost(p: RawPost, r: Registry): (res: (RenderedPost, Registry))
    ensures res.0.author == p.author
    ensures Anchors(res.0.blocks) == [] && |res.0.blocks| > 0 && res.0.blocks[0] == Header(HeaderText(p))
    ensures ContentOf(res.0.blocks) == p.content
    ensures p.icon.Some? ==>
      && res.1 == Insert(r, p.icon.value.src).0
      && Icons(res.0.blocks) == [IconImage(PathOnly(Insert(r, p.icon.value.src).1), None)]
    ensures p.icon.None? ==> res.1 == r && Icons(res.0.blocks) == []
    ensures LaidOut(res.0.blocks, None, HeaderText(p),
      if p.icon.Some? then Some(IconImage(PathOnly(Insert(r, p.icon.value.src).1), None)) else None, p.content)
  {
    EarlyRender.RenderPost(p, r, false)
  }

  /** What `render_posts` leaves behind: the body of the single output,
      the registry and the keys of the `authors` dictionary. */
  datatype Rendered = Rendered(body: seq<RenderedPost>, images: Registry, authors: seq<Option<string>>)

  /** `render_posts`: every post, in order, in one output; a post with an
      icon gets header, icon and content, one without gets header and
      content; every author is recorded. */
  function RenderPosts(posts: seq<RawPost>, r: Registry, authors: seq<Option<string>>): (res: Rendered)
    ensures |res.body| == |posts|
    ensures forall k | 0 <= k < |posts| ::
      && res.body[k] == EarlyRender.RenderPost(posts[k], EarlyRender.Before(posts, r, k), false).0
      && res.body[k].blocks[0] == Header(HeaderText(posts[k]))
      && Anchors(res.body[k].blocks) == []
    ensures res.images == InsertAll(r, IconUrls(posts))
    ensures res.authors == Recorded(authors, AuthorsOf(posts))
  {
    var all := EarlyRender.RenderAll(posts, r, false);
    forall k | 0 <= k < |posts|
      ensures all.0[k].blocks[0] == Header(HeaderText(posts[k])) && Anchors(all.0[k].blocks) == []
    {
      var p := EarlyRender.RenderPost(posts[k], EarlyRender.Before(posts, r, k), false);
      assert all.0[k] == p.0;
    }
    Rendered(all.0, all.1, Recorded(authors, AuthorsOf(posts)))
  }
}

=== FILE: posts.dfy ===
/** Posts as the renderers see them, and what every renderer variant
    shares: the header line and the layout of a rendered post. */
module Posts {
  import opened Wrappers
  import opened Urls

  /** One child of a post's content, in document order. Nested markup is
      flattened to the nodes the renderers touch: images and links. */
  datatype Node = Text(text: string) | Img(src: Url) | Link(href: Option<Url>, text: string)

  datatype Icon = Icon(src: Url, alt: string)

  /** A scraped post: the three optional header fields (already stripped
      of surrounding whitespace), the icon if any, the content and the
      permalink href. */
  datatype RawPost = RawPost(
    character: Option<string>,
    screenName: Option<string>,
    author: Option<string>,
    icon: Option<Icon>,
    content: seq<Node>,
    permalink: Url)

  /** A child of a rendered post's `<div class="post">`. */
  datatype Block =
    | Anchor(id: string)
    | Header(text: string)
    | IconImage(src: Url, alt: Option<string>)
    | Content(node: Node)

  datatype RenderedPost = RenderedPost(blocks: seq<Block>, author: Option<string>, permalink: Url)

  /** The values present among `xs`, in order. */
  function Present(xs: seq<Option<string>>): (r: seq<string>)
    ensures |r| <= |xs|
    ensures forall s :: s in r <==> Some(s) in xs
  {
    if xs == [] then []
    else
      var init := Present(xs[..|xs| - 1]);
      assert forall o :: o in xs <==> o in xs[..|xs| - 1] || o == xs[|xs| - 1];
      match xs[|xs| - 1]
      case None => init
      case Some(s) => init + [s]
  }

  /** `" / ".join(parts)`. */
  function Join(parts: seq<string>): string {
    if |parts| == 0 then ""
    else if |parts| == 1 then parts[0]
    else Join(parts[..|parts| - 1]) + " / " + parts[|parts| - 1]
  }

  /** The text of the header's `<strong>`: the present ones of character,
      screen name and author, in that order, separated by " / ". */
  function HeaderText(p: RawPost): string {
    Join(Present([p.character, p.screenName, p.author]))
  }

  /** The same header written out case by case. */
  function HeaderByCases(character: Option<string>, screenName: Option<string>, author: Option<string>): string {
    match (character, screenName, author)
    case (None, None, None) => ""
    case (Some(c), None, None) => c
    case (None, Some(s), None) => s
    case (None, None, Some(a)) => a
    case (Some(c), Some(s), None) => c + " / " + s
    case (Some(c), None, Some(a)) => c + " / " + a
    case (None, Some(s), Some(a)) => s + " / " + a
    case (Some(c), Some(s), Some(a)) => c + " / " + s + " / " + a
  }

  lemma HeaderMatchesCases(p: RawPost)
    ensures HeaderText(p) == HeaderByCases(p.character, p.screenName, p.author)
  {
    var c, s, a := p.character, p.screenName, p.author;
    PresentOfThree(c, s, a);
    match (c, s, a)
    case (Some(c), Some(s), Some(a)) =>
      assert Listed(Some(c)) + Listed(Some(s)) + Listed(Some(a)) == [c, s, a];
      JoinThree(c, s, a);
    case (Some(c), Some(s), None) =>
      assert Listed(Some(c)) + Listed(Some(s)) + Listed(None) == [c, s];
      JoinTwo(c, s);
    case (Some(c), None, Some(a)) =>
      assert Listed(Some(c)) + Listed(None) + Listed(Some(a)) == [c, a];
      JoinTwo(c, a);
    case (None, Some(s), Some(a)) =>
      assert Listed(None) + Listed(Some(s)) + Listed(Some(a)) == [s, a];
      JoinTwo(s, a);
    case _ =>
  }

  function Listed(o: Option<string>): seq<string> {
    if o.Some? then [o.value] else []
  }

  lemma PresentOfThree(c: Option<string>, s: Option<string>, a: Option<string>)
    ensures Present([c, s, a]) == Listed(c) + Listed(s) + Listed(a)
  {
    assert [c, s, a][..2] == [c, s] && [c, s][..1] == [c] && [c][..0] == [];
    assert Present([c]) == Listed(c);
    assert Present([c, s]) == Listed(c) + Listed(s);
  }

  lemma JoinTwo(x: string, y: string)
    ensures Join([x, y]) == x + " / " + y
  {
    assert [x, y][..1] == [x];
  }

  lemma JoinThree(x: string, y: string, z: string)
    ensures Join([x, y, z]) == x + " / " + y + " / " + z
  {
    assert [x, y, z][..2] == [x, y];
    JoinTwo(x, y);
  }

  /** The blocks of `bs` that `pick` selects, in order. */
  function Select<T>(bs: seq<Block>, pick: Block -> Option<T>): seq<T> {
    if bs == [] then []
    else
      var init := Select(bs[..|bs| - 1], pick);
      match pick(bs[|bs| - 1])
      case None => init
      case Some(x) => init + [x]
  }

  lemma {:induction false} SelectConcat<T>(a: seq<Block>, b: seq<Block>, pick: Block -> Option<T>)
    ensures Select(a + b, pick) == Select(a, pick) + Select(b, pick)
    decreases |b|
  {
    if b == [] {
      assert a + b == a;
    } else {
      SelectConcat(a, b[..|b| - 1], pick);
      assert (a + b)[..|a + b| - 1] == a + b[..|b| - 1];
    }
  }

  function AnchorId(b: Block): Option<string> {
    if b.Anchor? then Some(b.id) else None
  }

  function HeaderOf(b: Block): Option<string> {
    if b.Header? then Some(b.text) else None
  }

  function IconOf(b: Block): Option<Block> {
    if b.IconImage? then Some(b) else None
  }

  function NodeOf(b: Block): Option<Node> {
    if b.Content? then Some(b.node) else None
  }

  function Anchors(bs: seq<Block>): seq<string> {
    Select(bs, AnchorId)
  }

  function Headers(bs: seq<Block>): seq<string> {
    Select(bs, HeaderOf)
  }

  function Icons(bs: seq<Block>): seq<Block> {
    Select(bs, IconOf)
  }

  /** The post's content nodes, read back from its blocks. */
  function ContentOf(bs: seq<Block>): seq<Node> {
    Select(bs, NodeOf)
  }

  function Contents(nodes: seq<Node>): (bs: seq<Block>)
    ensures |bs| == |nodes|
    ensures forall i | 0 <= i < |nodes| :: bs[i] == Content(nodes[i])
  {
    seq(|nodes|, i requires 0 <= i < |nodes| => Content(nodes[i]))
  }

  /** Wrapping content nodes in blocks and reading them back is lossless,
      and adds no anchor, header or icon. */
  lemma {:induction false} ContentsRoundTrip(nodes: seq<Node>)
    ensures ContentOf(Contents(nodes)) == nodes
    ensures Anchors(Contents(nodes)) == [] && Headers(Contents(nodes)) == [] && Icons(Contents(nodes)) == []
    decreases |nodes|
  {
    if nodes != [] {
      var init := nodes[..|nodes| - 1];
      ContentsRoundTrip(init);
      assert Contents(nodes)[..|nodes| - 1] == Contents(init);
    }
  }

  /** The layout of a post's `<div>`: the anchor first when there is one,
      then the header, then the icon when there is one, then the content's
      children, and nothing else. */
  predicate LaidOut(bs: seq<Block>, anchor: Option<string>, header: string, icon: Option<Block>, content: seq<Node>) {
    var h := if anchor.Some? then 1 else 0;
    var c := h + 1 + (if icon.Some? then 1 else 0);
    && |bs| == c + |content|
    && (anchor.Some? ==> bs[0] == Anchor(anchor.value))
    && bs[h] == Header(header)
    && (icon.Some? ==> bs[h + 1] == icon.value)
    && bs[c..] == Contents(content)
  }

  /** The layout leaves no freedom: two posts laid out from the same parts
      are the same post. */
  lemma LaidOutUnique(bs: seq<Block>, bs': seq<Block>, anchor: Option<string>, header: string, icon: Option<Block>, content: seq<Node>)
    requires LaidOut(bs, anchor, header, icon, content) && LaidOut(bs', anchor, header, icon, content)
    ensures bs == bs'
  {
    var h := if anchor.Some? then 1 else 0;
    var c := h + 1 + (if icon.Some? then 1 else 0);
    forall i | 0 <= i < |bs| ensures bs[i] == bs'[i] {
      if i >= c {
        assert bs[i] == bs[c..][i - c] && bs'[i] == bs'[c..][i - c];
      }
    }
  }

  /** `post_div.extend(...)`: the optional reply anchor, the header, the
      optional icon, then the content's children. */
  function Assemble(anchor: Option<string>, header: string, icon: Option<Block>, content: seq<Node>): (bs: seq<Block>)
    requires icon.Some? ==> icon.value.IconImage?
    ensures Anchors(bs) == (if anchor.Some? then [anchor.value] else [])
    ensures Headers(bs) == [header]
    ensures Icons(bs) == (if icon.Some? then [icon.value] else [])
    ensures ContentOf(bs) == content
    ensures |bs| == (if anchor.Some? then 1 else 0) + 1 + (if icon.Some? then 1 else 0) + |content|
    ensures bs[if anchor.Some? then 1 else 0] == Header(header)
    ensures LaidOut(bs, anchor, header, icon, content)
  {
    var a := if anchor.Some? then [Anchor(anchor.value)] else [];
    var i := if icon.Some? then [icon.value] else [];
    var bs := a + [Header(header)] + i + Contents(content);
    SelectFour(a, [Header(header)], i, Contents(content), AnchorId);
    SelectFour(a, [Header(header)], i, Contents(content), HeaderOf);
    SelectFour(a, [Header(header)], i, Contents(content), IconOf);
    SelectFour(a, [Header(header)], i, Contents(content), NodeOf);
    ContentsRoundTrip(content);
    assert bs[|bs| - |content|..] == Contents(content);
    bs
  }

  lemma SelectFour<T>(a: seq<Block>, b: seq<Block>, c: seq<Block>, d: seq<Block>, pick: Block -> Option<T>)
    ensures Select(a + b + c + d, pick) == Select(a, pick) + Select(b, pick) + Select(c, pick) + Select(d, pick)
  {
    SelectConcat(a, b, pick);
    SelectConcat(a + b, c, pick);
    SelectConcat(a + b + c, d, pick);
  }

  /** The icon `src` of every post that has one, in post order. */
  function IconUrls(posts: seq<RawPost>): (us: seq<Url>)
    ensures forall u :: u in us <==> exists k | 0 <= k < |posts| :: posts[k].icon.Some? && posts[k].icon.value.src == u
  {
    if posts == [] then []
    else
      var init := posts[..|posts| - 1];
      var last := posts[|posts| - 1];
      assert forall k | 0 <= k < |init| :: init[k] == posts[k];
      IconUrls(init) + (if last.icon.Some? then [last.icon.value.src] else [])
  }

  /** The permalink a section records for a rendered post. */
  function Permalink(p: RenderedPost): Url {
    p.permalink
  }

  /** The author of each post, `None` where the post names none. */
  function AuthorsOf(posts: seq<RawPost>): (authors: seq<Option<string>>)
    ensures |authors| == |posts| && forall k | 0 <= k < |posts| :: authors[k] == posts[k].author
  {
    seq(|posts|, k requires 0 <= k < |posts| => posts[k].author)
  }
}

=== FILE: registry_examples.dfy ===
/** Concrete instances of the registry's naming behaviour around the
    ten-id boundary, where the recomputed padding width changes. */
module RegistryExamples {
  import opened Wrappers
  import opened Urls
  import Decimal
  import Sanitizer
  import Utf8
  import opened ImageRegistry

  lemma WidthsAroundTen()
    ensures Decimal.Width(9) == 1 && Decimal.Width(10) == 2
  {
    assert Decimal.Show(10) == Decimal.Show(1) + [Decimal.DigitChar(0)];
  }

  lemma PaddedZero()
    ensures Decimal.Pad(0, 1) == "0" && Decimal.Pad(0, 2) == "00"
  {
    assert Decimal.Show(0) == "0";
    assert Decimal.Zeros(0) + "0" == "0";
    assert Decimal.Zeros(1) == "0";
    assert Decimal.Zeros(1) + "0" == "00";
  }

  lemma IconStems(img: MappedImage)
    requires img == MappedImage("icon", 0, "png")
    ensures Stem(img, 1) == "icon0.png" && Stem(img, 2) == "icon00.png"
  {
    PaddedZero();
  }

  lemma ImageStem(img: MappedImage)
    requires img == MappedImage("image", 0, "png")
    ensures Stem(img, 2) == "image00.png"
  {
    PaddedZero();
  }

  lemma IconNamesValid()
    ensures Sanitizer.ValidName("icon0.png") && Sanitizer.ValidName("icon00.png")
  {
    PlainNameValid("icon0.png");
    PlainNameValid("icon00.png");
  }

  lemma ImageNameValid()
    ensures Sanitizer.ValidName("image00.png")
  {
    PlainNameValid("image00.png");
  }

  /** A short name of lower-case letters, digits and periods that does not
      end in a period is a valid file name. */
  lemma PlainNameValid(s: string)
    requires 0 < |s| <= 63 && s[|s| - 1] != '.'
    requires forall i | 0 <= i < |s| :: 'a' <= s[i] <= 'z' || '0' <= s[i] <= '9' || s[i] == '.'
    ensures Sanitizer.ValidName(s)
  {
    forall i | 0 <= i < |s| ensures !Sanitizer.Banned(s[i]) {
      assert s[i] !in Sanitizer.BannedChars;
    }
    assert Utf8.Len(s) <= 4 * |s|;
  }

  lemma ConcretePaths()
    ensures "Images/" + "icon0.png" == "Images/icon0.png"
    ensures "Images/" + "icon00.png" == "Images/icon00.png"
    ensures "Images/" + "image00.png" == "Images/image00.png"
  {
  }

  lemma NamedAs(img: MappedImage, idWidth: nat, name: string)
    requires Stem(img, idWidth) == name && Sanitizer.ValidName(name)
    ensures ToFilename(img, idWidth) == Success("Images/" + name)
  {
  }

  /** Concretely: with ten icons registered the first icon is
      `icon0.png`; the eleventh icon renames it to `icon00.png`. */
  lemma EleventhIconRenamesFirst(m: ImageMap, u: Url, v: Url)
    requires Valid(m) && m.icons.next == 10
    requires u in m.icons.entries && m.icons.entries[u].id == 0 && m.icons.entries[u].ext == "png"
    requires v !in m.icons.entries
    ensures GetIcon(m, u) == Success("Images/icon0.png")
    ensures GetIcon(AddIcon(m, v), u) == Success("Images/icon00.png")
  {
    var img := m.icons.entries[u];
    var m' := AddIcon(m, v);
    WidthsAroundTen();
    IconStems(img);
    IconNamesValid();
    assert m.iconIdWidth == 1 && m'.iconIdWidth == 2;
    assert m'.icons.entries[u] == img;
    IconNamedAt(m, u, 1, "icon0.png");
    IconNamedAt(m', u, 2, "icon00.png");
    ConcretePaths();
  }

  lemma IconNamedAt(m: ImageMap, u: Url, w: nat, name: string)
    requires u in m.icons.entries && m.iconIdWidth == w
    requires Stem(m.icons.entries[u], w) == name && Sanitizer.ValidName(name)
    ensures GetIcon(m, u) == Success("Images/" + name)
  {
    NamedAs(m.icons.entries[u], w, name);
  }

  /** The image width comes from the icon counter: with ten icons and no
      images, the first image gets two digits. */
  lemma ImageWidthFromIconCounter(m: ImageMap, url: Url)
    requires Valid(m) && m.icons.next == 10 && m.images.next == 0
    requires url !in m.icons.entries && Ext(url) == "png"
    ensures GetImage(AddImage(m, url), url) == Success("Images/image00.png")
  {
    assert url !in m.images.entries;
    var r := AddImage(m, url);
    var img := r.images.entries[url];
    WidthsAroundTen();
    ImageStem(img);
    ImageNameValid();
    NamedAs(img, 2, "image00.png");
    assert r.imageIdWidth == 2;
    assert GetImage(r, url) == ToFilename(img, 2);
    ConcretePaths();
  }
}

=== FILE: render.dfy ===
/** Rendering in src/render.py: the image map is populated from every post
    of a thread first, then each post is rendered with local image paths,
    and the rendered posts are packed into sections. */
module Render {
  import opened Wrappers
  import opened Urls
  import opened Posts
  import opened ImageRegistry
  import opened Seqs
  import Splitting

  /** The `src` of every image of some content, in document order. */
  function ImageSrcs(nodes: seq<Node>): (us: seq<Url>)
    ensures forall u :: u in us <==> Img(u) in nodes
  {
    if nodes == [] then []
    else
      var init := nodes[..|nodes| - 1];
      var last := nodes[|nodes| - 1];
      assert nodes == init + [last];
      ImageSrcs(init) + (if last.Img? then [last.src] else [])
  }

  /** The content images of all posts, post after post. */
  function ImageUrls(posts: seq<RawPost>): (us: seq<Url>)
    ensures forall u :: u in us <==> exists k | 0 <= k < |posts| :: Img(u) in posts[k].content
  {
    if posts == [] then []
    else
      var init := posts[..|posts| - 1];
      assert forall k | 0 <= k < |init| :: init[k] == posts[k];
      ImageUrls(init) + ImageSrcs(posts[|posts| - 1].content)
  }

  /** Every image a post will look up is in the map: its icon among the
      icons, its content images among the icons or the images. */
  predicate Registered(p: RawPost, m: ImageMap) {
    && (p.icon.Some? ==> p.icon.value.src in m.icons.entries)
    && forall k | 0 <= k < |p.content| :: p.content[k].Img? ==>
         p.content[k].src in m.icons.entries || p.content[k].src in m.images.entries
  }

  /** `populate_image_map`: all icons first, then the content images. */
  function Populate(posts: seq<RawPost>, m: ImageMap): (r: ImageMap)
    ensures r.icons == InsertAll(m.icons, IconUrls(posts))
    ensures r.images == InsertAll(m.images, Unknown(ImageUrls(posts), r.icons.entries))
    ensures forall k | 0 <= k < |posts| :: Registered(posts[k], r)
    ensures Valid(m) ==> Valid(r)
  {
    var withIcons := AddIcons(m, IconUrls(posts));
    AddIconsInsertsAll(m, IconUrls(posts));
    AddImagesInsertsUnknown(withIcons, ImageUrls(posts));
    var r := AddImages(withIcons, ImageUrls(posts));
    PopulateRegisters(posts, m, r);
    r
  }

  lemma PopulateRegisters(posts: seq<RawPost>, m: ImageMap, r: ImageMap)
    requires r == AddImages(AddIcons(m, IconUrls(posts)), ImageUrls(posts))
    ensures forall k | 0 <= k < |posts| :: Registered(posts[k], r)
  {
    forall k | 0 <= k < |posts| ensures Registered(posts[k], r) {
      var p := posts[k];
      if p.icon.Some? {
        assert p.icon.value.src in IconUrls(posts);
      }
      forall n | 0 <= n < |p.content| && p.content[n].Img?
        ensures p.content[n].src in r.icons.entries || p.content[n].src in r.images.entries
      {
        assert Img(p.content[n].src) in p.content;
        assert p.content[n].src in ImageUrls(posts);
      }
    }
  }

  /** One content node with an image pointed at its local copy. */
  function LocalImage(n: Node, m: ImageMap): (r: Result<Node, LookupError>)
    ensures r.Success? <==> (n.Img? ==> GetImage(m, n.src).Success?)
    ensures r.Success? && n.Img? ==> r.value == Img(PathOnly("../" + GetImage(m, n.src).value))
    ensures r.Success? && !n.Img? ==> r.value == n
    ensures r.Failure? ==> n.Img? && r.error == GetImage(m, n.src).error
  {
    if n.Img? then
      var f := GetImage(m, n.src);
      if f.Failure? then Failure(f.error) else Success(Img(PathOnly("../" + f.value)))
    else Success(n)
  }

  /** The loop over `content.find_all("img")`: each image gets
      `"../" + get_image(src)`, and the first lookup that raises ends the
      rendering. */
  function RewriteImages(nodes: seq<Node>, m: ImageMap): (r: Result<seq<Node>, LookupError>)
    ensures r.Success? <==> forall k | 0 <= k < |nodes| :: nodes[k].Img? ==> GetImage(m, nodes[k].src).Success?
    ensures r.Success? ==> |r.value| == |nodes|
    ensures r.Success? ==> forall k | 0 <= k < |nodes| ::
      r.value[k] == if nodes[k].Img? then Img(PathOnly("../" + GetImage(m, nodes[k].src).value)) else nodes[k]
    ensures r.Failure? ==> exists k | 0 <= k < |nodes| ::
      && nodes[k].Img? && GetImage(m, nodes[k].src) == Failure(r.error)
      && forall k' | 0 <= k' < k :: nodes[k'].Img? ==> GetImage(m, nodes[k'].src).Success?
  {
    var f := (n: Node) => LocalImage(n, m);
    var r := MapAll(nodes, f);
    assert forall k | 0 <= k < |nodes| :: f(nodes[k]) == LocalImage(nodes[k], m);
    r
  }

  /** The anchor `render_post` emits: the permalink's fragment, only when
      it is not empty. */
  function AnchorFor(permalink: Url): Option<string> {
    if permalink.fragment != "" then Some(permalink.fragment) else None
  }

  /** `render_post`: header, content images made local, anchor, then the
      icon made local with its alt text. */
  function RenderPost(p: RawPost, m: ImageMap): (r: Result<RenderedPost, LookupError>)
    ensures r.Success? <==>
      && RewriteImages(p.content, m).Success?
      && (p.icon.Some? ==> GetIcon(m, p.icon.value.src).Success?)
    ensures Registered(p, m) && r.Failure? ==> r.error.BadName?
    ensures !Registered(p, m) ==> r.Failure?
    ensures RewriteImages(p.content, m).Failure? ==> r == Failure(RewriteImages(p.content, m).error)
    ensures r.Success? ==> r.value.author == p.author && r.value.permalink == p.permalink
    ensures r.Success? ==> Anchors(r.value.blocks) == (if p.permalink.fragment != "" then [p.permalink.fragment] else [])
    ensures r.Success? ==> Headers(r.value.blocks) == [HeaderText(p)]
    ensures r.Success? && p.icon.Some? ==>
      Icons(r.value.blocks) == [IconImage(PathOnly("../" + GetIcon(m, p.icon.value.src).value), Some(p.icon.value.alt))]
    ensures r.Success? && p.icon.None? ==> Icons(r.value.blocks) == []
    ensures r.Success? ==> ContentOf(r.value.blocks) == RewriteImages(p.content, m).value
    ensures r.Success? ==> LaidOut(r.value.blocks, AnchorFor(p.permalink), HeaderText(p),
      if p.icon.Some? then Some(IconImage(PathOnly("../" + GetIcon(m, p.icon.value.src).value), Some(p.icon.value.alt))) else None,
      RewriteImages(p.content, m).value)
  {
    var header := HeaderText(p);
    var content := RewriteImages(p.content, m);
    if content.Failure? then
      UnregisteredFails(p, m);
      Failure(content.error)
    else if p.icon.Some? then
      var f := GetIcon(m, p.icon.value.src);
      if f.Failure? then
        UnregisteredFails(p, m);
        Failure(f.error)
      else
        var icon := IconImage(PathOnly("../" + f.value), Some(p.icon.value.alt));
        Success(RenderedPost(Assemble(AnchorFor(p.permalink), header, Some(icon), content.value), p.author, p.permalink))
    else
      UnregisteredFails(p, m);
      Success(RenderedPost(Assemble(AnchorFor(p.permalink), header, None, content.value), p.author, p.permalink))
  }

  /** A lookup of an image missing from the map fails with `NotRegistered`;
      any other failure is a name the sanitizer rejects. */
  lemma UnregisteredFails(p: RawPost, m: ImageMap)
    ensures !Registered(p, m) ==>
      RewriteImages(p.content, m).Failure? || (p.icon.Some? && GetIcon(m, p.icon.value.src).Failure?)
    ensures Registered(p, m) ==>
      && (RewriteImages(p.content, m).Failure? ==> RewriteImages(p.content, m).error.BadName?)
      && (p.icon.Some? && GetIcon(m, p.icon.value.src).Failure? ==> GetIcon(m, p.icon.value.src).error.BadName?)
  {
    if !Registered(p, m) && !(p.icon.Some? && p.icon.value.src !in m.icons.entries) {
      var k :| 0 <= k < |p.content| && p.content[k].Img?
        && p.content[k].src !in m.icons.entries && p.content[k].src !in m.images.entries;
      assert GetImage(m, p.content[k].src).Failure?;
    }
  }

  /** What `render_posts` leaves behind: the sections it yields, the
      populated image map and the keys of the `authors` dictionary. */
  datatype Rendered = Rendered(sections: seq<Splitting.Section<RenderedPost, Url>>, images: ImageMap, authors: seq<Option<string>>)

  /** `render_posts`: populate the map, render every post, pack the posts
      into sections of at most `SECTION_SIZE_LIMIT` bytes (the size of a
      post is `measure` of it) and record every author. A failed lookup
      ends the whole run, and since the map was populated from these very
      posts it is never a missing image. */
  function RenderPosts(posts: seq<RawPost>, m: ImageMap, authors: seq<Option<string>>, measure: RenderedPost -> nat)
    : (r: Result<Rendered, LookupError>)
    ensures r.Success? <==> forall k | 0 <= k < |posts| :: RenderPost(posts[k], Populate(posts, m)).Success?
    ensures r.Failure? ==> r.error.BadName?
    ensures r.Success? ==> r.value.images == Populate(posts, m) && (Valid(m) ==> Valid(r.value.images))
    ensures r.Success? ==>
      var rendered := Flatten(Splitting.Bodies(r.value.sections));
      && |rendered| == |posts|
      && (forall k | 0 <= k < |posts| :: rendered[k] == RenderPost(posts[k], Populate(posts, m)).value)
      && r.value.sections == Splitting.Sections(rendered, measure, Permalink)
    ensures r.Success? ==> r.value.authors == Recorded(authors, AuthorsOf(posts))
  {
    var m' := Populate(posts, m);
    var f := (p: RawPost) => RenderPost(p, m');
    var all := MapAll(posts, f);
    assert forall k | 0 <= k < |posts| :: f(posts[k]) == RenderPost(posts[k], m');
    if all.Failure? then
      assert exists k | 0 <= k < |posts| :: RenderPost(posts[k], m').Failure? && RenderPost(posts[k], m').error == all.error;
      Failure(all.error)
    else
      Success(Rendered(Splitting.Sections(all.value, measure, Permalink), m', Recorded(authors, AuthorsOf(posts))))
  }
}

=== FILE: sanitizer.dfy ===
/** The EPUB 3 file-name sanitizer of src/helpers.py: characters that the
    EPUB 3 Open Container Format forbids in file names (section 6.1.3 of
    EPUB 3.3) are dropped, trailing periods are stripped, and names longer
    than 255 UTF-8 bytes are truncated in front of their extension. */
module Sanitizer {
  import opened Wrappers
  import Utf8

  /** Characters removed one by one: the path separators, quote, wildcard
      and comparison punctuation, and DEL. */
  const BannedChars: string := "/\\\"*:<>?|\U{7F}"

  /** Inclusive code-point ranges removed wholesale: C0 and C1 controls,
      the Private Use Area, the Arabic Presentation Forms-A non-characters,
      Specials, Tags and Variation Selectors Supplement, and the two
      Supplementary Private Use Areas. */
  const BannedRanges: seq<(int, int)> := [
    (0x0000, 0x001F),
    (0x0080, 0x009F),
    (0xE000, 0xF8FF),
    (0xFDD0, 0xFDEF),
    (0xFFF0, 0xFFFF),
    (0xE_0000, 0xE_0FFF),
    (0xF_0000, 0xF_FFFF),
    (0x10_0000, 0x10_FFFF)
  ]

  const MaxNameBytes := 255
  const MaxExtensionBytes := 254

  datatype SanitizeError =
    | NothingLeft       // only banned characters and periods
    | ExtensionTooLong  // the text after the last '.' alone exceeds 254 bytes

  predicate InRanges(cp: int, ranges: seq<(int, int)>) {
    exists i | 0 <= i < |ranges| :: ranges[i].0 <= cp <= ranges[i].1
  }

  predicate Banned(c: char) {
    c in BannedChars || InRanges(c as int, BannedRanges)
  }

  predicate NoneBanned(s: string) {
    forall i | 0 <= i < |s| :: !Banned(s[i])
  }

  predicate EndsWithPeriod(s: string) {
    |s| > 0 && s[|s| - 1] == '.'
  }

  /** A name the sanitizer hands back untouched. */
  predicate ValidName(s: string) {
    s != [] && NoneBanned(s) && !EndsWithPeriod(s) && Utf8.Len(s) <= MaxNameBytes
  }

  /** Python's `s[:-1]`, which leaves an empty string empty. */
  function DropLast(s: string): (r: string)
    ensures s == [] ==> r == []
    ensures s != [] ==> r == s[..|s| - 1]
  {
    if s == [] then s else s[..|s| - 1]
  }

  /** The character filter: keeps, in order, exactly the characters that
      are not banned. */
  function Filter(s: string): (r: string)
    ensures NoneBanned(r)
    ensures forall c :: c in r <==> c in s && !Banned(c)
    ensures NoneBanned(s) ==> r == s
    ensures |r| <= |s|
  {
    if s == [] then []
    else if Banned(s[0]) then Filter(s[1..])
    else [s[0]] + Filter(s[1..])
  }

  /** Removes every trailing '.', and nothing else. */
  function StripPeriods(s: string): (r: string)
    ensures r <= s && !EndsWithPeriod(r)
    ensures forall i | |r| <= i < |s| :: s[i] == '.'
  {
    if EndsWithPeriod(s) then StripPeriods(s[..|s| - 1]) else s
  }

  /** `s.split(".")`, reduced to the two parts the sanitizer reads: the
      text before the last '.' (`".".join(parts[:-1])`) and the text after
      it (`parts[-1]`). Without a '.', the first part is empty. */
  function SplitExtension(s: string): (parts: (string, string))
    ensures '.' !in parts.1
    ensures '.' in s ==> s == parts.0 + "." + parts.1
    ensures '.' !in s ==> parts == ("", s)
  {
    if s == [] then ("", "")
    else if s[|s| - 1] == '.' then (s[..|s| - 1], "")
    else
      var (name, ext) := SplitExtension(s[..|s| - 1]);
      assert s == s[..|s| - 1] + [s[|s| - 1]];
      (name, ext + [s[|s| - 1]])
  }

  predicate Fits(name: string, ext: string) {
    Utf8.Len(name + "." + ext) <= MaxNameBytes
  }

  /** The truncation loop: drop one trailing character of `name` at a time
      until `name + "." + ext` fits. The result is how many characters of
      `name` survive; none of them if even the bare extension fits only
      alone. */
  function KeptLength(name: string, ext: string): (k: nat)
    requires Utf8.Len(ext) <= MaxExtensionBytes
    ensures k <= |name| && Fits(name[..k], ext)
    ensures k < |name| ==> !Fits(name[..k + 1], ext)
    decreases |name|
  {
    if Fits(name, ext) then
      assert name[..|name|] == name;
      |name|
    else
      ExtensionAloneFits(ext);
      var k := KeptLength(DropLast(name), ext);
      assert DropLast(name)[..k] == name[..k];
      assert k + 1 <= |DropLast(name)| ==> DropLast(name)[..k + 1] == name[..k + 1];
      assert name[..|name|] == name;
      k
  }

  lemma ExtensionAloneFits(ext: string)
    requires Utf8.Len(ext) <= MaxExtensionBytes
    ensures Fits("", ext)
  {
    Utf8.LenConcat(".", ext);
    assert "" + "." + ext == "." + ext;
  }

  /** `k` is the largest prefix length of `name` that fits in front of the
      extension. */
  predicate LongestFit(name: string, ext: string, k: nat) {
    && k <= |name|
    && Fits(name[..k], ext)
    && forall k' | k < k' <= |name| :: !Fits(name[..k'], ext)
  }

  /** `make_filename_valid_for_epub3`. */
  function Sanitize(s: string): (r: Result<string, SanitizeError>)
    ensures r.Success? ==> ValidName(r.value)
    ensures r == Failure(NothingLeft) <==> StripPeriods(Filter(s)) == []
    ensures r == Failure(ExtensionTooLong) <==>
      var f := StripPeriods(Filter(s));
      f != [] && Utf8.Len(f) > MaxNameBytes && Utf8.Len(Extension(f)) > MaxExtensionBytes
    ensures StripPeriods(Filter(s)) != [] && Utf8.Len(StripPeriods(Filter(s))) <= MaxNameBytes ==>
      r == Success(StripPeriods(Filter(s)))
    ensures r.Success? && Utf8.Len(StripPeriods(Filter(s))) > MaxNameBytes ==>
      var f := StripPeriods(Filter(s));
      exists k: nat | LongestFit(Stem(f), Extension(f), k) :: r.value == Stem(f)[..k] + "." + Extension(f)
  {
    var f := StripPeriods(Filter(s));
    if f == [] then Failure(NothingLeft)
    else if Utf8.Len(f) <= MaxNameBytes then Success(f)
    else Shorten(f)
  }

  /** The branch for a filtered name over 255 bytes: keep the extension and
      as much of the text before the last '.' as fits. */
  function Shorten(f: string): (r: Result<string, SanitizeError>)
    requires f != [] && NoneBanned(f) && !EndsWithPeriod(f)
    requires Utf8.Len(f) > MaxNameBytes
    ensures r.Failure? <==> Utf8.Len(Extension(f)) > MaxExtensionBytes
    ensures r.Failure? ==> r.error == ExtensionTooLong
    ensures r.Success? ==> ValidName(r.value)
    ensures r.Success? ==>
      exists k: nat | LongestFit(Stem(f), Extension(f), k) :: r.value == Stem(f)[..k] + "." + Extension(f)
  {
    var name := Stem(f);
    var ext := Extension(f);
    if Utf8.Len(ext) > MaxExtensionBytes then Failure(ExtensionTooLong)
    else
      var k := KeptLength(DropLast(name), ext);
      TruncationIsLongest(f, name, ext, k);
      TruncatedIsValid(f, name, ext, k);
      Success(name[..k] + "." + ext)
  }

  /** The text before the last '.'. */
  function Stem(f: string): string {
    SplitExtension(f).0
  }

  /** The text after the last '.'; the whole name if it has none. */
  function Extension(f: string): string {
    SplitExtension(f).1
  }

  /** Starting the loop from `name[:-1]` loses nothing: the whole `name`
      never fits, so the longest fitting prefix of `name[:-1]` is the
      longest fitting prefix of `name`. */
  lemma TruncationIsLongest(f: string, name: string, ext: string, k: nat)
    requires (name, ext) == SplitExtension(f) && Utf8.Len(f) > MaxNameBytes
    requires Utf8.Len(ext) <= MaxExtensionBytes
    requires k == KeptLength(DropLast(name), ext)
    ensures LongestFit(name, ext, k)
  {
    SplitJoins(f, name, ext);
    assert DropLast(name)[..k] == name[..k];
    forall k' | k < k' <= |name| ensures !Fits(name[..k'], ext) {
      BeyondKeptFails(name, ext, k, k');
    }
  }

  /** Every prefix longer than the kept one overflows: a prefix of
      `name[:-1]` by the loop's own guard, and `name` itself by assumption. */
  lemma BeyondKeptFails(name: string, ext: string, k: nat, k': nat)
    requires Utf8.Len(ext) <= MaxExtensionBytes && !Fits(name, ext)
    requires k == KeptLength(DropLast(name), ext)
    requires k < k' <= |name|
    ensures !Fits(name[..k'], ext)
  {
    if k' < |name| {
      assert DropLast(name)[..k + 1] == name[..k + 1];
      LongerPrefixLonger(name, ext, k + 1, k');
    } else {
      assert name[..k'] == name;
    }
  }

  /** A name too long to keep whole has a '.', since its extension fits. */
  lemma SplitJoins(f: string, name: string, ext: string)
    requires (name, ext) == SplitExtension(f)
    requires Utf8.Len(ext) < Utf8.Len(f)
    ensures f == name + "." + ext
  {
  }

  /** Fitting is downward closed in the prefix length. */
  lemma LongerPrefixLonger(name: string, ext: string, k: nat, k': nat)
    requires k <= k' <= |name|
    ensures Utf8.Len(name[..k] + "." + ext) <= Utf8.Len(name[..k'] + "." + ext)
  {
    Utf8.LenConcat(name[..k], "." + ext);
    Utf8.LenConcat(name[..k'], "." + ext);
    Utf8.LenPrefixMonotone(name, k, k');
    assert name[..k] + "." + ext == name[..k] + ("." + ext);
    assert name[..k'] + "." + ext == name[..k'] + ("." + ext);
  }

  lemma TruncatedIsValid(f: string, name: string, ext: string, k: nat)
    requires NoneBanned(f) && !EndsWithPeriod(f) && f != []
    requires (name, ext) == SplitExtension(f)
    requires k <= |name| && Fits(name[..k], ext)
    requires Utf8.Len(ext) <= MaxExtensionBytes && Utf8.Len(f) > MaxNameBytes
    ensures ValidName(name[..k] + "." + ext)
  {
    SplitJoins(f, name, ext);
    assert ext != [] by {
      assert f[|f| - 1] != '.';
    }
    var out := name[..k] + "." + ext;
    assert out[|out| - 1] == ext[|ext| - 1] == f[|f| - 1];
    forall i | 0 <= i < |out| ensures !Banned(out[i]) {
      if i < k {
        assert out[i] == f[i];
      } else if i > k {
        assert out[i] == f[|name| + 1 + (i - k - 1)];
      } else {
        assert out[i] == '.';
        assert !InRanges('.' as int, BannedRanges);
      }
    }
  }

  /** Filtering works character by character: it distributes over
      concatenation, so with its one-character case (keep `c` exactly when
      it is not banned) it is determined completely. */
  lemma {:induction false} FilterConcat(a: string, b: string)
    ensures Filter(a + b) == Filter(a) + Filter(b)
    decreases |a|
  {
    if a != [] {
      var h := if Banned(a[0]) then [] else [a[0]];
      assert (a + b)[0] == a[0] && (a + b)[1..] == a[1..] + b;
      assert Filter(a + b) == h + Filter(a[1..] + b);
      FilterConcat(a[1..], b);
      assert Filter(a) == h + Filter(a[1..]);
    } else {
      assert a + b == b;
    }
  }

  /** A name comes back unchanged exactly when it is already valid. */
  lemma ValidNamesPassUnchanged(s: string)
    ensures Sanitize(s) == Success(s) <==> ValidName(s)
  {
    if ValidName(s) {
      assert Filter(s) == s;
      assert StripPeriods(s) == s;
    }
  }

  /** Sanitizing a sanitized name changes nothing. */
  lemma Idempotent(s: string)
    requires Sanitize(s).Success?
    ensures Sanitize(Sanitize(s).value) == Sanitize(s)
  {
    ValidNamesPassUnchanged(Sanitize(s).value);
  }

  /** The extension is whatever follows the last '.'. */
  lemma {:induction false} ExtensionAfterLastPeriod(x: string, e: string)
    requires '.' !in e
    ensures Extension(x + "." + e) == e
    decreases |e|
  {
    var s := x + "." + e;
    if e != [] {
      var init := e[..|e| - 1];
      ExtensionAfterLastPeriod(x, init);
      assert s[..|s| - 1] == x + "." + init;
      assert e == init + [e[|e| - 1]];
    }
  }

  /** Sanitizing brings in no character but '.': every other character of
      the result comes from the input. */
  lemma SanitizeAddsNothing(s: string, c: char)
    requires Sanitize(s).Success? && c != '.' && c !in s
    ensures c !in Sanitize(s).value
  {
    var f := StripPeriods(Filter(s));
    assert c !in Filter(s);
    PrefixLacks(f, Filter(s), c);
    if Utf8.Len(f) > MaxNameBytes {
      TruncatedLacks(f, Sanitize(s).value, c);
    }
  }

  lemma PrefixLacks(a: string, b: string, c: char)
    requires a <= b && c !in b
    ensures c !in a
  {
  }

  lemma TruncatedLacks(f: string, r: string, c: char)
    requires c != '.' && c !in f
    requires exists k: nat | LongestFit(Stem(f), Extension(f), k) :: r == Stem(f)[..k] + "." + Extension(f)
    ensures c !in r
  {
    var name, ext := Stem(f), Extension(f);
    if '.' in f {
      assert f == name + "." + ext;
    }
    var k: nat :| LongestFit(name, ext, k) && r == name[..k] + "." + ext;
    PrefixLacks(name[..k], name, c);
  }
}

=== FILE: sanitizer_tests.dfy ===
/** The unit tests of test/unit_test.py, stated as lemmas about the model. */
module SanitizerExamples {
  import opened Wrappers
  import opened Sanitizer
  import Utf8

  lemma ChapterNameUnchanged()
    ensures Sanitize("chapter_01.xhtml") == Success("chapter_01.xhtml")
  {
    assert ValidName("chapter_01.xhtml");
    ValidNamesPassUnchanged("chapter_01.xhtml");
  }

  lemma ChineseNameUnchanged()
    ensures Sanitize("1-0 (星期日没有日).xhtml") == Success("1-0 (星期日没有日).xhtml")
  {
    assert ValidName("1-0 (星期日没有日).xhtml");
    ValidNamesPassUnchanged("1-0 (星期日没有日).xhtml");
  }

  lemma KyubeyNameUnchanged()
    ensures Sanitize("／人◕ ‿‿ ◕人＼.css") == Success("／人◕ ‿‿ ◕人＼.css")
  {
    assert ValidName("／人◕ ‿‿ ◕人＼.css");
    ValidNamesPassUnchanged("／人◕ ‿‿ ◕人＼.css");
  }

  lemma StripsTrailingPeriod(s: string)
    requires s == "don't name your file like this.png."
    ensures Sanitize(s) == Success("don't name your file like this.png")
  {
    var t := "don't name your file like this.png";
    TrailingPeriodSteps(s, t);
    CleanedNameKept(s, t);
  }

  lemma TrailingPeriodSteps(s: string, t: string)
    requires s == "don't name your file like this.png." && t == "don't name your file like this.png"
    ensures StripPeriods(Filter(s)) == t && ValidName(t)
  {
    FilterKeepsClean(s);
    OnePeriodStripped(s, t);
    ValidShortName(t);
  }

  lemma OnePeriodStripped(s: string, t: string)
    requires s == "don't name your file like this.png." && t == "don't name your file like this.png"
    ensures StripPeriods(s) == t
  {
    assert s == t + ".";
    assert StripPeriods(t) == t;
  }

  lemma FilterKeepsClean(s: string)
    requires s == "don't name your file like this.png."
    ensures Filter(s) == s
  {
    assert NoneBanned(s);
  }

  lemma ValidShortName(t: string)
    requires t == "don't name your file like this.png"
    ensures ValidName(t)
  {
    assert Utf8.Len(t) <= 4 * |t|;
  }

  lemma CleanedNameKept(s: string, f: string)
    requires StripPeriods(Filter(s)) == f && ValidName(f)
    ensures Sanitize(s) == Success(f)
  {
  }

  lemma OnlyPeriodsFails()
    ensures Sanitize("...") == Failure(NothingLeft)
  {
    assert Filter("...") == "..." by { assert NoneBanned("..."); }
  }

  function Repeat(c: char, n: nat): (s: string)
    ensures |s| == n && forall i | 0 <= i < n :: s[i] == c
  {
    seq(n, _ => c)
  }

  /** 300 letters and an extension lose exactly the 51 letters that do not
      fit in 255 bytes. */
  lemma LongNameTruncated(s: string)
    requires s == Repeat('A', 300) + ".xhtml"
    ensures Sanitize(s) == Success(Repeat('A', 249) + ".xhtml")
  {
    LettersAreClean(s);
    LettersSplit(s);
    ExtensionFits();
    TruncatedResult(s, Repeat('A', 300), "xhtml");
    var k: nat :| LongestFit(Repeat('A', 300), "xhtml", k)
      && Sanitize(s) == Success(Repeat('A', 300)[..k] + "." + "xhtml");
    LongestLetterFit(k);
  }

  lemma ExtensionFits()
    ensures Utf8.Len("xhtml") <= 254
  {
    assert Utf8.Len("xhtml") <= 4 * 5;
  }

  lemma TruncatedResult(s: string, name: string, ext: string)
    requires Utf8.Len(StripPeriods(Filter(s))) > 255
    requires Stem(StripPeriods(Filter(s))) == name && Extension(StripPeriods(Filter(s))) == ext
    requires Utf8.Len(ext) <= 254
    ensures exists k: nat | LongestFit(name, ext, k) :: Sanitize(s) == Success(name[..k] + "." + ext)
  {
    var f := StripPeriods(Filter(s));
    var r := Sanitize(s);
    assert f != [];
    assert r != Failure(NothingLeft);
    assert r != Failure(ExtensionTooLong);
    assert r.Success?;
  }

  lemma LettersAreClean(s: string)
    requires s == Repeat('A', 300) + ".xhtml"
    ensures StripPeriods(Filter(s)) == s && Utf8.Len(s) == 306
  {
    assert NoneBanned(s);
    assert StripPeriods(s) == s;
    Utf8.AsciiLen(s);
  }

  lemma LettersSplit(s: string)
    requires s == Repeat('A', 300) + ".xhtml"
    ensures Stem(s) == Repeat('A', 300) && Extension(s) == "xhtml"
  {
    var name := Stem(s);
    assert s == name + "." + Extension(s);
    assert s[|name|] == '.';
    assert forall i | 0 <= i < |s| && i != 300 :: s[i] != '.';
    assert |name| == 300;
    assert name == s[..300] == Repeat('A', 300);
    assert Extension(s) == s[301..] == "xhtml";
  }

  lemma LongestLetterFit(k: nat)
    requires LongestFit(Repeat('A', 300), "xhtml", k)
    ensures k == 249 && Repeat('A', 300)[..k] + "." + "xhtml" == Repeat('A', 249) + ".xhtml"
  {
    var name := Repeat('A', 300);
    assert name[..k] == Repeat('A', k);
    FitsLetters(k, "xhtml");
    if k < 249 {
      assert name[..249] == Repeat('A', 249);
      FitsLetters(249, "xhtml");
      assert false;
    }
    assert name[..249] == Repeat('A', 249);
  }

  lemma FitsLetters(k: nat, ext: string)
    requires k <= 300 && ext == "xhtml"
    ensures Fits(Repeat('A', k), ext) <==> k <= 249
  {
    Utf8.AsciiLen(Repeat('A', k) + "." + ext);
  }

  /** An extension longer than 254 bytes cannot be kept, so nothing is
      returned. */
  lemma LongExtensionFails(s: string)
    requires s == "chapter_03." + Repeat('B', 300)
    ensures Sanitize(s) == Failure(ExtensionTooLong)
  {
    LongExtensionIsClean(s);
    LongExtensionSplit(s);
  }

  lemma LongExtensionIsClean(s: string)
    requires s == "chapter_03." + Repeat('B', 300)
    ensures StripPeriods(Filter(s)) == s && Utf8.Len(s) > 255
  {
    assert NoneBanned(s);
    assert StripPeriods(s) == s;
  }

  lemma LongExtensionSplit(s: string)
    requires s == "chapter_03." + Repeat('B', 300)
    ensures Utf8.Len(Extension(s)) > 254
  {
    var name := Stem(s);
    assert s == name + "." + Extension(s);
    assert s[|name|] == '.';
    assert forall i | 11 <= i < |s| :: s[i] == 'B';
  }

  /** A name stacked with combining marks is already valid and passes
      unchanged; the literal is written in five pieces. */
  lemma ZalgoNameUnchanged(s: string)
    requires s == "t̴h̵i̴s̸_̵i̴" + "s̸_̷t̴e̵c̶h̵" + "n̵i̸c̶a̵l̴l̵" + "y̸_̶a̷l̸l̴o̷" + "w̸e̸d̷.ncx"
    ensures Sanitize(s) == Success(s)
  {
    ZalgoClean(s);
    ZalgoShort(s);
    assert ValidName(s);
    ValidNamesPassUnchanged(s);
  }

  lemma ZalgoShort(s: string)
    requires s == "t̴h̵i̴s̸_̵i̴" + "s̸_̷t̴e̵c̶h̵" + "n̵i̸c̶a̵l̴l̵" + "y̸_̶a̷l̸l̴o̷" + "w̸e̸d̷.ncx"
    ensures Utf8.Len(s) <= MaxNameBytes && s != [] && !EndsWithPeriod(s)
  {
    assert |s| == 58;
    assert Utf8.Len(s) <= 4 * |s|;
    assert s[57] == 'x';
  }

  lemma ZalgoClean(s: string)
    requires s == "t̴h̵i̴s̸_̵i̴" + "s̸_̷t̴e̵c̶h̵" + "n̵i̸c̶a̵l̴l̵" + "y̸_̶a̷l̸l̴o̷" + "w̸e̸d̷.ncx"
    ensures NoneBanned(s)
  {
    var a := "t̴h̵i̴s̸_̵i̴";
    var b := "s̸_̷t̴e̵c̶h̵";
    var c := "n̵i̸c̶a̵l̴l̵";
    var d := "y̸_̶a̷l̸l̴o̷";
    var e := "w̸e̸d̷.ncx";
    ZalgoChunk(a);
    ZalgoChunk(b);
    ZalgoChunk(c);
    ZalgoChunk(d);
    ZalgoChunk(e);
    NoneBannedConcat(a, b);
    NoneBannedConcat(a + b, c);
    NoneBannedConcat(a + b + c, d);
    NoneBannedConcat(a + b + c + d, e);
  }

  lemma NoneBannedConcat(x: string, y: string)
    requires NoneBanned(x) && NoneBanned(y)
    ensures NoneBanned(x + y)
  {
    forall i | 0 <= i < |x + y| ensures !Banned((x + y)[i]) {
      if i >= |x| {
        assert (x + y)[i] == y[i - |x|];
      }
    }
  }

  /** A piece of the zalgo name: letters, '_', '.' and combining marks. */
  lemma ZalgoChunk(s: string)
    requires forall i | 0 <= i < |s| :: 'a' <= s[i] <= 'z' || s[i] == '_' || s[i] == '.' || '\U{300}' <= s[i] <= '\U{36F}'
    ensures NoneBanned(s)
  {
    forall i | 0 <= i < |s| ensures !Banned(s[i]) {
      assert s[i] !in BannedChars;
    }
  }

  /** Kept characters, each followed by one banned character. */
  function Interleave(kept: string, banned: string): string
    requires |kept| == |banned|
  {
    if kept == [] then [] else [kept[0], banned[0]] + Interleave(kept[1..], banned[1..])
  }

  lemma {:induction false} FilterInterleave(kept: string, banned: string)
    requires |kept| == |banned| && NoneBanned(kept) && forall i | 0 <= i < |banned| :: Banned(banned[i])
    ensures Filter(Interleave(kept, banned)) == kept
    decreases |kept|
  {
    if kept != [] {
      FilterInterleave(kept[1..], banned[1..]);
      var s := Interleave(kept, banned);
      assert s[1..][1..] == Interleave(kept[1..], banned[1..]);
    }
  }

  lemma {:induction false} InterleaveByIndex(s: string, kept: string, banned: string)
    requires |kept| == |banned| && |s| == 2 * |kept|
    requires forall i | 0 <= i < |kept| :: s[2 * i] == kept[i] && s[2 * i + 1] == banned[i]
    ensures s == Interleave(kept, banned)
    decreases |kept|
  {
    if kept != [] {
      var t := s[2..];
      forall i | 0 <= i < |kept| - 1 ensures t[2 * i] == kept[1..][i] && t[2 * i + 1] == banned[1..][i] {
        assert s[2 * (i + 1)] == kept[i + 1];
        assert s[2 * (i + 1) + 1] == banned[i + 1];
      }
      InterleaveByIndex(t, kept[1..], banned[1..]);
      assert s == [s[0], s[1]] + t;
    }
  }

  lemma InRange(c: char, i: nat)
    requires i < |BannedRanges| && BannedRanges[i].0 <= c as int <= BannedRanges[i].1
    ensures Banned(c)
  {
  }

  lemma BannedOnes(b: string)
    requires b == "/\\\"*:<\U{7f}\U{12}\U{80}\U{e001}\U{fdef}\U{fff8}\U{e0ffe}\U{f8fff}\U{100000}"
    ensures forall i | 0 <= i < |b| :: Banned(b[i])
  {
    assert b[..7] == BannedChars[..6] + [BannedChars[9]];
    InRange(b[7], 0);
    InRange(b[8], 1);
    InRange(b[9], 2);
    InRange(b[10], 3);
    InRange(b[11], 4);
    InRange(b[12], 5);
    InRange(b[13], 6);
    InRange(b[14], 7);
    forall i | 0 <= i < 7 ensures Banned(b[i]) {
      assert b[i] in BannedChars;
    }
  }

  lemma Positions(s: string, k: string, b: string)
    requires s == "c/h\\a\"p*t:e<r\U{7f}_\U{12}0\U{80}2\U{e001}.\U{fdef}x\U{fff8}h\U{e0ffe}t\U{f8fff}m\U{100000}l"
    requires k == "chapter_02.xhtm"
    requires b == "/\\\"*:<\U{7f}\U{12}\U{80}\U{e001}\U{fdef}\U{fff8}\U{e0ffe}\U{f8fff}\U{100000}"
    ensures s == Interleave(k, b) + "l"
  {
    InterleaveByIndex(s[..30], k, b);
    assert s == s[..30] + "l";
  }

  lemma CharacterFiltration(s: string)
    requires s == "c/h\\a\"p*t:e<r\U{7f}_\U{12}0\U{80}2\U{e001}.\U{fdef}x\U{fff8}h\U{e0ffe}t\U{f8fff}m\U{100000}l"
    ensures Sanitize(s) == Success("chapter_02.xhtml")
  {
    var k := "chapter_02.xhtm";
    var b := "/\\\"*:<\U{7f}\U{12}\U{80}\U{e001}\U{fdef}\U{fff8}\U{e0ffe}\U{f8fff}\U{100000}";
    Positions(s, k, b);
    BannedOnes(b);
    var t := KeptName(k);
    FilterDropsBanned(s, k, b, "l");
    CleanedNameKept(s, t);
  }

  lemma KeptName(k: string) returns (t: string)
    requires k == "chapter_02.xhtm"
    ensures t == k + "l" && t == "chapter_02.xhtml"
    ensures NoneBanned(k) && !Banned('l') && ValidName(t)
  {
    t := k + "l";
    assert !EndsWithPeriod(t);
    assert Utf8.Len(t) <= 4 * |t|;
  }

  lemma FilterDropsBanned(s: string, k: string, b: string, last: string)
    requires |k| == |b| && s == Interleave(k, b) + last
    requires NoneBanned(k) && NoneBanned(last) && forall i | 0 <= i < |b| :: Banned(b[i])
    ensures Filter(s) == k + last
  {
    FilterInterleave(k, b);
    FilterConcat(Interleave(k, b), last);
  }
}

=== FILE: seqs.dfy ===
/** Sequence helpers shared by the registry, the splitter and the author
    list: the key order of an insertion-ordered dictionary, concatenation
    of groups, and sums of sizes. */
module Seqs {
  import opened Wrappers

  predicate Distinct<T(==)>(xs: seq<T>) {
    forall i, j | 0 <= i < j < |xs| :: xs[i] != xs[j]
  }

  /** Setting `d[x] = True` on an insertion-ordered dictionary whose keys,
      in order, are `seen`. */
  function Remember<T(==,!new)>(seen: seq<T>, x: T): (r: seq<T>)
    ensures forall y :: y in r <==> y in seen || y == x
    ensures seen <= r
    ensures Distinct(seen) ==> Distinct(r)
  {
    if x in seen then seen else seen + [x]
  }

  /** The keys after remembering every element of `xs` in order. */
  function Recorded<T(==,!new)>(seen: seq<T>, xs: seq<T>): (r: seq<T>)
    ensures forall y :: y in r <==> y in seen || y in xs
    ensures seen <= r
    ensures Distinct(seen) ==> Distinct(r)
  {
    if xs == [] then seen
    else
      var r := Remember(Recorded(seen, xs[..|xs| - 1]), xs[|xs| - 1]);
      assert forall y :: y in xs <==> y in xs[..|xs| - 1] || y == xs[|xs| - 1];
      r
  }

  /** The distinct elements of `xs`, in order of first occurrence. */
  function FirstSightings<T(==,!new)>(xs: seq<T>): (d: seq<T>)
    ensures forall x :: x in d <==> x in xs
    ensures Distinct(d)
  {
    Recorded([], xs)
  }

  /** Feeding a dictionary two batches one after the other is feeding it
      their concatenation. */
  lemma {:induction false} RecordedConcat<T(!new)>(seen: seq<T>, a: seq<T>, b: seq<T>)
    ensures Recorded(Recorded(seen, a), b) == Recorded(seen, a + b)
    decreases |b|
  {
    if b == [] {
      assert a + b == a;
    } else {
      RecordedConcat(seen, a, b[..|b| - 1]);
      assert (a + b)[..|a + b| - 1] == a + b[..|b| - 1];
    }
  }

  /** An element's position among the first sightings: everything before
      it was seen before its first occurrence. */
  lemma {:induction false} FirstSightingsOrder<T(!new)>(xs: seq<T>, i: nat, j: nat)
    requires i < j < |FirstSightings(xs)|
    ensures exists p, q | 0 <= p < q < |xs| ::
      xs[p] == FirstSightings(xs)[i] && xs[q] == FirstSightings(xs)[j] && FirstSightings(xs)[j] !in xs[..q]
    decreases |xs|
  {
    var init := xs[..|xs| - 1];
    var last := xs[|xs| - 1];
    assert FirstSightings(xs) == Remember(FirstSightings(init), last);
    if j < |FirstSightings(init)| {
      FirstSightingsOrder(init, i, j);
      var p, q :| 0 <= p < q < |init| && init[p] == FirstSightings(init)[i] && init[q] == FirstSightings(init)[j]
        && FirstSightings(init)[j] !in init[..q];
      assert init[..q] == xs[..q];
    } else {
      assert FirstSightings(xs)[j] == last && last !in FirstSightings(init);
      var x := FirstSightings(init)[i];
      assert x in init;
      var p :| 0 <= p < |init| && init[p] == x;
      assert xs[..|xs| - 1] == init;
    }
  }

  function Flatten<T>(xss: seq<seq<T>>): seq<T> {
    if xss == [] then [] else Flatten(xss[..|xss| - 1]) + xss[|xss| - 1]
  }

  function Sum<T>(xs: seq<T>, size: T -> nat): nat {
    if xs == [] then 0 else Sum(xs[..|xs| - 1], size) + size(xs[|xs| - 1])
  }

  lemma {:induction false} SumConcat<T>(a: seq<T>, b: seq<T>, size: T -> nat)
    ensures Sum(a + b, size) == Sum(a, size) + Sum(b, size)
    decreases |b|
  {
    if b == [] {
      assert a + b == a;
    } else {
      SumConcat(a, b[..|b| - 1], size);
      assert (a + b)[..|a + b| - 1] == a + b[..|b| - 1];
    }
  }

  /** Applying a fallible step to each element in order, stopping at the
      first failure, as a loop that raises does. */
  function MapAll<T, U, E>(xs: seq<T>, f: T -> Result<U, E>): (r: Result<seq<U>, E>)
    ensures r.Success? <==> forall k | 0 <= k < |xs| :: f(xs[k]).Success?
    ensures r.Success? ==> |r.value| == |xs| && forall k | 0 <= k < |xs| :: r.value[k] == f(xs[k]).value
    ensures r.Failure? ==> exists k | 0 <= k < |xs| ::
      && f(xs[k]).Failure? && f(xs[k]).error == r.error
      && forall k' | 0 <= k' < k :: f(xs[k']).Success?
  {
    if xs == [] then Success([])
    else
      var head := f(xs[0]);
      if head.Failure? then Failure(head.error)
      else
        var rest := MapAll(xs[1..], f);
        assert forall k | 1 <= k < |xs| :: xs[k] == xs[1..][k - 1];
        if rest.Failure? then Failure(rest.error)
        else Success([head.value] + rest.value)
  }
}

=== FILE: simple_images.dfy ===
/** The single-map image registry of the earlier scripts (`ImageMap.insert`
    in glowfic-dl.py, epub.py, main.py and streamlit_app.py): each new URL
    is named `img<n>.<ext>`, with `n` counting the URLs seen so far. */
module SimpleImages {
  import opened Urls
  import Decimal
  import Sanitizer
  import opened Seqs

  datatype Registry = Registry(names: map<Url, string>, next: nat)

  const Empty := Registry(map[], 0)

  /** `"img%i.%s" % (n, ext)`. */
  function Name(n: nat, ext: string): string {
    "img" + Decimal.Show(n) + "." + ext
  }

  /** The number and the extension can be read back from a name: the digit
      run ends at the first '.'. */
  lemma NameInjective(a: nat, ea: string, b: nat, eb: string)
    requires Name(a, ea) == Name(b, eb)
    ensures a == b && ea == eb
  {
    var sa, sb := Decimal.Show(a), Decimal.Show(b);
    var na, nb := Name(a, ea), Name(b, eb);
    if |sa| != |sb| {
      NameShape(a, ea);
      NameShape(b, eb);
      assert false;
    }
    assert sa == na[3..3 + |sa|] == nb[3..3 + |sb|] == sb;
    Decimal.ShowInjective(a, b);
    assert ea == na[4 + |sa|..] == nb[4 + |sb|..] == eb;
  }

  /** The digits of the number are followed by the first '.' of a name. */
  lemma NameShape(n: nat, ext: string)
    ensures Name(n, ext)[3 + |Decimal.Show(n)|] == '.'
    ensures forall i | 3 <= i < 3 + |Decimal.Show(n)| :: Decimal.IsDigit(Name(n, ext)[i])
  {
  }

  /** Reachable registries: every name is `img<n>.<ext of its URL>` for a
      number already handed out, and no two URLs share a name. */
  predicate Valid(r: Registry) {
    && (forall u | u in r.names :: exists n: nat | n < r.next :: r.names[u] == Name(n, Ext(u)))
    && (forall u, v | u in r.names && v in r.names && u != v :: r.names[u] != r.names[v])
  }

  /** `ImageMap.insert`: the registry after the call, and the name returned. */
  function Insert(r: Registry, url: Url): (res: (Registry, string))
    ensures url in res.0.names && res.0.names[url] == res.1
    ensures url in r.names ==> res == (r, r.names[url])
    ensures url !in r.names ==>
      && res.1 == Name(r.next, Ext(url))
      && res.0.next == r.next + 1
      && res.0.names.Keys == r.names.Keys + {url}
      && forall u | u in r.names :: res.0.names[u] == r.names[u]
    ensures Valid(r) ==> Valid(res.0)
  {
    if url in r.names then (r, r.names[url])
    else
      var name := Name(r.next, Ext(url));
      var r' := Registry(r.names[url := name], r.next + 1);
      InsertKeepsValid(r, url, r');
      (r', name)
  }

  lemma InsertKeepsValid(r: Registry, url: Url, r': Registry)
    requires url !in r.names
    requires r' == Registry(r.names[url := Name(r.next, Ext(url))], r.next + 1)
    ensures Valid(r) ==> Valid(r')
  {
    if Valid(r) {
      forall u | u in r.names ensures r'.names[u] != r'.names[url] {
        var n: nat :| n < r.next && r.names[u] == Name(n, Ext(u));
        if r.names[u] == Name(r.next, Ext(url)) {
          NameInjective(n, Ext(u), r.next, Ext(url));
        }
      }
    }
  }

  /** Inserting a list of URLs in order, keeping the last registry. */
  function InsertAll(r: Registry, urls: seq<Url>): Registry {
    if urls == [] then r else Insert(InsertAll(r, urls[..|urls| - 1]), urls[|urls| - 1]).0
  }

  /** The k-th URL of `order` is named `img<k>`. */
  predicate NamedInOrder(r: Registry, order: seq<Url>) {
    forall k | 0 <= k < |order| :: order[k] in r.names && r.names[order[k]] == Name(k, Ext(order[k]))
  }

  lemma ExtendOrder(r: Registry, order: seq<Url>, url: Url)
    requires NamedInOrder(r, order) && r.next == |order| && url !in r.names
    ensures NamedInOrder(Insert(r, url).0, order + [url])
  {
    var r2 := Insert(r, url).0;
    forall k | 0 <= k < |order| + 1
      ensures (order + [url])[k] in r2.names && r2.names[(order + [url])[k]] == Name(k, Ext((order + [url])[k]))
    {
      if k < |order| {
        assert (order + [url])[k] == order[k];
      }
    }
  }

  /** From an empty registry, the k-th distinct URL is named `img<k>`, and
      only the URLs seen are named. */
  lemma {:induction false} NamesInFirstSightingOrder(urls: seq<Url>)
    ensures InsertAll(Empty, urls).next == |FirstSightings(urls)|
    ensures forall u :: u in InsertAll(Empty, urls).names <==> u in urls
    ensures NamedInOrder(InsertAll(Empty, urls), FirstSightings(urls))
    decreases |urls|
  {
    if urls != [] {
      var init := urls[..|urls| - 1];
      var last := urls[|urls| - 1];
      NamesInFirstSightingOrder(init);
      assert FirstSightings(urls) == Remember(FirstSightings(init), last);
      assert forall u :: u in urls <==> u in init || u == last;
      if last !in FirstSightings(init) {
        ExtendOrder(InsertAll(Empty, init), FirstSightings(init), last);
      }
    }
  }

  /** Distinct URLs registered in a reachable registry never share a name. */
  lemma {:induction false} InsertAllValid(urls: seq<Url>)
    ensures Valid(InsertAll(Empty, urls))
    decreases |urls|
  {
    if urls != [] {
      InsertAllValid(urls[..|urls| - 1]);
    }
  }
}

=== FILE: splitting.dfy ===
/** The greedy section splitter of `render_posts` (src/render.py,
    glowfic-dl.py, epub.py, streamlit_app.py): posts are appended to the
    open section in order, and a new section is opened first whenever the
    open one has a positive size and the post would push it past the
    limit. Generic in the item type and its size. */
module Splitting {
  import opened Seqs

  /** `SECTION_SIZE_LIMIT`, in bytes. */
  const SectionSizeLimit: nat := 200000

  /** The loop state: the sections already yielded, the open one, and the
      open one's size counter. */
  datatype State<T> = State(closed: seq<seq<T>>, current: seq<T>, currentSize: nat)

  function Groups<T>(s: State<T>): seq<seq<T>> {
    s.closed + [s.current]
  }

  /** One iteration of the loop. */
  function Step<T>(s: State<T>, item: T, size: T -> nat): State<T> {
    if s.currentSize + size(item) > SectionSizeLimit && s.currentSize > 0 then
      State(s.closed + [s.current], [item], size(item))
    else
      State(s.closed, s.current + [item], s.currentSize + size(item))
  }

  /** Every group but the last was closed for a reason: it has a positive
      size, and the first item of the following group would have pushed it
      past the limit. */
  predicate ClosedForCause<T>(groups: seq<seq<T>>, size: T -> nat) {
    forall i | 0 <= i < |groups| - 1 :: Overflows(groups, i, size)
  }

  predicate Overflows<T>(groups: seq<seq<T>>, i: nat, size: T -> nat)
    requires i < |groups| - 1
  {
    groups[i] != [] && groups[i + 1] != [] && Sum(groups[i], size) > 0
    && Sum(groups[i], size) + size(groups[i + 1][0]) > SectionSizeLimit
  }

  /** A group is over the limit only when everything before its last item
      has size zero: the guard lets an item in whenever the counter is 0. */
  predicate WithinBudget<T>(g: seq<T>, size: T -> nat) {
    g != [] ==> Sum(g, size) <= SectionSizeLimit || Sum(g[..|g| - 1], size) == 0
  }

  /** What the loop keeps true of its state after consuming `items`. */
  ghost predicate Shaped<T>(s: State<T>, items: seq<T>, size: T -> nat) {
    && Flatten(Groups(s)) == items
    && s.currentSize == Sum(s.current, size)
    && (items != [] ==> s.current != [])
    && (items == [] ==> s.closed == [])
    && ClosedForCause(Groups(s), size)
    && forall i | 0 <= i < |Groups(s)| :: WithinBudget(Groups(s)[i], size)
  }

  /** The state after the loop has consumed `items`. */
  function Run<T>(items: seq<T>, size: T -> nat): (s: State<T>)
    ensures Shaped(s, items, size)
  {
    if items == [] then State([], [], 0)
    else
      var prev := Run(items[..|items| - 1], size);
      StepKeepsShape(prev, items[|items| - 1], size, items);
      Step(prev, items[|items| - 1], size)
  }

  lemma StepKeepsShape<T>(prev: State<T>, item: T, size: T -> nat, items: seq<T>)
    requires items != [] && item == items[|items| - 1]
    requires Shaped(prev, items[..|items| - 1], size)
    ensures Shaped(Step(prev, item, size), items, size)
  {
    assert items == items[..|items| - 1] + [item];
    if prev.currentSize + size(item) > SectionSizeLimit && prev.currentSize > 0 {
      CloseKeepsShape(prev, item, size);
    } else {
      AppendKeepsShape(prev, item, size);
    }
  }

  lemma SumSingle<T>(item: T, size: T -> nat)
    ensures Sum([item], size) == size(item)
  {
    assert [item][..0] == [];
  }

  lemma CloseKeepsShape<T>(prev: State<T>, item: T, size: T -> nat)
    requires prev.currentSize == Sum(prev.current, size)
    requires prev.currentSize + size(item) > SectionSizeLimit && prev.currentSize > 0
    requires ClosedForCause(Groups(prev), size)
    requires forall i | 0 <= i < |Groups(prev)| :: WithinBudget(Groups(prev)[i], size)
    ensures var s := Step(prev, item, size);
      && Flatten(Groups(s)) == Flatten(Groups(prev)) + [item]
      && s.currentSize == Sum(s.current, size)
      && ClosedForCause(Groups(s), size)
      && forall i | 0 <= i < |Groups(s)| :: WithinBudget(Groups(s)[i], size)
  {
    var s := Step(prev, item, size);
    var gs := Groups(s);
    SumSingle(item, size);
    assert gs == Groups(prev) + [[item]];
    assert gs[..|gs| - 1] == Groups(prev);
    assert prev.current != [];
    assert WithinBudget([item], size) by {
      assert [item][..0] == [];
    }
    forall i | 0 <= i < |gs| - 1 ensures Overflows(gs, i, size) {
      if i + 1 < |gs| - 1 {
        assert Overflows(Groups(prev), i, size);
        assert gs[i] == Groups(prev)[i] && gs[i + 1] == Groups(prev)[i + 1];
      }
    }
  }

  lemma AppendKeepsShape<T>(prev: State<T>, item: T, size: T -> nat)
    requires prev.currentSize == Sum(prev.current, size)
    requires !(prev.currentSize + size(item) > SectionSizeLimit && prev.currentSize > 0)
    requires prev.current == [] ==> prev.closed == []
    requires ClosedForCause(Groups(prev), size)
    requires forall i | 0 <= i < |Groups(prev)| :: WithinBudget(Groups(prev)[i], size)
    ensures var s := Step(prev, item, size);
      && Flatten(Groups(s)) == Flatten(Groups(prev)) + [item]
      && s.currentSize == Sum(s.current, size)
      && ClosedForCause(Groups(s), size)
      && forall i | 0 <= i < |Groups(s)| :: WithinBudget(Groups(s)[i], size)
  {
    var s := Step(prev, item, size);
    var gs := Groups(s);
    var cur := prev.current + [item];
    assert gs == prev.closed + [cur];
    assert gs[..|gs| - 1] == prev.closed;
    assert Groups(prev)[..|Groups(prev)| - 1] == prev.closed;
    assert cur[..|cur| - 1] == prev.current;
    assert WithinBudget(cur, size);
    forall i | 0 <= i < |gs| ensures WithinBudget(gs[i], size) {
      if i < |gs| - 1 {
        assert gs[i] == Groups(prev)[i];
      }
    }
    forall i | 0 <= i < |gs| - 1 ensures Overflows(gs, i, size) {
      assert Overflows(Groups(prev), i, size);
      assert gs[i] == Groups(prev)[i];
      if i + 1 < |gs| - 1 {
        assert gs[i + 1] == Groups(prev)[i + 1];
      } else {
        assert prev.current != [];
        assert gs[i + 1][0] == Groups(prev)[i + 1][0];
      }
    }
  }

  /** `render_posts`'s split: the sections yielded, in order. */
  function Split<T>(items: seq<T>, size: T -> nat): (groups: seq<seq<T>>)
    ensures |groups| >= 1
    ensures Flatten(groups) == items
    ensures items != [] ==> forall i | 0 <= i < |groups| :: groups[i] != []
    ensures ClosedForCause(groups, size)
    ensures forall i | 0 <= i < |groups| :: WithinBudget(groups[i], size)
  {
    var groups := Groups(Run(items, size));
    forall i | 0 <= i < |groups| && items != [] ensures groups[i] != [] {
      if i < |groups| - 1 {
        assert Overflows(groups, i, size);
      }
    }
    groups
  }

  /** When every item has a positive size, a section holding more than one
      item stays within the limit. */
  lemma MultiItemSectionsFit<T>(items: seq<T>, size: T -> nat, i: nat)
    requires forall k | 0 <= k < |items| :: size(items[k]) > 0
    requires i < |Split(items, size)| && |Split(items, size)[i]| > 1
    ensures Sum(Split(items, size)[i], size) <= SectionSizeLimit
  {
    var groups := Split(items, size);
    var g := groups[i];
    FlattenMember(groups, i, g[0]);
    SumPositive(g[..|g| - 1], size, g[0]);
  }

  lemma {:induction false} FlattenMember<T>(groups: seq<seq<T>>, i: nat, x: T)
    requires i < |groups| && x in groups[i]
    ensures x in Flatten(groups)
    decreases |groups|
  {
    if i < |groups| - 1 {
      FlattenMember(groups[..|groups| - 1], i, x);
    }
  }

  lemma {:induction false} SumPositive<T>(xs: seq<T>, size: T -> nat, x: T)
    requires x in xs && size(x) > 0
    ensures Sum(xs, size) > 0
    decreases |xs|
  {
    if xs[|xs| - 1] != x {
      SumPositive(xs[..|xs| - 1], size, x);
    }
  }

  /** `Section`: the items appended so far, the size counter and the
      link targets, one per item. */
  datatype Section<T, K> = Section(body: seq<T>, size: nat, linkTargets: seq<K>)

  /** `Section.append`. */
  function Append<T, K>(s: Section<T, K>, item: T, size: T -> nat, target: T -> K): Section<T, K> {
    Section(s.body + [item], s.size + size(item), s.linkTargets + [target(item)])
  }

  /** A fresh section after appending `items` in order. */
  function Build<T, K>(items: seq<T>, size: T -> nat, target: T -> K): (s: Section<T, K>)
    ensures s.body == items
    ensures s.size == Sum(items, size)
    ensures |s.linkTargets| == |items| && forall i | 0 <= i < |items| :: s.linkTargets[i] == target(items[i])
  {
    if items == [] then Section([], 0, [])
    else Append(Build(items[..|items| - 1], size, target), items[|items| - 1], size, target)
  }

  /** The sections `render_posts` yields: the split groups, each appended
      into a fresh section. Their bodies give back the items in order,
      every section's size counter is the sum of its items' sizes and stays
      within the budget, and a section is closed only when the next item
      would overflow it. */
  function Sections<T, K>(items: seq<T>, size: T -> nat, target: T -> K): (ss: seq<Section<T, K>>)
    ensures |ss| == |Split(items, size)|
    ensures forall i | 0 <= i < |ss| :: ss[i] == Build(Split(items, size)[i], size, target)
    ensures Flatten(Bodies(ss)) == items
    ensures |ss| >= 1
    ensures items != [] ==> forall i | 0 <= i < |ss| :: ss[i].body != []
    ensures ClosedForCause(Bodies(ss), size)
    ensures forall i | 0 <= i < |ss| :: ss[i].size == Sum(ss[i].body, size) && WithinBudget(ss[i].body, size)
  {
    var groups := Split(items, size);
    var ss := seq(|groups|, i requires 0 <= i < |groups| => Build(groups[i], size, target));
    assert Bodies(ss) == groups;
    ss
  }

  function Bodies<T, K>(ss: seq<Section<T, K>>): (bs: seq<seq<T>>)
    ensures |bs| == |ss| && forall i | 0 <= i < |ss| :: bs[i] == ss[i].body
  {
    seq(|ss|, i requires 0 <= i < |ss| => ss[i].body)
  }
}

=== FILE: streamlit_app.dfy ===
/** streamlit_app.py: icons are hotlinked instead of copied, so rendering
    never touches the registry; posts are packed into sections by a
    running size counter. */
module StreamlitApp {
  import opened Wrappers
  import opened Urls
  import opened Posts
  import opened Seqs
  import Splitting

  /** `render_post`: header, the icon pointing at its original URL with no
      alt text, then the content; no anchor. */
  function RenderPost(p: RawPost): (r: RenderedPost)
    ensures r.author == p.author && r.permalink == p.permalink
    ensures Anchors(r.blocks) == []
    ensures Headers(r.blocks) == [HeaderText(p)] && r.blocks[0] == Header(HeaderText(p))
    ensures Icons(r.blocks) == (if p.icon.Some? then [IconImage(p.icon.value.src, None)] else [])
    ensures ContentOf(r.blocks) == p.content
    ensures LaidOut(r.blocks, None, HeaderText(p), if p.icon.Some? then Some(IconImage(p.icon.value.src, None)) else None, p.content)
  {
    var icon := if p.icon.Some? then Some(IconImage(p.icon.value.src, None)) else None;
    RenderedPost(Assemble(None, HeaderText(p), icon, p.content), p.author, p.permalink)
  }

  function RenderAll(posts: seq<RawPost>): (rs: seq<RenderedPost>)
    ensures |rs| == |posts| && forall k | 0 <= k < |posts| :: rs[k] == RenderPost(posts[k])
  {
    seq(|posts|, k requires 0 <= k < |posts| => RenderPost(posts[k]))
  }

  /** What `render_posts` leaves behind: the posts of each yielded output
      and the keys of the `authors` dictionary. */
  datatype Rendered = Rendered(outputs: seq<seq<RenderedPost>>, authors: seq<Option<string>>)

  /** `render_posts`: the counter holds the size of the current output; a
      new output starts only when the counter is positive and the next
      post would push it past `SECTION_SIZE_LIMIT`. */
  function RenderPosts(posts: seq<RawPost>, authors: seq<Option<string>>, measure: RenderedPost -> nat): (res: Rendered)
    ensures |res.outputs| >= 1
    ensures Flatten(res.outputs) == RenderAll(posts)
    ensures posts != [] ==> forall i | 0 <= i < |res.outputs| :: res.outputs[i] != []
    ensures Splitting.ClosedForCause(res.outputs, measure)
    ensures forall i | 0 <= i < |res.outputs| :: Splitting.WithinBudget(res.outputs[i], measure)
    ensures res.authors == Recorded(authors, AuthorsOf(posts))
  {
    Rendered(Splitting.Split(RenderAll(posts), measure), Recorded(authors, AuthorsOf(posts)))
  }
}

=== FILE: urls.dfy ===
/** URLs as the six parts `urllib.parse.urlparse` yields, the inverse
    `geturl`, and the two reply-link regular expressions of the link
    rewriter, matched on the URL's text. */
module Urls {
  import opened Wrappers
  import Decimal
  import Sanitizer

  /** `params` is the `;`-separated part `urlparse` splits off the last
      path segment; `path` stops before it. */
  datatype Url = Url(scheme: string, netloc: string, path: string, params: string, query: string, fragment: string)

  /** The schemes for which `urlunsplit` writes a `//` authority even when
      the host is empty. */
  const UsesNetloc: set<string> := {
    "", "ftp", "http", "gopher", "nntp", "telnet", "imap", "wais", "file", "mms", "https", "shttp",
    "snews", "prospero", "rtsp", "rtspu", "rsync", "svn", "svn+ssh", "sftp", "nfs", "git", "git+ssh",
    "ws", "wss", "rtsps", "itms-services"
  }

  const GlowficRoot := Url("https", "glowfic.com", "", "", "", "")

  /** A URL consisting of a bare path: the record stored when an attribute
      is overwritten with a plain file name. */
  function PathOnly(p: string): (u: Url)
    ensures Unparse(u) == p
  {
    Url("", "", p, "", "", "")
  }

  /** `urlparse(url).path.split(".")[-1]`: the text after the last '.' of
      the path, which leaves out the params. */
  function Ext(url: Url): string {
    Sanitizer.Extension(url.path)
  }

  /** The extension is the tail of the path after its last '.' (the whole
      path when it has none); the params play no part. */
  lemma ExtIsPathTail(url: Url)
    ensures var e := Ext(url);
      '.' !in e && |e| <= |url.path| && url.path[|url.path| - |e|..] == e
      && (|e| < |url.path| ==> url.path[|url.path| - |e| - 1] == '.')
  {
    var (stem, e) := Sanitizer.SplitExtension(url.path);
    if '.' in url.path {
      assert url.path == stem + "." + e;
      assert url.path[|url.path| - |e|..] == e;
    }
  }

  /** The path as `urlunparse` writes it: with `;params` when there are any. */
  function FullPath(u: Url): string {
    if u.params != "" then u.path + ";" + u.params else u.path
  }

  /** `geturl()`: the text of a URL record. */
  function Unparse(u: Url): string {
    var p := FullPath(u);
    var authority :=
      if u.netloc != "" || (u.scheme != "" && u.scheme in UsesNetloc && !("//" <= p)) then
        "//" + u.netloc + (if p != "" && p[0] != '/' then "/" + p else p)
      else p;
    var withScheme := if u.scheme != "" then u.scheme + ":" + authority else authority;
    var withQuery := if u.query != "" then withScheme + "?" + u.query else withScheme;
    if u.fragment != "" then withQuery + "#" + u.fragment else withQuery
  }

  /** A character `urlparse` accepts in a scheme. */
  predicate SchemeChar(c: char) {
    'a' <= c <= 'z' || 'A' <= c <= 'Z' || '0' <= c <= '9' || c == '+' || c == '-' || c == '.'
  }

  /** Records `urlparse` can produce: a scheme, when present, starts with a
      letter and uses scheme characters only. */
  predicate Parsed(u: Url) {
    u.scheme == [] || (('a' <= u.scheme[0] <= 'z' || 'A' <= u.scheme[0] <= 'Z')
      && forall i | 0 <= i < |u.scheme| :: SchemeChar(u.scheme[i]))
  }

  /** `RELATIVE_REPLY_RE.match(raw)`: `/(replies|posts)/\d*` at the start.
      The digit run may be empty, so only the prefix matters. */
  predicate IsRelativeReply(raw: string) {
    "/replies/" <= raw || "/posts/" <= raw
  }

  /** `ABSOLUTE_REPLY_RE.match(raw).group("relative")`, for the pattern
      `https?://(www.)?glowfic.com(?P<relative>/(replies|posts)/\d*)`.
      The two unescaped dots match any character but a line feed, and the
      optional `www.` is tried first and dropped if the rest then fails to
      match. */
  function MatchAbsoluteReply(raw: string): (rel: Option<string>)
    ensures rel.Some? ==> IsRelativeReply(rel.value)
  {
    if "https://" <= raw then AfterScheme(raw[8..])
    else if "http://" <= raw then AfterScheme(raw[7..])
    else None
  }

  /** The pattern after `https?://`: `(www.)?glowfic.com` and a reply path. */
  function AfterScheme(h: string): (rel: Option<string>)
    ensures rel.Some? ==> IsRelativeReply(rel.value)
  {
    var withWww := if |h| >= 4 && "www" <= h && h[3] != '\n' then HostThenReply(h[4..]) else None;
    if withWww.Some? then withWww else HostThenReply(h)
  }

  /** `glowfic.com` (middle character any but a line feed) followed by a
      reply path. */
  function HostThenReply(h: string): (rel: Option<string>)
    ensures rel.Some? ==> IsRelativeReply(rel.value)
  {
    if |h| >= 11 && "glowfic" <= h && h[7] != '\n' && h[8..11] == "com" then ReplyPath(h[11..]) else None
  }

  /** `/(replies|posts)/\d*` at the start of `p`, with the greedy digit run
      (ASCII digits). */
  function ReplyPath(p: string): (rel: Option<string>)
    ensures rel.Some? <==> IsRelativeReply(p)
    ensures rel.Some? ==> IsRelativeReply(rel.value) && rel.value <= p
    ensures rel.Some? ==> |rel.value| == |p| || !Decimal.IsDigit(p[|rel.value|])
    ensures "/replies/" <= p ==> "/replies/" <= rel.value && Decimal.AllDigits(rel.value[9..])
    ensures "/posts/" <= p ==> "/posts/" <= rel.value && Decimal.AllDigits(rel.value[7..])
  {
    if "/replies/" <= p then
      var d := Decimal.LeadingDigits(p[9..]);
      assert p[1] == 'r' && ("/replies/" + d)[9..] == d;
      Some("/replies/" + d)
    else if "/posts/" <= p then
      var d := Decimal.LeadingDigits(p[7..]);
      assert ("/posts/" + d)[7..] == d;
      Some("/posts/" + d)
    else None
  }

  /** ABSOLUTE_REPLY_RE does fire: an http(s) glowfic.com reply URL, with
      or without `www.`, yields its reply path with the whole digit run. */
  lemma AbsoluteReplyMatches(raw: string, scheme: string, www: string, kind: string, d: string, t: string)
    requires scheme == "http" || scheme == "https"
    requires www == "" || www == "www."
    requires kind == "/replies/" || kind == "/posts/"
    requires Decimal.AllDigits(d) && (t == [] || !Decimal.IsDigit(t[0]))
    requires raw == scheme + "://" + www + "glowfic.com" + kind + d + t
    ensures MatchAbsoluteReply(raw) == Some(kind + d)
  {
    var p := kind + d + t;
    var h := www + "glowfic.com" + p;
    assert raw == scheme + "://" + h;
    ReplyPathDigits(kind, d, t, p);
    HostMatches(www, p, h);
    SchemeStripped(raw, scheme, h);
  }

  lemma SchemeStripped(raw: string, scheme: string, h: string)
    requires scheme == "http" || scheme == "https"
    requires raw == scheme + "://" + h
    ensures MatchAbsoluteReply(raw) == AfterScheme(h)
  {
    if scheme == "https" {
      assert "https://" <= raw && raw[8..] == h;
    } else {
      assert raw[4] == ':';
      assert "http://" <= raw && raw[7..] == h;
    }
  }

  lemma HostMatches(www: string, p: string, h: string)
    requires www == "" || www == "www."
    requires IsRelativeReply(p)
    requires h == www + "glowfic.com" + p
    ensures AfterScheme(h) == ReplyPath(p)
  {
    var g := "glowfic.com" + p;
    assert g[11..] == p && "glowfic" <= g && g[8..11] == "com";
    if www == "" {
      assert h == g && h[0] == 'g';
    } else {
      assert h == "www." + g && h[4..] == g;
    }
  }

  lemma ReplyPathDigits(kind: string, d: string, t: string, p: string)
    requires kind == "/replies/" || kind == "/posts/"
    requires Decimal.AllDigits(d) && (t == [] || !Decimal.IsDigit(t[0]))
    requires p == kind + d + t
    ensures ReplyPath(p) == Some(kind + d)
  {
    assert p[|kind|..] == d + t;
    Decimal.LeadingDigitsOf(d, t);
    if kind == "/posts/" {
      assert p[1] == 'p';
    }
  }

  /** The text of a URL with a host starts with its scheme or with `//`,
      never with a reply path. */
  lemma HostedIsNotRelative(u: Url)
    ensures Parsed(u) && u.netloc != "" ==> !IsRelativeReply(Unparse(u))
  {
    var raw := Unparse(u);
    if u.netloc == "" {
    } else if u.scheme == [] {
      var p := FullPath(u);
      var authority := "//" + u.netloc + (if p != "" && p[0] != '/' then "/" + p else p);
      assert authority[1] == '/';
      assert authority <= raw;
      assert raw[1] == '/';
    } else {
      assert raw[0] == u.scheme[0];
    }
  }

  /** The path a reader takes from the text of a reference without scheme
      or host (section 3.3 of RFC 3986): the text before the first '?' or
      '#'. */
  function RefPath(s: string): (p: string)
    ensures p <= s && '#' !in p && '?' !in p
  {
    if s == [] || s[0] == '#' || s[0] == '?' then [] else [s[0]] + RefPath(s[1..])
  }

  /** A path free of '#' and '?' followed by a query, a fragment or nothing
      is the whole reference path. */
  lemma {:induction false} RefPathStops(p: string, t: string)
    requires '#' !in p && '?' !in p
    requires t == [] || t[0] == '#' || t[0] == '?'
    ensures RefPath(p + t) == p
    decreases |p|
  {
    if p != [] {
      assert (p + t)[0] == p[0] && (p + t)[1..] == p[1..] + t;
      RefPathStops(p[1..], t);
    } else {
      assert p + t == t;
    }
  }

  predicate IsHex(c: char) {
    '0' <= c <= '9' || 'a' <= c <= 'f' || 'A' <= c <= 'F'
  }

  function HexValue(c: char): (v: nat)
    requires IsHex(c)
    ensures v < 16
  {
    if '0' <= c <= '9' then c as int - '0' as int
    else if 'a' <= c <= 'f' then c as int - 'a' as int + 10
    else c as int - 'A' as int + 10
  }

  /** Percent-decoding of the escapes of ASCII characters, `%00` to `%7F`;
      any other '%' is kept as it is. */
  function Decode(s: string): string
    decreases |s|
  {
    if |s| >= 3 && s[0] == '%' && IsHex(s[1]) && IsHex(s[2]) && HexValue(s[1]) < 8 then
      [(HexValue(s[1]) * 16 + HexValue(s[2])) as char] + Decode(s[3..])
    else if s == [] then []
    else [s[0]] + Decode(s[1..])
  }

  /** The file a reader opens for the text of a reference without scheme or
      host: its path, percent-decoded. File names never hold ':' or '/',
      so a reader sees neither a scheme nor a host in them. */
  function ReaderFile(text: string): string {
    Decode(RefPath(text))
  }

  /** The escape of one character of a file name: the three characters a
      reader treats specially in a path ('%', '#' and '?') become
      `%25`, `%23` and `%3F`, as `urllib.parse.quote` writes them; every
      other character is kept. */
  function EscapeChar(c: char): string {
    if c == '%' then "%25" else if c == '#' then "%23" else if c == '?' then "%3F" else [c]
  }

  function Escape(s: string): (e: string)
    ensures '#' !in e && '?' !in e
  {
    if s == [] then [] else EscapeChar(s[0]) + Escape(s[1..])
  }

  /** Decoding undoes escaping: the escaped name reads back as the name. */
  lemma {:induction false} DecodeEscape(s: string)
    ensures Decode(Escape(s)) == s
    decreases |s|
  {
    if s != [] {
      DecodeEscape(s[1..]);
      DecodeEscapeChar(s[0], Escape(s[1..]));
      assert s == [s[0]] + s[1..];
    }
  }

  lemma DecodeEscapeChar(c: char, t: string)
    ensures Decode(EscapeChar(c) + t) == [c] + Decode(t)
  {
    var x := EscapeChar(c) + t;
    if c == '%' || c == '#' || c == '?' {
      assert x[..3] == EscapeChar(c) && x[3..] == t;
    } else {
      assert x[0] == c && x[1..] == t;
    }
  }

  /** A text without '%' decodes to itself. */
  lemma {:induction false} DecodeWithoutPercent(s: string)
    requires '%' !in s
    ensures Decode(s) == s
    decreases |s|
  {
    if s != [] {
      DecodeWithoutPercent(s[1..]);
      assert s == [s[0]] + s[1..];
    }
  }

  /** The text of a URL that has only a path, a query and a fragment starts
      with the path followed by '?', '#' or nothing. */
  lemma BarePathText(u: Url)
    requires u.scheme == "" && u.netloc == "" && u.params == ""
    requires '#' !in u.path && '?' !in u.path
    ensures RefPath(Unparse(u)) == u.path
  {
    var q := if u.query != "" then "?" + u.query else "";
    var f := if u.fragment != "" then "#" + u.fragment else "";
    assert Unparse(u) == u.path + (q + f);
    RefPathStops(u.path, q + f);
  }

  /** A reader opens exactly the path of such a URL when the path holds
      none of '#', '?' and '%'. */
  lemma PlainPathRead(u: Url)
    requires u.scheme == "" && u.netloc == "" && u.params == ""
    requires '#' !in u.path && '?' !in u.path && '%' !in u.path
    ensures ReaderFile(Unparse(u)) == u.path
  {
    BarePathText(u);
    DecodeWithoutPercent(u.path);
  }

  /** With its path escaped, a reader opens exactly the path of such a URL,
      whatever characters it holds. */
  lemma EscapedPathRead(u: Url)
    requires u.scheme == "" && u.netloc == "" && u.params == ""
    ensures ReaderFile(Unparse(u.(path := Escape(u.path)))) == u.path
  {
    BarePathText(u.(path := Escape(u.path)));
    DecodeEscape(u.path);
  }
}

=== FILE: utf8.dfy ===
/** Length of a string once encoded as UTF-8, as computed by
    `len(s.encode("utf-8"))`. A `char` is a Unicode scalar value, so every
    string here has an encoding. */
module Utf8 {

  /** Number of bytes UTF-8 uses for one scalar value. */
  function CharLen(c: char): (n: nat)
    ensures 1 <= n <= 4
    ensures n == 1 <==> c as int < 0x80
  {
    if c as int < 0x80 then 1
    else if c as int < 0x800 then 2
    else if c as int < 0x1_0000 then 3
    else 4
  }

  /** Encoded length, accumulated from the right so that prefixes unfold. */
  function Len(s: string): (n: nat)
    ensures |s| <= n <= 4 * |s|
  {
    if s == [] then 0 else Len(s[..|s| - 1]) + CharLen(s[|s| - 1])
  }

  predicate IsAscii(s: string) {
    forall i | 0 <= i < |s| :: s[i] as int < 0x80
  }

  lemma {:induction false} LenConcat(a: string, b: string)
    ensures Len(a + b) == Len(a) + Len(b)
    decreases |b|
  {
    if b == [] {
      assert a + b == a;
    } else {
      var b' := b[..|b| - 1];
      assert (a + b)[..|a + b| - 1] == a + b';
      LenConcat(a, b');
    }
  }

  /** A longer prefix never encodes shorter. */
  lemma {:induction false} LenPrefixMonotone(s: string, k: nat, k': nat)
    requires k <= k' <= |s|
    ensures Len(s[..k]) <= Len(s[..k'])
    decreases k' - k
  {
    if k < k' {
      assert s[..k'][..k' - 1] == s[..k' - 1];
      LenPrefixMonotone(s, k, k' - 1);
    }
  }

  /** ASCII text takes exactly one byte per character. */
  lemma {:induction false} AsciiLen(s: string)
    requires IsAscii(s)
    ensures Len(s) == |s|
    decreases |s|
  {
    if s != [] {
      AsciiLen(s[..|s| - 1]);
    }
  }
}

=== FILE: wrappers.dfy ===
/** Failure-carrying wrappers: the model's stand-in for Python's `None`
    and for raised exceptions. */
module Wrappers {

  datatype Option<+T> = None | Some(value: T)

  datatype Result<+R, +E> = Success(value: R) | Failure(error: E)
}
